=== FILE: README.md ===
# cumplo-common domain models in Dafny

This project models the domain layer of `cumplo_common`. These are the pydantic
models that the Cumplo investment services share. The model covers:

- **Case-insensitive string enums.** The project's `StrEnum` base, the notification
  `Template`s, the resource/state `Event`s, and the private and public event
  tables. Lookup by value ignores case. `has_member` looks at member names.
- **Notification identity and expiry.** A notification id is
  `<template value>_<content id>`. A "before" validator splits it into the
  `template` and `content_id` fields. `build_id` joins them back.
- **The notify decision.** `User.should_notify` decides whether a user is told
  about an event again. The `has_expired` checks on notifications, sessions,
  balances and portfolios are part of this.
- **Model equality.** The shared `BaseModel` hashes the JSON dump without `id`
  and without `None` fields, and equality compares those hashes. The model
  treats a dump as a record of named fields. The filter configurations also
  ignore `name`, and their field bounds are invariants because pydantic
  re-checks them on every assignment.
- **Channel configurations.** WhatsApp, webhook and IFTTT channels, their field
  validators, and the `type_`-to-class registry through which stored channel
  documents are rebuilt.
- **Exact arithmetic.** The portfolio aggregates, the simulation cash flows, the
  duration text, the funding-request URL, completion, and monthly-profit rounding.
  `Decimal` becomes `real`, or digits plus places where its text matters.
- **`Cache.remove`.** An in-place filter of the cache's entries by a subset test
  on keys.

Layout:

- There is one module per source file: `StrEnum`, `Template`, `Event`,
  `EventPrivate`, `EventPublic`, `Notification`, `User`, `Session`, `BaseModel`,
  `FilterConfiguration`, `Filter`, `Channel`, `ChannelRegistry`, `Webhook`,
  `Ifttt`, `Whatsapp`, `Portfolio`, `Simulation`, `FundingRequest` and `Cache`.
- Four shared modules support them:
  - `Wrappers`: `Option`, and `Result` for raised exceptions.
  - `Text`: the Python `str` operations the models use, on ASCII, and pydantic's whitespace trimming over the Unicode White_Space set.
  - `DecimalNumber`: finite decimals with a non-negative exponent, keeping their text.
  - `ContentEvent`: the content type an event carries.

How the Python code's form carries over:

- Most of the code is made of pure expressions, so it becomes functions and lemmas.
- `Cache.remove` pops entries while it walks the keys. It is a class method with a
  loop, proved against the function `Removed`.
- `Notification._process_id` writes into the incoming dict. It is a method on a
  `Values` object, proved against `Processed`.
- `FundingRequest._calculate_irr` assigns `irr`. It is a method on a
  `FundingRequest` class.
- `Simulation.cash_flows` copies, edits and prepends. It is a method proved
  against `CashFlowsOf`.

Facts of the code the model relies on:

- A notification id joins its parts with `_` (cumplo_common/models/notification.py:68).
- The default `expiration_minutes` is 30, the fallback in
  cumplo_common/utils/constants.py:9.
- A channel has a plain `events` list (cumplo_common/models/channel/channel.py:24).

## Model

| member | source | states |
|---|---|---|
| StrEnum.Find | cumplo_common/models/utils.py:11-13 | the index found is the first in declaration order whose member passes the test; none is found only when no member passes |
| StrEnum.Missing | cumplo_common/models/utils.py:8-14 | `_missing_` returns the first member whose value equals the input ignoring case; it returns None when no member matches and for every non-string input |
| StrEnum.Call | cumplo_common/models/utils.py:8-14 | an enum call yields a listed member whose value equals the input ignoring case; an exact value always yields its own member; non-strings fail |
| StrEnum.HasMember | cumplo_common/models/utils.py:16-19 | `has_member` holds iff some member NAME equals the input ignoring case |
| StrEnum.CallFoldDistinct | cumplo_common/models/utils.py:10-13 | when no two values fold alike, a string constructs member m iff it is m's value in some casing |
| Template.AllEnumerates | cumplo_common/models/template.py:24-27 | the table lists every template exactly once, in declaration order, and has four entries (what `members()` yields) |
| Template.ValuesFoldDistinct | cumplo_common/models/template.py:24-27 | template values are pairwise distinct, also ignoring case |
| Template.ValuesAreLowerCaseLetters | cumplo_common/models/template.py:24-27 | every value is a non-empty run of lower-case letters, so it fits the letter segment of a notification id |
| Template.OnlyPromisingRecurs | cumplo_common/models/template.py:24-27 | PROMISING is the only recurring template and the only one whose topic is FUNDING_REQUESTS |
| Template.FromValueIff | cumplo_common/models/template.py:14-19 | `Template(s)` is t exactly when s is t's value in some casing |
| Template.FromValueFails | cumplo_common/models/utils.py:14 | a non-string, or a string that matches no value in any casing, constructs no template |
| Template.NameFoldsToValue | cumplo_common/models/template.py:24-27 | each member's upper-case name folds to its value |
| Template.HasMemberIff | cumplo_common/models/utils.py:16-19 | `Template.has_member(s)` iff s is some member's name in some casing |
| Template.Template.Repr | cumplo_common/models/template.py:21-22 | `repr` is `<Template.`, the member name, `.`, the topic name and `>`, each at its position |
| Event.AllEnumerates | cumplo_common/models/event.py:39-42 | the event table lists every member exactly once |
| Event.ValueIsResourceDotState | cumplo_common/models/event.py:39-42 | each member's value is its resource's value, a dot, and its state's value |
| Event.OnlyFundingRequestPromisingRecurs | cumplo_common/models/event.py:39-42 | only FUNDING_REQUEST_PROMISING is recurring |
| Event.NamesFoldToValues | cumplo_common/models/event.py:8-17 | every resource and state name folds to its value |
| Event.ValueFoldsToItself | cumplo_common/models/event.py:39-42 | event values are written in lower case |
| Event.NewTextFolds | cumplo_common/models/event.py:37 | the text `new` looks up folds to resource value + "." + state value |
| Event.ValuesFoldDistinct | cumplo_common/models/event.py:39-42 | event values are pairwise distinct, also ignoring case |
| Event.PairsUnique | cumplo_common/models/event.py:39-42 | each (resource, state) pair belongs to at most one member |
| Event.FromValueIff | cumplo_common/models/event.py:26-32 | `Event(s)` is e exactly when s is e's value in some casing |
| Event.ValueDeterminesPair | cumplo_common/models/event.py:39-42 | a member's value spells r.value + "." + s.value iff its resource is r and its state is s |
| Event.NewIff | cumplo_common/models/event.py:34-37 | `Event.new(r, s)` yields e iff e's resource is r and its state is s; upper-case names reach values only by case folding |
| Event.NewFundingRequestFailedFails | cumplo_common/models/event.py:37 | `new(FUNDING_REQUEST, FAILED)` fails because no member has that pair |
| Event.AnyCasingOfANameIsAMember | cumplo_common/models/utils.py:16-19 | any casing of a member name satisfies `has_member` |
| Event.HasMemberByNameNotValue | cumplo_common/models/utils.py:19 | `has_member` accepts the name FUNDING_REQUEST_PROMISING but rejects the value `funding_request.promising` |
| EventPrivate.ValuesDistinct | cumplo_common/models/event_private.py:13-43 | no two private events share a value |
| EventPrivate.ActionsDistinct | cumplo_common/models/event_private.py:13-43 | within one content type, no two private events share the text after the prefix |
| EventPrivate.OnlyFundingRequestPromisingRecurs | cumplo_common/models/event_private.py:14 | FUNDING_REQUEST_PROMISING is the only entry declared recurring |
| EventPrivate.ValueSplits | cumplo_common/models/event_private.py:13-43 | every value is the prefix of its content type, a dot, and the rest |
| EventPrivate.ContentTypeFollowsPrefix | cumplo_common/models/event_private.py:13-43 | the text before the first dot determines the content type: `funding_request`, `user`, `investment` and `movement` give FundingRequest, User, Investment and Movement |
| EventPrivate.ActionDotted | cumplo_common/models/event_private.py:16-19 | the text after the prefix holds a further dot iff the content type is User |
| EventPrivate.SingleDotExceptUser | cumplo_common/models/event_private.py:16-19 | a value has the single-dot `resource.state` shape iff it is not a `user.*` event |
| EventPublic.SingleMember | cumplo_common/models/event_public.py:9 | the public taxonomy has exactly one member, FUNDING_REQUEST_PROMISING |
| EventPublic.AgreesWithPrivate | cumplo_common/models/event_public.py:9 | the public member has the private entry's value, content type and recurrence flag, and its prefix gives FundingRequest |
| ContentEvent.ResourcePrefix | cumplo_common/models/event_private.py:13-43 | the prefix is the longest dot-free start of a value, and a dot follows it when the value has one |
| ContentEvent.SingleDotIff | cumplo_common/models/event_private.py:16-19 | `a.b` with a dot-free `a` has a single dot iff `b` has none |
| Notification.MatchesIdIff | cumplo_common/models/notification.py:35 | the scanner the model uses for `^[a-zA-Z]+_\d+$` accepts exactly the ids of that shape |
| Notification.SplitId | cumplo_common/models/notification.py:35-38 | an id splits iff it matches the pattern; the parts are the letters before `_` and the digits after it, and they join back to the id |
| Notification.Processed | cumplo_common/models/notification.py:30-39 | a missing or falsy id leaves the values unchanged; a non-empty id is accepted iff it matches the pattern and raises "Invalid ID format" otherwise; on acceptance `template` and `content_id` are the two halves |
| Notification.ProcessId | cumplo_common/models/notification.py:30-39 | the in-place validator leaves the dict as `Processed` describes, and leaves it untouched when it raises |
| Notification.IntField | cumplo_common/models/notification.py:19 | `content_id` takes an int as is and a digit string as its decimal value; other kinds are rejected |
| Notification.TemplateField | cumplo_common/models/notification.py:20 | the template field resolves a string to the template whose value it folds to, and resolves whenever such a template exists |
| Notification.Fields | cumplo_common/models/notification.py:16-21 | a built notification's fields come from the dict; `expiration_minutes` defaults to 30 and `dismissed` to false |
| Notification.FromValues | cumplo_common/models/notification.py:23-27 | a malformed non-empty id gives "Invalid ID format"; on success the template folds from the letters of the id and `content_id` is the value of its digits |
| Notification.BuildId | cumplo_common/models/notification.py:68 | `build_id(t, c)` is t's value, `_`, and `str(c)`: the decimal digits of c, preceded by `-` when c is negative |
| Notification.SplitBuiltId | cumplo_common/models/notification.py:68 | an id built from a template and a content id ≥ 0 splits back into that value and that digit text |
| Notification.BuildIdRoundTrip | cumplo_common/models/notification.py:35-38 | validating `build_id(t, c)` gives back template t and content id c for every template and every c ≥ 0 |
| Notification.NegativeContentIdRejected | cumplo_common/models/notification.py:35 | an id built from a negative content id is rejected as "Invalid ID format" |
| Notification.LeadingZerosAndCaseAreLost | cumplo_common/models/notification.py:38 | `PROMISING_007` validates to (PROMISING, 7), which rebuilds as `promising_7`, so the reverse round trip fails |
| Notification.MalformedIdsRejected | tests/unit/models/notification_test.py:15-19 | `123_alpha`, `alpha-beta_123`, `alpha_`, `_123` and `alpha123` are rejected with "Invalid ID format" |
| Notification.WithoutUnderscoreNotAnId | cumplo_common/models/notification.py:35-36 | a non-empty id without `_` is rejected |
| Notification.NotAnId | cumplo_common/models/notification.py:35-36 | an id whose text around its first `_` is not letters then digits is rejected |
| Notification.TemplateSegmentFoldsCase | cumplo_common/models/notification.py:38 | a well-formed id validates iff its letters name a template in some casing; the template and content id then come from the two halves |
| Notification.FromIdAndDate | cumplo_common/models/notification.py:30-39 | validating an id and a date gives exactly the notification its two halves describe, or the template or format error |
| Notification.HasExpiredPolarity | cumplo_common/models/notification.py:53 | for a positive window, `has_expired` as written holds at creation and fails after the window, the reverse of the corrected check |
| Notification.HasExpiredAsWrittenIsReversed | cumplo_common/models/notification.py:53 | for every window, `has_expired` as written is the negation of the corrected check except at the boundary minute |
| Notification.ExpiryIsMonotone | cumplo_common/models/notification.py:53 | under the corrected check, expiry persists as time passes and the boundary minute is not expired |
| User.CachedDataExpiry | cumplo_common/models/user.py:34 | a balance and a portfolio (user.py:44) are expired exactly once `updated_at + window < now`: the boundary minute is not expired, the next one is, and expiry persists |
| User.OfPublic | cumplo_common/models/event_public.py:9 | the public event notifies with value `funding_request.promising` and is recurring |
| User.OfPrivate | cumplo_common/models/event_private.py:13-43 | a private event is recurring iff it is FUNDING_REQUEST_PROMISING |
| User.SetName | cumplo_common/models/user.py:52 | assigning `name` strips it and accepts it iff the stripped text has at most 30 characters |
| User.SetExpirationMinutes | cumplo_common/models/user.py:54 | assigning `expiration_minutes` is accepted iff the value is positive |
| User.AssignmentKeepsValid | cumplo_common/models/base_model.py:17 | validated assignment preserves the user's field bounds |
| User.NonRecurringAlwaysNotifies | cumplo_common/models/user.py:83-84 | a non-recurring event always notifies, as written and corrected |
| User.ShouldNotify | cumplo_common/models/user.py:70-90 | corrected `should_notify`: a non-recurring event, or one never notified under `build_id(event, id)`, always notifies |
| User.ShouldNotifyAsWritten | cumplo_common/models/user.py:70-90 | `should_notify` as written: true for non-recurring or never-notified events; never true for a recurring event already notified; raises AttributeError exactly while that notification's window is still open |
| User.CoolDownSuppresses | cumplo_common/models/user.py:86-90 | a recurring event already notified is not notified again at any instant up to the end of the notification's window |
| User.DismissedSuppresses | cumplo_common/models/user.py:90 | a dismissed notification suppresses its recurring event at every instant |
| User.RefiresAfterWindow | cumplo_common/models/user.py:90 | a notification not dismissed lets its recurring event notify again at every instant after its window |
| User.OnlyTheKeyIsConsulted | cumplo_common/models/user.py:86-87 | users that agree on the entry under that one key get the same answer |
| User.AsWrittenNeverRenotifies | cumplo_common/models/user.py:90 | as written, a recurring event already notified never notifies again: the call raises while the notification is fresh and answers false later |
| User.PublicEventKeyIsNotAnId | cumplo_common/models/user.py:86 | the key built for the public event starts `funding_request.promising_` and is rejected by notification-id validation |
| Session.Session.Headers | cumplo_common/models/session.py:21-23 | the headers have the single key `authorization`, whose value is `Bearer ` followed by the token |
| Session.New | cumplo_common/models/session.py:12-13 | a new session stores the stripped token and the current time |
| Session.ExpiryBoundary | cumplo_common/models/session.py:18 | a session is not expired at `date + window` and is expired one minute later; expiry persists as time passes |
| Session.FreshSessionValid | cumplo_common/models/session.py:18 | a session created now is not expired now |
| Session.HeaderTokenIsStripped | cumplo_common/models/base_model.py:15 | the header carries the stripped token, and building from a stripped token is the same |
| BaseModel.Dump | cumplo_common/models/base_model.py:22 | the dump keeps exactly the fields not excluded by name and, when asked, not None; one field is dumped iff it is kept |
| BaseModel.DumpConcat | cumplo_common/models/base_model.py:21-28 | the dump of a concatenation is the concatenation of the dumps, for `model_dump_json`, the hash and `str`/`repr`; with the one-field cases this fixes declaration order and multiplicity |
| BaseModel.HashKey | cumplo_common/models/base_model.py:21-22 | the hashed projection holds exactly the fields that are not excluded and not None; one field is hashed iff it is both |
| BaseModel.Str | cumplo_common/models/base_model.py:24-28 | `str` and `repr`, which share one body, hold exactly the non-None fields; one field is kept iff it is not None |
| BaseModel.JsonDict | cumplo_common/models/base_model.py:33-41 | `json()` maps every name that is not excluded and not None to its value, and holds nothing else |
| BaseModel.EqualIsEquivalence | cumplo_common/models/base_model.py:30-31 | equality is reflexive, symmetric and transitive, and equal models hash alike |
| BaseModel.AgreeOutsideIsEqual | cumplo_common/models/base_model.py:21-22 | models with one schema that agree on every non-excluded field are equal |
| BaseModel.EqualAgreesOutside | cumplo_common/models/base_model.py:30-31 | equal models with one schema agree on every non-excluded field |
| BaseModel.Failing | cumplo_common/models/base_model.py:17 | the failing field names are exactly the checks that fail; none fails iff every check passes |
| Text.Strip | cumplo_common/models/base_model.py:15 | `str_strip_whitespace` removes exactly the leading and trailing Unicode White_Space characters, keeping U+001C-U+001F, and what remains starts and ends with a non-space |
| Text.StripIdempotent | cumplo_common/models/base_model.py:15 | stripping twice is stripping once |
| FilterConfiguration.Violations | cumplo_common/models/filter_configuration.py:22-37 | the reported names are exactly the fields whose bound fails; none are reported iff every bound holds |
| FilterConfiguration.Validate | cumplo_common/models/filter_configuration.py:21-37 | a filter is accepted iff the score and paid-in-time bounds lie in [0, 1], the IRR and profit rate are ≥ 0 and the integer thresholds are > 0; it is stored with its `name` stripped (base_model.py:15) and otherwise unchanged |
| FilterConfiguration.ValidateKeepsEquality | cumplo_common/models/filter_configuration.py:21 | the stored filter equals the one given, and validating it again changes nothing |
| FilterConfiguration.Default | cumplo_common/models/filter_configuration.py:22-37 | the default filter is valid, has `ignore_dicom` false, no name, and each of its eleven thresholds unset |
| FilterConfiguration.EqualIff | cumplo_common/models/filter_configuration.py:45-47 | two filters are equal iff they differ at most in `id` and `name` |
| FilterConfiguration.ThresholdsInjective | cumplo_common/models/filter_configuration.py:45-47 | equal dumps of the thresholds mean equal thresholds |
| FilterConfiguration.DefaultsAreEqual | tests/unit/models/filter_test.py:9-20 | two default filters are equal whatever their ids, also with one shared name |
| FilterConfiguration.ThresholdsDecideEquality | tests/unit/models/filter_test.py:22-54 | identical thresholds give equal filters; changing `minimum_duration` alone breaks equality |
| FilterConfiguration.SampleIsValid | tests/unit/models/filter_test.py:25-30 | the filter of those tests passes validation |
| FilterConfiguration.DecimalTextMatters | cumplo_common/models/filter_configuration.py:47 | rewriting `minimum_irr` with a trailing zero keeps its value but breaks equality, because decimals serialise by their text |
| Filter.Validate | cumplo_common/models/filter.py:15-24 | a legacy filter is accepted iff every bound holds, and stored with its `name` stripped and otherwise unchanged; otherwise exactly the failing fields are reported |
| Filter.ValidateKeepsEquality | cumplo_common/models/filter.py:15 | the stored legacy filter equals the one given, and validating it again changes nothing |
| Filter.Default | cumplo_common/models/filter.py:16 | the default legacy filter is valid, has `filter_dicom` false, no name, and each of its eight thresholds unset |
| Filter.EqualIff | cumplo_common/models/filter.py:32-34 | two legacy filters are equal iff they differ at most in `id` and `name` |
| Channel.CommonFields | cumplo_common/models/channel/channel.py:19-25 | a configuration needs `type_`, unless the class has a default, and `metadata`; `enabled` defaults to true and `events` to the empty list; a given `type_` resolves case-insensitively |
| Channel.AllEnumerates | cumplo_common/models/channel/channel.py:9-12 | ChannelType has exactly WHATSAPP, WEBHOOK and IFTTT |
| Channel.FromValueIff | cumplo_common/models/channel/channel.py:9-12 | `ChannelType(s)` is t iff s is t's value in some casing |
| Channel.CommonDefaults | cumplo_common/models/channel/channel.py:22-25 | with only metadata, the defaults apply; a missing `type_` without a class default, or missing metadata, is an error |
| Channel.DumpCommon | cumplo_common/models/channel/channel.py:22-25 | the common fields written back for a configuration carry its type's value, and building from them gives the same fields back whatever the class default |
| ChannelRegistry.RegistryIsOneToOne | cumplo_common/models/channel/__init__.py:6-10 | the registry has one entry per channel type, distinct types map to distinct classes, and each class defaults `type_` to its own key |
| ChannelRegistry.TypeKey | cumplo_common/models/channel/__init__.py:6-10 | a registry key matches a stored string only when that string is exactly the type's value |
| ChannelRegistry.Construct | cumplo_common/database/firestore/channels.py:32 | calling a class builds a configuration of that class, whose type resolves from the stored `type_` |
| ChannelRegistry.Dispatch | cumplo_common/database/firestore/channels.py:32 | dispatch fails with KeyError iff the stored `type_` is absent or not exactly a key; otherwise it builds the class registered for it |
| ChannelRegistry.DispatchKeepsType | cumplo_common/database/firestore/channels.py:50 | a rebuilt configuration has the type its document stored |
| ChannelRegistry.DispatchOfDump | cumplo_common/database/firestore/channels.py:32 | dispatching the dump of a valid configuration whose type is its class default rebuilds that configuration |
| ChannelRegistry.OverriddenTypeMisdispatches | cumplo_common/database/firestore/channels.py:32 | a WhatsApp configuration stored with `type_` IFTTT is sent to the IFTTT class and fails for lack of a key |
| ChannelRegistry.LookupIsCaseSensitive | cumplo_common/database/firestore/channels.py:32 | a stored `webhook` is no registry key, although `ChannelType("webhook")` resolves |
| Webhook.ValidateUrl | cumplo_common/models/channel/webhook.py:14-36 | the validator returns the URL unchanged or rejects it with one of its three messages |
| Webhook.ValidateUrlIff | cumplo_common/models/channel/webhook.py:14-36 | a URL passes iff its scheme is exactly `https`, it has a hostname, and that hostname is not an IP literal classed private |
| Webhook.NotHttpsRejected | cumplo_common/models/channel/webhook.py:22-23 | a non-https scheme gives "Only HTTPS URLs are allowed" |
| Webhook.NoHostnameRejected | cumplo_common/models/channel/webhook.py:25-26 | a missing hostname gives "URL must have a hostname" |
| Webhook.PrivateIpRejected | cumplo_common/models/channel/webhook.py:28-34 | a private IP literal gives "Private IP addresses are not allowed" |
| Webhook.HostNameAccepted | cumplo_common/models/channel/webhook.py:30-31 | a hostname that is not an IP literal passes unchanged |
| Webhook.ReservedHostRejected | cumplo_common/models/channel/webhook.py:33-34 | with an `is_private` that covers them, the RFC 1918 section 3 blocks and loopback are rejected |
| Webhook.UrlField | cumplo_common/models/channel/webhook.py:12 | the stored URL is the validated input stripped, and at most 2000 characters |
| Webhook.Build | cumplo_common/models/channel/webhook.py:11 | a webhook configuration always has `type_` WEBHOOK; any other stored type is rejected; its URL passed the field checks |
| Webhook.StoredUrlBounded | cumplo_common/models/channel/webhook.py:12 | every built webhook's URL is the stripped input and at most 2000 characters |
| Webhook.BuildOfDump | cumplo_common/models/channel/webhook.py:11-12 | building from the dump of a valid webhook configuration gives it back |
| Ifttt.ValidateKey | cumplo_common/models/channel/ifttt.py:11-19 | the key is accepted, unchanged, iff it is non-empty and alphanumeric; otherwise "Webhook key must be alphanumeric" |
| Ifttt.KeyWithSeparatorRejected | cumplo_common/models/channel/ifttt.py:17 | a key holding `-` or `_` is rejected |
| Ifttt.Collapsed | cumplo_common/models/channel/ifttt.py:27 | deleting `-` and `_` keeps every other character and leaves neither |
| Ifttt.ValidateEvent | cumplo_common/models/channel/ifttt.py:21-29 | the event is returned unchanged or rejected with "Event name must be alphanumeric" |
| Ifttt.ValidateEventIff | cumplo_common/models/channel/ifttt.py:27-28 | an event is accepted iff every character is alphanumeric, `-` or `_`, and at least one is alphanumeric |
| Ifttt.SeparatorsOnlyRejected | cumplo_common/models/channel/ifttt.py:27-28 | an event of only `-` and `_` is rejected |
| Ifttt.SeparatedEventAccepted | cumplo_common/models/channel/ifttt.py:17-28 | `a-b_c` passes as an event but not as a key |
| Ifttt.Build | cumplo_common/models/channel/ifttt.py:7 | an IFTTT configuration builds iff the shared fields, the key and the event pass; `type_` defaults to IFTTT |
| Ifttt.BuildOfDump | cumplo_common/models/channel/ifttt.py:6-9 | building from the dump of a valid IFTTT configuration gives it back |
| Whatsapp.ValidatePhone | cumplo_common/models/channel/whatsapp.py:19-21 | the number is accepted, unchanged, iff `re.match` of the pattern succeeds on it; otherwise "Invalid phone number format" |
| Whatsapp.PrefixMatchIsStartAnchoredOnly | cumplo_common/models/channel/whatsapp.py:19 | `re.match` of a regex without end anchors matches by prefix, so a match survives any appended text |
| Whatsapp.MatchIgnoresSuffix | cumplo_common/models/channel/whatsapp.py:19-21 | under a pattern whose matches survive appended text, a number followed by anything is still accepted |
| Whatsapp.E164AnchoredLooksAtTheEnd | cumplo_common/models/channel/whatsapp.py:17-19 | the `$`-anchored E.164 regex is not such a pattern: `+15` passes and `+15 x` does not |
| Whatsapp.E164PrefixIff | cumplo_common/models/channel/whatsapp.py:17-19 | without `$`, the E.164 regex (ITU-T E.164 clause 6) accepts exactly the inputs starting with `+`, a non-zero digit and a digit |
| Whatsapp.E164AnchoredIff | cumplo_common/models/channel/whatsapp.py:17-19 | with `$`, a number not ending in a newline is accepted iff the whole of it is E.164: `+`, a non-zero digit, 1 to 14 more digits |
| Whatsapp.E164AnchoredExamples | cumplo_common/models/channel/whatsapp.py:19-20 | with `$`, `5551234567` and `+56 call me` are rejected and `+15551234567` is accepted |
| Whatsapp.E164PrefixExamples | cumplo_common/models/channel/whatsapp.py:19-20 | without `$`, `5551234567` is rejected and `+56 call me` is accepted |
| Whatsapp.Build | cumplo_common/models/channel/whatsapp.py:9-11 | a WhatsApp configuration builds iff the shared fields pass and `re.match` of the pattern succeeds on the number; `type_` defaults to WHATSAPP |
| Whatsapp.BuildOfDump | cumplo_common/models/channel/whatsapp.py:9-11 | building from the dump of a valid WhatsApp configuration gives it back |
| Portfolio.Portfolio.Outstanding | cumplo_common/models/portfolio.py:44-52 | outstanding is the component-wise sum of active, overdue and delinquent (also borrower.py:47-55) |
| Portfolio.Portfolio.Paid | cumplo_common/models/portfolio.py:54-62 | paid is the component-wise sum of on-time and cured (also borrower.py:57-65) |
| Portfolio.Portfolio.Total | cumplo_common/models/portfolio.py:34-42 | total has percentage 1 and the amount and count of outstanding plus paid (also borrower.py:37-45) |
| Portfolio.SumOfParts | cumplo_common/models/borrower.py:30-35 | summing the five stored units adds them up field by field |
| Portfolio.TotalCoversEveryPart | cumplo_common/models/borrower.py:37-45 | total amount and count are the sums over all five units |
| Portfolio.TotalPercentageIsFixed | cumplo_common/models/borrower.py:42 | total percentage equals outstanding plus paid exactly when the five percentages sum to 1 |
| Simulation.Simulation.Installments | cumplo_common/models/simulation.py:26-30 | `installments` is the length of the payment schedule |
| Simulation.Simulation.Investment | cumplo_common/models/simulation.py:32-36 | `investment` is SIMULATION_AMOUNT plus the upfront fee |
| Simulation.CashFlowsOf | cumplo_common/models/simulation.py:38-52 | an empty schedule fails; otherwise there is one flow more than the schedule, the first flow is `-investment` with interest 0, later flows copy the schedule, and the last has the exit fee deducted |
| Simulation.CashFlows | cumplo_common/models/simulation.py:42-52 | the straight-line copy, edit of the last entry and prepend compute `CashFlowsOf` and leave the schedule untouched |
| Simulation.CashFlowsNet | cumplo_common/models/simulation.py:42-51 | the cash flows sum to the schedule minus the exit fee minus the investment |
| Simulation.CashFlowsWithoutFees | cumplo_common/models/simulation.py:42-43 | with no exit fee the flows after the first are the schedule |
| FundingRequest.Duration.ToString | cumplo_common/models/funding_request.py:30-31 | `str(duration)` is the value's text, a space, and `months` or `days`: the unit in lower case with `s` added |
| FundingRequest.DurationTextIsInjective | cumplo_common/models/funding_request.py:30-31 | distinct durations print differently |
| FundingRequest.DurationExamples | cumplo_common/models/funding_request.py:31 | one month prints as `1 months` and thirty days as `30 days` |
| FundingRequest.CompletionIsExact | cumplo_common/models/funding_request.py:80-82 | `is_completed` holds iff the funded percentage is exactly 1; over-funding is not complete |
| FundingRequest.FundingRequest.Url | cumplo_common/models/funding_request.py:86-88 | the URL is the base URL, `/`, and the id's decimal text |
| FundingRequest.UrlIdentifiesRequest | cumplo_common/models/funding_request.py:86-88 | equal URLs mean equal ids |
| FundingRequest.DefaultBaseUrl | cumplo_common/utils/constants.py:8 | with the empty default base URL, request 42's URL is `/42` |
| FundingRequest.MonthlyProfit | cumplo_common/models/funding_request.py:100 | `monthly_profit(a)` is an integer n with n - 1 < rate · a ≤ n |
| FundingRequest.MonthlyProfitIsLeast | cumplo_common/models/funding_request.py:100 | that integer is the only one, so it is the ceiling |
| FundingRequest.FundingRequest.CalculateIrr | cumplo_common/models/funding_request.py:59-62 | `irr` is left unchanged when installments ≤ 1; otherwise it becomes the IRR of the cash flows; an empty schedule raises IndexError first |
| Cache.Removed | cumplo_common/utils/cache.py:14-17 | a key survives iff no argument pair has both its name and its value among the key's elements; survivors keep their values |
| Cache.Cache.Remove | cumplo_common/utils/cache.py:12-17 | popping while walking the keys leaves exactly `Removed(old entries, arguments)` |
| Cache.NoArgumentsRemoveNothing | cumplo_common/utils/cache.py:15 | with no arguments nothing is removed |
| Cache.RemoveIsIdempotent | cumplo_common/utils/cache.py:14-17 | removing twice with the same arguments is removing once |
| Cache.MatchIsBySet | cumplo_common/utils/cache.py:15 | only which elements a key holds matters, not their order or repetition |
| Cache.ArgumentOrderIsIrrelevant | cumplo_common/utils/cache.py:15 | only which argument pairs are given matters, not their order |
| Cache.RemoveComposes | cumplo_common/utils/cache.py:14-17 | removing with two argument lists in turn is removing with both at once |
| Cache.PairAnywhereMatches | cumplo_common/utils/cache.py:15 | a key holding an argument's value and name anywhere, in either order, is removed |

## Left out

- Hash collisions are not modelled. The model compares hashed dumps directly, but the source compares `hash(str)` values, so in the source "equal iff they agree outside the excluded fields" (BaseModel.EqualAgreesOutside, FilterConfiguration.EqualIff, Filter.EqualIff) holds only up to a collision of Python's string hash.
- Persistence and services are not modelled: Firestore, Gmail, Pub/Sub and the FastAPI dependencies and middleware. They are I/O over third-party SDKs. Only the registry lookup in channels.py lines 32 and 50 is modelled.
- The clock (`arrow.utcnow()`) is a parameter. Instants are whole minutes and dates are whole days. Time zones and `datetime` parsing are not modelled.
- Environment constants become parameters because their definitions are not in constants.py: SIMULATION_AMOUNT, BALANCE_EXPIRATION_MINUTES, INVESTMENT_EXPIRATION_MINUTES, SESSION_EXPIRATION_MINUTES and PHONE_NUMBER_REGEX. CUMPLO_BASE_URL is a parameter whose default, the empty string, is used in one lemma. DEFAULT_EXPIRATION_MINUTES is its fallback, 30.
- Whatsapp: PHONE_NUMBER_REGEX is not defined in constants.py, so it is a parameter: the predicate saying where `re.match` of it succeeds. Every regex has one. The conclusions about it are given for two regexes for the E.164 format the doc-comment names: `^\+[1-9]\d{1,14}$` and the same without `$`. MatchIgnoresSuffix holds only for a regex whose matches survive appended text, which is a stated requirement. Which regex is deployed is not known.
- Webhook: `urlparse`, `ipaddress.ip_address` and `is_private` are the library record `Library`. Only the blocks of section 3 of RFC 1918 and the loopback block are required of `is_private`. The rest of the RFC 6890 registry is left to the library.
- Webhook.Build: `type_` is `Literal[ChannelType.WEBHOOK]`, so only the exact text `WEBHOOK` is accepted. Other casings are rejected as a literal mismatch, and pydantic's error text is not modelled.
- FundingRequest.FundingRequest.CalculateIrr: the IRR is computed by floating-point library code (`numpy_financial.irr`), so it is the parameter `irrOf`. The rounding to four places is not modelled.
- FundingRequest.FundingRequest.CalculateIrr: funding_request.py:62 hands the library `simulation.cash_flows`, a list of `SimulationInstallment` records (simulation.py:40), not of numbers. Whether the library accepts such records is not modelled. `irrOf` takes the records as they are, so the model cannot show the TypeError the library would likely raise when it compares and negates them as numbers.
- Not modelled: `profit_rate` and `monthly_profit_rate` in funding_request.py and `Simulation.profit_rate`. They use float exponents and division. `monthly_profit` takes the rate as input.
- FundingRequest.FundingRequest.CalculateIrr: with `validate_assignment` on, assigning `irr` could run the "after" validator again. That re-entry is not modelled; the assignment is one field write.
- ULID parsing of user and filter ids is not modelled: ids are strings.
- Text is ASCII only except for whitespace trimming. `casefold`, `isalpha`, `isalnum`, `isdigit` and `\d` follow their ASCII cases, and Unicode letters, digits and case folds are not modelled. Trimming follows pydantic's `str_strip_whitespace`, which trims the Unicode White_Space set; this is read from pydantic's documented behaviour, since the library is not part of this model.
- Pydantic's JSON text is not modelled. A dump is a sequence of named, typed field values with the same exclusions. Decimals keep their digits and places, so `1.1` and `1.10` dump differently, as their text does. Decimals with a positive exponent (`1E+1`), `-0`, NaN and infinities are not modelled.
- Pydantic type coercion is not modelled beyond the raw field kinds the notification validator sees. Errors are reduced to the first failing field, or to the list of failing names for filters.
- Cache.Cache.Remove: keys are walked from the set present at the start. Whether the TTL cache's own iteration tolerates the `pop` (the `noqa B909`) is not modelled, and neither is time-to-live expiry.
- `models/channel.py` is not modelled. It is a legacy variant shadowed by the `channel/` package.
- `credentials.py` and its test are not modelled. They concern Fernet encryption.
- `debtor.py`, `investment.py`, `currency`, `topic.py`, `PortfolioStatus` and `BorrowerPortfolioStatus` are records or enums with no behaviour. Only the `Topic` members templates use and `CreditType` appear, as plain datatypes.
- Missing imports:
  - event_private.py and event_public.py import an `Event` base from utils.py that the shown utils.py does not define.
  - channel.py imports `Event` from template.py, which does not define it.
  - event.py and funding_request.py import `StrEnum` from base_model.py, which does not define it.
  The model takes the case-folding `StrEnum` of utils.py. It gives content events a content type and a recurrence flag defaulting to false. It types channel `events` as the `Event` of event.py.
- User: only the fields that the bounds and `should_notify` concern are modelled. Credentials, filters, channels, balance, portfolio and session are not fields of the Dafny `User`.

## Findings

| source | as written | input that shows it | evidently intended | confidence | as-written member | corrected member |
|---|---|---|---|---|---|---|
| cumplo_common/models/notification.py:53 | `has_expired` is `date + expiration_minutes > now`, which holds while the window is still open | a notification dated now with `expiration_minutes` 30: `has_expired` is true at once and false 31 minutes later | expired once `date + expiration_minutes < now`, the polarity of user.py:34 and session.py:18 | high (not executed) | Notification.HasExpiredPolarity, Notification.HasExpiredAsWrittenIsReversed | Notification.ExpiryIsMonotone |
| cumplo_common/models/user.py:90 | reads `notification.dismissed`, a field `Notification` does not declare, so it raises AttributeError whenever `has_expired` holds | a recurring event whose notification is stored under its key and checked while `has_expired` (as written) holds | a declared `dismissed` flag, default false, and the corrected expiry; the user is notified again once the notification has expired and was not dismissed | high (not executed) | User.AsWrittenNeverRenotifies | User.CoolDownSuppresses, User.DismissedSuppresses, User.RefiresAfterWindow |

=== FILE: base_model.dfy ===
/**
 * The project's pydantic `BaseModel` (cumplo_common/models/base_model.py). A
 * model is seen through its serialised fields, in declaration order; hashing,
 * equality, `str`, `repr` and `json` are all functions of that dump.
 */
module BaseModel {

  /**
   * A serialised field value. Decimals keep their digits and their number of
   * places, because they serialise by their text: `1.1` and `1.10` differ.
   */
  datatype Json =
    | JNull
    | JBool(b: bool)
    | JInt(i: int)
    | JDecimal(digits: int, places: nat)
    | JStr(s: string)
    | JList(items: seq<Json>)

  type Field = (string, Json)

  predicate Kept(f: Field, exclude: set<string>, excludeNone: bool) {
    f.0 !in exclude && !(excludeNone && f.1 == JNull)
  }

  /**
   * `model_dump_json(exclude=..., exclude_none=...)`: the fields in declaration
   * order, without the excluded names and, when asked, without the `None` ones.
   * A single field is dumped iff it is kept, and the dump of a concatenation is
   * the concatenation of the dumps (DumpConcat), so order and multiplicity are
   * those of the declaration.
   */
  function Dump(fields: seq<Field>, exclude: set<string>, excludeNone: bool): (d: seq<Field>)
    ensures |d| <= |fields|
    ensures forall f :: f in d <==> f in fields && Kept(f, exclude, excludeNone)
    ensures |fields| == 1 ==> d == (if Kept(fields[0], exclude, excludeNone) then fields else [])
  {
    if |fields| == 0 then []
    else
      var rest := Dump(fields[1..], exclude, excludeNone);
      assert fields == [fields[0]] + fields[1..];
      if Kept(fields[0], exclude, excludeNone) then [fields[0]] + rest else rest
  }

  /** Dumping is a homomorphism over concatenation: each part is dumped in place. */
  lemma {:induction false} DumpConcat(a: seq<Field>, b: seq<Field>, exclude: set<string>, excludeNone: bool)
    ensures Dump(a + b, exclude, excludeNone) == Dump(a, exclude, excludeNone) + Dump(b, exclude, excludeNone)
    ensures HashKey(a + b, exclude) == HashKey(a, exclude) + HashKey(b, exclude)
    ensures Str(a + b) == Str(a) + Str(b)
  {
    DumpConcatOne(a, b, exclude, excludeNone);
    DumpConcatOne(a, b, exclude, true);
    DumpConcatOne(a, b, {}, true);
  }

  lemma {:induction false} DumpConcatOne(a: seq<Field>, b: seq<Field>, exclude: set<string>, excludeNone: bool)
    ensures Dump(a + b, exclude, excludeNone) == Dump(a, exclude, excludeNone) + Dump(b, exclude, excludeNone)
  {
    if |a| > 0 {
      assert (a + b)[1..] == a[1..] + b;
      DumpConcatOne(a[1..], b, exclude, excludeNone);
    } else {
      assert a + b == b;
    }
  }

  /**
   * `__hash__`: the hash of the dump without `exclude` and without `None`
   * fields. The dump itself stands for its hash, so hash collisions are not
   * modelled. It holds exactly the fields neither excluded nor `None`, in order.
   */
  function HashKey(fields: seq<Field>, exclude: set<string>): (h: seq<Field>)
    ensures forall f {:trigger f in h} :: f in h <==> f in fields && f.0 !in exclude && f.1 != JNull
    ensures |fields| == 1 ==> h == (if fields[0].0 !in exclude && fields[0].1 != JNull then fields else [])
  {
    Dump(fields, exclude, true)
  }

  /** `__eq__`: two models of one class are equal when their hashes are. */
  predicate Equal(a: seq<Field>, b: seq<Field>, exclude: set<string>) {
    HashKey(a, exclude) == HashKey(b, exclude)
  }

  /**
   * `__str__` and `__repr__`, which have the same body: the dump without
   * `None` fields, in declaration order.
   */
  function Str(fields: seq<Field>): (s: seq<Field>)
    ensures forall f :: f in s <==> f in fields && f.1 != JNull
    ensures |fields| == 1 ==> s == (if fields[0].1 != JNull then fields else [])
  {
    Dump(fields, {}, true)
  }

  /** A dump read back as a dict; with distinct names, later entries never override earlier ones. */
  function ToDict(d: seq<Field>): (m: map<string, Json>)
    ensures forall k :: k in m <==> exists f :: f in d && f.0 == k
    ensures forall k :: k in m ==> (k, m[k]) in d
  {
    if |d| == 0 then map[]
    else
      var rest := ToDict(d[1..]);
      assert d == [d[0]] + d[1..];
      rest[d[0].0 := d[0].1]
  }

  /** `json()`: the dump without `None` fields, parsed back into a dict. */
  function JsonDict(fields: seq<Field>, exclude: set<string>): (m: map<string, Json>)
    ensures forall k :: k in m ==> k !in exclude && m[k] != JNull && (k, m[k]) in fields
    ensures forall f :: f in fields && f.0 !in exclude && f.1 != JNull ==> f.0 in m
  {
    ToDict(Dump(fields, exclude, true))
  }

  /** The field names, in declaration order. */
  function NamesOf(a: seq<Field>): (n: seq<string>)
    ensures |n| == |a| && forall i :: 0 <= i < |a| ==> n[i] == a[i].0
  {
    seq(|a|, i requires 0 <= i < |a| => a[i].0)
  }

  predicate Distinct(names: seq<string>) {
    forall i, j :: 0 <= i < j < |names| ==> names[i] != names[j]
  }

  /** Field names are pairwise distinct. */
  predicate DistinctNames(a: seq<Field>) {
    Distinct(NamesOf(a))
  }

  /** Two dumps of the same schema: the same names at the same positions. */
  predicate SameNames(a: seq<Field>, b: seq<Field>) {
    NamesOf(a) == NamesOf(b)
  }

  /** The values agree on every field not excluded. */
  predicate AgreeOutside(a: seq<Field>, b: seq<Field>, exclude: set<string>)
    requires SameNames(a, b)
  {
    forall i :: 0 <= i < |a| && a[i].0 !in exclude ==> a[i].1 == b[i].1
  }

  /** Past a position after which no name is excluded, dumps that agree outside the exclusions coincide. */
  lemma {:induction false} AgreeOutsideSuffix(a: seq<Field>, b: seq<Field>, exclude: set<string>, n: nat)
    requires SameNames(a, b) && AgreeOutside(a, b, exclude) && n <= |a|
    requires forall k :: n <= k < |a| ==> NamesOf(a)[k] !in exclude
    ensures a[n..] == b[n..]
  {
    assert |a| == |NamesOf(a)| == |NamesOf(b)| == |b|;
    forall k | n <= k < |a| ensures a[k] == b[k] {
      assert NamesOf(a)[k] == a[k].0 && NamesOf(b)[k] == b[k].0;
    }
  }

  /** Equality as an equivalence: reflexive, symmetric, transitive, and the same hash for equal models. */
  lemma EqualIsEquivalence(a: seq<Field>, b: seq<Field>, c: seq<Field>, exclude: set<string>)
    ensures Equal(a, a, exclude)
    ensures Equal(a, b, exclude) ==> Equal(b, a, exclude)
    ensures Equal(a, b, exclude) && Equal(b, c, exclude) ==> Equal(a, c, exclude)
    ensures Equal(a, b, exclude) ==> HashKey(a, exclude) == HashKey(b, exclude)
  {
  }

  /** Models of one schema that agree outside the excluded fields are equal. */
  lemma {:induction false} AgreeOutsideIsEqual(a: seq<Field>, b: seq<Field>, exclude: set<string>)
    requires SameNames(a, b) && AgreeOutside(a, b, exclude)
    ensures Equal(a, b, exclude)
  {
    if |a| > 0 {
      assert SameNames(a[1..], b[1..]);
      AgreeOutsideIsEqual(a[1..], b[1..], exclude);
      assert Kept(a[0], exclude, true) <==> Kept(b[0], exclude, true);
    }
  }

  /** Conversely, equal models of one schema with distinct names agree outside the excluded fields. */
  lemma {:induction false} EqualAgreesOutside(a: seq<Field>, b: seq<Field>, exclude: set<string>)
    requires SameNames(a, b) && DistinctNames(a) && Equal(a, b, exclude)
    ensures AgreeOutside(a, b, exclude)
  {
    if |a| > 0 {
      EqualTails(a, b, exclude);
      EqualAgreesOutside(a[1..], b[1..], exclude);
      assert forall i :: 1 <= i < |a| ==> a[i] == a[1..][i - 1] && b[i] == b[1..][i - 1];
    }
  }

  /** Equal models agree on a kept head field, and their tails are equal models of one schema. */
  lemma {:induction false} EqualTails(a: seq<Field>, b: seq<Field>, exclude: set<string>)
    requires |a| > 0 && SameNames(a, b) && DistinctNames(a) && Equal(a, b, exclude)
    ensures SameNames(a[1..], b[1..]) && DistinctNames(a[1..]) && Equal(a[1..], b[1..], exclude)
    ensures a[0].0 !in exclude ==> a[0].1 == b[0].1
  {
    var da, db := Dump(a[1..], exclude, true), Dump(b[1..], exclude, true);
    assert SameNames(a[1..], b[1..]) && DistinctNames(a[1..]);
    HeadKeptAlike(a, b, exclude);
    DumpHead(a, exclude);
    DumpHead(b, exclude);
    if Kept(a[0], exclude, true) {
      assert ([a[0]] + da)[1..] == da && ([b[0]] + db)[1..] == db;
    }
  }

  /** The dump of a non-empty list: its head, when kept, before the dump of its tail. */
  lemma DumpHead(a: seq<Field>, exclude: set<string>)
    requires |a| > 0
    ensures Dump(a, exclude, true) == (if Kept(a[0], exclude, true) then [a[0]] else []) + Dump(a[1..], exclude, true)
  {
  }

  /** A field kept on one side is kept on the other: otherwise its name would occur twice. */
  lemma {:induction false} HeadKeptAlike(a: seq<Field>, b: seq<Field>, exclude: set<string>)
    requires |a| > 0 && SameNames(a, b) && DistinctNames(a) && Equal(a, b, exclude)
    ensures Kept(a[0], exclude, true) <==> Kept(b[0], exclude, true)
  {
    var da, db := Dump(a[1..], exclude, true), Dump(b[1..], exclude, true);
    assert a == [a[0]] + a[1..] && b == [b[0]] + b[1..];
    if Kept(a[0], exclude, true) && !Kept(b[0], exclude, true) {
      assert a[0] in db;
      NameNotInTail(b, a[0]);
      assert false;
    }
    if Kept(b[0], exclude, true) && !Kept(a[0], exclude, true) {
      assert b[0] in da;
      NameNotInTail(a, b[0]);
      assert false;
    }
  }

  /** The name of the head of a dump with distinct names (shared by `b`) does not recur in its tail. */
  lemma NameNotInTail(a: seq<Field>, f: Field)
    requires |a| > 0 && DistinctNames(a) && f.0 == a[0].0
    ensures f !in a[1..]
  {
  }

  /** The names whose check fails, in order. */
  function Failing(checks: seq<(string, bool)>): (r: seq<string>)
    ensures forall n :: n in r <==> (n, false) in checks
    ensures |r| == 0 <==> forall k :: 0 <= k < |checks| ==> checks[k].1
  {
    if |checks| == 0 then []
    else
      var rest := Failing(checks[1..]);
      assert checks == [checks[0]] + checks[1..];
      if checks[0].1 then rest else [checks[0].0] + rest
  }
}

=== FILE: cache.dfy ===
/**
 * `Cache.remove` (cumplo_common/utils/cache.py): drop every entry whose key
 * holds, as elements, both the name and the value of some keyword argument.
 * A key is the sequence of elements the cache hashed; time-to-live expiry
 * is not part of this model.
 */
module Cache {

  /** `any(set(argument) <= set(key) for argument in kwargs.items())`. */
  predicate Matches<E(==)>(key: seq<E>, arguments: seq<(E, E)>) {
    exists i :: 0 <= i < |arguments| && arguments[i].0 in key && arguments[i].1 in key
  }

  /** The entries `remove(**arguments)` leaves in place. */
  function Removed<E(==,!new), V>(entries: map<seq<E>, V>, arguments: seq<(E, E)>): (r: map<seq<E>, V>)
    ensures forall k :: k in r <==> k in entries && !Matches(k, arguments)
    ensures forall k :: k in r ==> r[k] == entries[k]
  {
    map k | k in entries && !Matches(k, arguments) :: entries[k]
  }

  class Cache<E(==,!new), V> {
    var entries: map<seq<E>, V>

    constructor()
      ensures entries == map[]
    {
      entries := map[];
    }

    /**
     * Visits every key present when the call starts and pops the matching
     * ones; a popped key is not visited again and no key is added.
     */
    method Remove(arguments: seq<(E, E)>)
      modifies this
      ensures entries == Removed(old(entries), arguments)
    {
      var pending := entries.Keys;
      while pending != {}
        invariant pending <= old(entries).Keys
        invariant entries.Keys <= old(entries).Keys
        invariant forall k :: k in entries ==> entries[k] == old(entries)[k]
        invariant forall k :: k in old(entries) ==>
                    (k in entries <==> k in pending || !Matches(k, arguments))
        decreases pending
      {
        var key :| key in pending;
        if Matches(key, arguments) {
          entries := map k | k in entries && k != key :: entries[k];
        }
        pending := pending - {key};
      }
    }
  }

  /** With no arguments nothing is removed. */
  lemma NoArgumentsRemoveNothing<E(!new), V>(entries: map<seq<E>, V>)
    ensures Removed(entries, []) == entries
  {
  }

  /** Removing twice with the same arguments is removing once. */
  lemma RemoveIsIdempotent<E(!new), V>(entries: map<seq<E>, V>, arguments: seq<(E, E)>)
    ensures Removed(Removed(entries, arguments), arguments) == Removed(entries, arguments)
  {
  }

  /** Matching is set inclusion: the order and repetition of a key's elements do not matter. */
  lemma MatchIsBySet<E>(k1: seq<E>, k2: seq<E>, arguments: seq<(E, E)>)
    requires forall x :: x in k1 <==> x in k2
    ensures Matches(k1, arguments) <==> Matches(k2, arguments)
  {
  }

  /** Only which pairs are given matters, not their order or repetition. */
  lemma {:induction false} ArgumentOrderIsIrrelevant<E(!new), V>(entries: map<seq<E>, V>, a1: seq<(E, E)>, a2: seq<(E, E)>)
    requires forall p :: p in a1 <==> p in a2
    ensures Removed(entries, a1) == Removed(entries, a2)
  {
    forall k | k in entries ensures Matches(k, a1) <==> Matches(k, a2) {
      if Matches(k, a1) {
        var i :| 0 <= i < |a1| && a1[i].0 in k && a1[i].1 in k;
        assert a1[i] in a2;
        var j :| 0 <= j < |a2| && a2[j] == a1[i];
      }
      if Matches(k, a2) {
        var i :| 0 <= i < |a2| && a2[i].0 in k && a2[i].1 in k;
        assert a2[i] in a1;
        var j :| 0 <= j < |a1| && a1[j] == a2[i];
      }
    }
  }

  /** Removing with two argument lists one after the other is removing with both at once. */
  lemma {:induction false} RemoveComposes<E(!new), V>(entries: map<seq<E>, V>, a1: seq<(E, E)>, a2: seq<(E, E)>)
    ensures Removed(Removed(entries, a1), a2) == Removed(entries, a1 + a2)
  {
    forall k | k in entries ensures Matches(k, a1 + a2) <==> Matches(k, a1) || Matches(k, a2) {
      MatchesConcat(k, a1, a2);
    }
  }

  /** A key matches a concatenation of argument lists exactly when it matches one of them. */
  lemma {:induction false} MatchesConcat<E>(k: seq<E>, a1: seq<(E, E)>, a2: seq<(E, E)>)
    ensures Matches(k, a1 + a2) <==> Matches(k, a1) || Matches(k, a2)
  {
    var a := a1 + a2;
    if Matches(k, a) {
      var i :| 0 <= i < |a| && a[i].0 in k && a[i].1 in k;
      if i >= |a1| {
        assert a2[i - |a1|] == a[i];
      }
    }
    if Matches(k, a1) {
      var i :| 0 <= i < |a1| && a1[i].0 in k && a1[i].1 in k;
      assert a[i] == a1[i];
    }
    if Matches(k, a2) {
      var i :| 0 <= i < |a2| && a2[i].0 in k && a2[i].1 in k;
      assert a[|a1| + i] == a2[i];
    }
  }

  /** A key holding both the name and the value of one argument is dropped, wherever they sit in it. */
  lemma {:induction false} PairAnywhereMatches<E>(before: seq<E>, between: seq<E>, after: seq<E>, name: E, value: E)
    ensures Matches(before + [value] + between + [name] + after, [(name, value)])
  {
    var key := before + [value] + between + [name] + after;
    assert key[|before|] == value;
    assert key[|before| + 1 + |between|] == name;
    var arguments := [(name, value)];
    assert arguments[0].0 in key && arguments[0].1 in key;
  }
}

=== FILE: channel.dfy ===
/**
 * `ChannelType` and the fields every channel configuration shares
 * (cumplo_common/models/channel/channel.py). The variants live in the
 * Webhook, Ifttt and Whatsapp modules; the registry in ChannelRegistry.
 */
module Channel {
  import opened Wrappers
  import opened Text
  import StrEnum
  import Event

  datatype ChannelType = WHATSAPP | WEBHOOK | IFTTT {
    /** Each member's value is its own name. */
    function Value(): string {
      match this
      case WHATSAPP => "WHATSAPP"
      case WEBHOOK => "WEBHOOK"
      case IFTTT => "IFTTT"
    }
  }

  const All: seq<ChannelType> := [WHATSAPP, WEBHOOK, IFTTT]

  /** `ChannelType(x)`, as field validation calls it: exact value first, then any casing. */
  function FromValue(s: string): Option<ChannelType> {
    StrEnum.Call(All, (t: ChannelType) => t.Value(), StrEnum.PyStr(s))
  }

  /** `ChannelMetadata` declares no fields of its own. */
  datatype Metadata = Metadata

  /** What a configuration is built from: the stored document's common fields, each possibly absent. */
  datatype Input = Input(
    type_: Option<string>,
    enabled: Option<bool>,
    events: Option<seq<Event.Event>>,
    metadata: Option<Metadata>)

  /** The fields of `ChannelConfiguration`. */
  datatype Common = Common(type_: ChannelType, enabled: bool, events: seq<Event.Event>, metadata: Metadata)

  datatype ChannelError =
    | MissingField(name: string)
    | InvalidField(name: string)
    | Rejected(message: string)   // a `ValueError` raised by a field validator

  /**
   * The common fields with `type_` defaulting to `typeDefault` (none on the
   * base class): `enabled` defaults to true, `events` to the empty list, and
   * `metadata` is required.
   */
  function CommonFields(typeDefault: Option<ChannelType>, input: Input): (r: Result<Common, ChannelError>)
    ensures input.metadata.None? ==> r.Err?
    ensures input.type_.None? && typeDefault.None? ==> r.Err?
    ensures r.Ok? ==> r.value.enabled == (input.enabled.None? || input.enabled.value)
    ensures r.Ok? ==> r.value.events == (if input.events.None? then [] else input.events.value)
    ensures r.Ok? && input.type_.None? ==> Some(r.value.type_) == typeDefault
    ensures r.Ok? && input.type_.Some? ==> Fold(r.value.type_.Value()) == Fold(input.type_.value)
    ensures r.Ok? && input.type_.Some? ==> FromValue(input.type_.value) == Some(r.value.type_)
  {
    var t := if input.type_.None? then typeDefault else FromValue(input.type_.value);
    if t.None? then (if input.type_.None? then Err(MissingField("type_")) else Err(InvalidField("type_")))
    else if input.metadata.None? then Err(MissingField("metadata"))
    else
      Ok(Common(t.value,
                if input.enabled.None? then true else input.enabled.value,
                if input.events.None? then [] else input.events.value,
                input.metadata.value))
  }

  lemma AllEnumerates()
    ensures StrEnum.Enumerates(All) && |All| == 3
  {
    forall t: ChannelType ensures t in All {
      match t
      case WHATSAPP => assert All[0] == t;
      case WEBHOOK => assert All[1] == t;
      case IFTTT => assert All[2] == t;
    }
  }

  /** The three values differ in length, so they differ in every casing. */
  lemma ValuesFoldDistinct()
    ensures StrEnum.FoldDistinct(All, (t: ChannelType) => t.Value())
  {
    var value := (t: ChannelType) => t.Value();
    forall i, j | 0 <= i < |All| && 0 <= j < |All| && i != j ensures Fold(value(All[i])) != Fold(value(All[j])) {
      assert |All[i].Value()| != |All[j].Value()|;
    }
  }

  /** `type_` accepts any casing of a member value, because the enum call folds case. */
  lemma {:induction false} FromValueIff(s: string, t: ChannelType)
    ensures FromValue(s) == Some(t) <==> Fold(s) == Fold(t.Value())
  {
    AllEnumerates();
    ValuesFoldDistinct();
    StrEnum.CallFoldDistinct(All, (t: ChannelType) => t.Value(), s, t);
  }

  /** A member's own value constructs that member. */
  lemma {:induction false} FromValueOfValue(t: ChannelType)
    ensures FromValue(t.Value()) == Some(t)
  {
    FromValueIff(t.Value(), t);
  }

  /**
   * The common fields a stored configuration is written back as; whatever the
   * class default, building from them gives the same fields back.
   */
  function DumpCommon(c: Common): (i: Input)
    ensures i.type_ == Some(c.type_.Value()) && i.metadata.Some?
    ensures forall d :: CommonFields(d, i) == Ok(c)
  {
    FromValueOfValue(c.type_);
    Input(Some(c.type_.Value()), Some(c.enabled), Some(c.events), Some(c.metadata))
  }

  /** With only metadata given, a configuration is enabled, subscribed to no event, and of the default type. */
  lemma CommonDefaults(t: ChannelType, m: Metadata)
    ensures CommonFields(Some(t), Input(None, None, None, Some(m))) == Ok(Common(t, true, [], m))
    ensures CommonFields(None, Input(None, None, None, Some(m))) == Err(MissingField("type_"))
    ensures CommonFields(Some(t), Input(None, None, None, None)) == Err(MissingField("metadata"))
  {
  }
}

=== FILE: channel_registry.dfy ===
/**
 * `CHANNEL_CONFIGURATION_BY_TYPE` (cumplo_common/models/channel/__init__.py)
 * and the way stored channel documents are rebuilt through it: the class is
 * looked up with the stored `type_` string as an exact dictionary key, then
 * called with the whole document.
 */
module ChannelRegistry {
  import opened Wrappers
  import opened Channel
  import StrEnum
  import Webhook
  import Ifttt
  import Whatsapp

  /** The three configuration classes. */
  datatype Kind = WhatsappClass | WebhookClass | IftttClass

  const Registry: map<ChannelType, Kind> :=
    map[WHATSAPP := WhatsappClass, WEBHOOK := WebhookClass, IFTTT := IftttClass]

  /** The `type_` each class declares as its default. */
  function DefaultType(k: Kind): ChannelType {
    match k
    case WhatsappClass => WHATSAPP
    case WebhookClass => WEBHOOK
    case IftttClass => IFTTT
  }

  /** One entry per member, distinct members map to distinct classes, and each class defaults to its own key. */
  lemma RegistryIsOneToOne()
    ensures forall t: ChannelType :: t in Registry && DefaultType(Registry[t]) == t
    ensures forall a: ChannelType, b: ChannelType :: Registry[a] == Registry[b] ==> a == b
    ensures |Registry| == |All| == 3
  {
    forall t: ChannelType ensures t in Registry && DefaultType(Registry[t]) == t {
      match t
      case WHATSAPP =>
      case WEBHOOK =>
      case IFTTT =>
    }
    assert Registry.Keys == {WHATSAPP, WEBHOOK, IFTTT};
  }

  /** A configuration of any variant. */
  datatype Configuration =
    | Whatsapp(w: Whatsapp.WhatsappConfiguration)
    | Webhook(h: Webhook.WebhookConfiguration)
    | Ifttt(i: Ifttt.IftttConfiguration)
  {
    function Kind(): Kind {
      match this
      case Whatsapp(_) => WhatsappClass
      case Webhook(_) => WebhookClass
      case Ifttt(_) => IftttClass
    }

    function Common(): Common {
      match this
      case Whatsapp(w) => w.common
      case Webhook(h) => h.common
      case Ifttt(i) => i.common
    }

    ghost predicate Valid(lib: Webhook.Library, pattern: Whatsapp.Pattern) {
      match this
      case Whatsapp(w) => w.Valid(pattern)
      case Webhook(h) => h.Valid(lib)
      case Ifttt(i) => i.Valid()
    }
  }

  /** A stored channel document: the common fields and the variant's own text fields by name. */
  datatype Document = Document(input: Input, fields: map<string, string>)

  datatype DispatchError = KeyError | Invalid(error: ChannelError)

  /** The dictionary lookup `CHANNEL_CONFIGURATION_BY_TYPE[s]`: by exact value, with no case folding. */
  function TypeKey(s: string): (r: Option<ChannelType>)
    ensures forall t: ChannelType :: r == Some(t) <==> t.Value() == s
  {
    if s == "WHATSAPP" then Some(WHATSAPP)
    else if s == "WEBHOOK" then Some(WEBHOOK)
    else if s == "IFTTT" then Some(IFTTT)
    else None
  }

  function Field(d: Document, name: string): Option<string> {
    if name in d.fields then Some(d.fields[name]) else None
  }

  /** Calling the class `k` with the whole document. */
  function Construct(lib: Webhook.Library, pattern: Whatsapp.Pattern, k: Kind, d: Document): (r: Result<Configuration, DispatchError>)
    ensures r.Ok? ==> r.value.Kind() == k
    ensures r.Ok? && d.input.type_.Some? ==> FromValue(d.input.type_.value) == Some(r.value.Common().type_)
  {
    match k
    case WhatsappClass => ConstructWhatsapp(pattern, d)
    case WebhookClass => ConstructWebhook(lib, d)
    case IftttClass => ConstructIfttt(d)
  }

  function ConstructWhatsapp(pattern: Whatsapp.Pattern, d: Document): (r: Result<Configuration, DispatchError>)
    ensures r.Ok? ==> r.value.Whatsapp?
    ensures r.Ok? && d.input.type_.Some? ==> FromValue(d.input.type_.value) == Some(r.value.Common().type_)
  {
    match Whatsapp.Build(pattern, d.input, Field(d, "phone_number"))
    case Ok(w) => Ok(Whatsapp(w))
    case Err(e) => Err(Invalid(e))
  }

  function ConstructWebhook(lib: Webhook.Library, d: Document): (r: Result<Configuration, DispatchError>)
    ensures r.Ok? ==> r.value.Webhook?
    ensures r.Ok? && d.input.type_.Some? ==> FromValue(d.input.type_.value) == Some(r.value.Common().type_)
  {
    match Webhook.Build(lib, d.input, Field(d, "url"))
    case Ok(h) => Ok(Webhook(h))
    case Err(e) => Err(Invalid(e))
  }

  function ConstructIfttt(d: Document): (r: Result<Configuration, DispatchError>)
    ensures r.Ok? ==> r.value.Ifttt?
    ensures r.Ok? && d.input.type_.Some? ==> FromValue(d.input.type_.value) == Some(r.value.Common().type_)
  {
    match Ifttt.Build(d.input, Field(d, "key"), Field(d, "event"))
    case Ok(i) => Ok(Ifttt(i))
    case Err(e) => Err(Invalid(e))
  }

  /** `CHANNEL_CONFIGURATION_BY_TYPE[data["type_"]](**data)`. */
  function Dispatch(lib: Webhook.Library, pattern: Whatsapp.Pattern, d: Document): (r: Result<Configuration, DispatchError>)
    ensures d.input.type_.None? ==> r == Err(KeyError)
    ensures d.input.type_.Some? ==> (r == Err(KeyError) <==> TypeKey(d.input.type_.value).None?)
    ensures r.Ok? ==> r.value.Kind() == Registry[TypeKey(d.input.type_.value).value]
  {
    if d.input.type_.None? then Err(KeyError)
    else match TypeKey(d.input.type_.value)
      case None => Err(KeyError)
      case Some(t) => Construct(lib, pattern, Registry[t], d)
  }

  /** Dispatching rebuilds the variant registered for the stored type, and that variant keeps the type. */
  lemma {:induction false} DispatchKeepsType(lib: Webhook.Library, pattern: Whatsapp.Pattern, d: Document)
    requires Dispatch(lib, pattern, d).Ok?
    ensures d.input.type_.Some? && TypeKey(d.input.type_.value).Some?
    ensures Dispatch(lib, pattern, d).value.Common().type_ == TypeKey(d.input.type_.value).value
  {
    var t := TypeKey(d.input.type_.value).value;
    FromValueOfValue(t);
  }

  /** How a configuration is stored: its common fields and its own text fields. */
  function Dump(c: Configuration): (d: Document)
    ensures d.input.type_ == Some(c.Common().type_.Value())
  {
    match c
    case Whatsapp(w) => Document(DumpCommon(w.common), map["phone_number" := w.phoneNumber])
    case Webhook(h) => Document(DumpCommon(h.common), map["url" := h.url])
    case Ifttt(i) => Document(DumpCommon(i.common), map["key" := i.key, "event" := i.event])
  }

  /**
   * A valid configuration whose `type_` is its class's default survives being
   * stored and dispatched.
   */
  lemma {:induction false} DispatchOfDump(lib: Webhook.Library, pattern: Whatsapp.Pattern, c: Configuration)
    requires c.Valid(lib, pattern) && c.Common().type_ == DefaultType(c.Kind())
    ensures Dispatch(lib, pattern, Dump(c)) == Ok(c)
  {
    match c
    case Whatsapp(w) => DispatchOfDumpWhatsapp(lib, pattern, w);
    case Webhook(h) => DispatchOfDumpWebhook(lib, pattern, h);
    case Ifttt(i) => DispatchOfDumpIfttt(lib, pattern, i);
  }

  lemma {:induction false} DispatchOfDumpWhatsapp(lib: Webhook.Library, pattern: Whatsapp.Pattern, w: Whatsapp.WhatsappConfiguration)
    requires w.Valid(pattern) && w.common.type_ == WHATSAPP
    ensures Dispatch(lib, pattern, Dump(Whatsapp(w))) == Ok(Whatsapp(w))
  {
    var d := Dump(Whatsapp(w));
    DumpedTypeIsKey(Whatsapp(w));
    DumpedWhatsappConstructs(pattern, w);
    assert Registry[WHATSAPP] == WhatsappClass;
    DispatchThrough(lib, pattern, d, WHATSAPP);
    assert Construct(lib, pattern, WhatsappClass, d) == ConstructWhatsapp(pattern, d);
  }

  lemma {:induction false} DispatchOfDumpWebhook(lib: Webhook.Library, pattern: Whatsapp.Pattern, h: Webhook.WebhookConfiguration)
    requires h.Valid(lib)
    ensures Dispatch(lib, pattern, Dump(Webhook(h))) == Ok(Webhook(h))
  {
    var d := Dump(Webhook(h));
    DumpedTypeIsKey(Webhook(h));
    DumpedWebhookConstructs(lib, h);
    assert Registry[WEBHOOK] == WebhookClass;
    DispatchThrough(lib, pattern, d, WEBHOOK);
    assert Construct(lib, pattern, WebhookClass, d) == ConstructWebhook(lib, d);
  }

  lemma {:induction false} DispatchOfDumpIfttt(lib: Webhook.Library, pattern: Whatsapp.Pattern, i: Ifttt.IftttConfiguration)
    requires i.Valid() && i.common.type_ == IFTTT
    ensures Dispatch(lib, pattern, Dump(Ifttt(i))) == Ok(Ifttt(i))
  {
    var d := Dump(Ifttt(i));
    DumpedTypeIsKey(Ifttt(i));
    DumpedIftttConstructs(i);
    assert Registry[IFTTT] == IftttClass;
    DispatchThrough(lib, pattern, d, IFTTT);
    assert Construct(lib, pattern, IftttClass, d) == ConstructIfttt(d);
  }

  /** A document whose stored type is a member's exact value goes to that member's class. */
  lemma DispatchThrough(lib: Webhook.Library, pattern: Whatsapp.Pattern, d: Document, t: ChannelType)
    requires d.input.type_.Some? && TypeKey(d.input.type_.value) == Some(t)
    ensures Dispatch(lib, pattern, d) == Construct(lib, pattern, Registry[t], d)
  {
  }

  /** The stored `type_` is always a key of the registry. */
  lemma DumpedTypeIsKey(c: Configuration)
    ensures TypeKey(Dump(c).input.type_.value) == Some(c.Common().type_)
  {
  }

  lemma {:induction false} DumpedWhatsappConstructs(pattern: Whatsapp.Pattern, w: Whatsapp.WhatsappConfiguration)
    requires w.Valid(pattern)
    ensures ConstructWhatsapp(pattern, Dump(Whatsapp(w))) == Ok(Whatsapp(w))
  {
    var d := Dump(Whatsapp(w));
    assert Field(d, "phone_number") == Some(w.phoneNumber);
    Whatsapp.BuildOfDump(pattern, w);
  }

  lemma {:induction false} DumpedWebhookConstructs(lib: Webhook.Library, h: Webhook.WebhookConfiguration)
    requires h.Valid(lib)
    ensures ConstructWebhook(lib, Dump(Webhook(h))) == Ok(Webhook(h))
  {
    var d := Dump(Webhook(h));
    assert Field(d, "url") == Some(h.url);
    Webhook.BuildOfDump(lib, h);
  }

  lemma {:induction false} DumpedIftttConstructs(i: Ifttt.IftttConfiguration)
    requires i.Valid()
    ensures ConstructIfttt(Dump(Ifttt(i))) == Ok(Ifttt(i))
  {
    var d := Dump(Ifttt(i));
    assert d.fields == map["key" := i.key, "event" := i.event];
    FieldsOfPair(d, "key", i.key, "event", i.event);
    Ifttt.BuildOfDump(i);
  }

  lemma FieldsOfPair(d: Document, k1: string, v1: string, k2: string, v2: string)
    requires d.fields == map[k1 := v1, k2 := v2] && |k1| != |k2|
    ensures Field(d, k1) == Some(v1) && Field(d, k2) == Some(v2)
  {
  }

  /**
   * The variants with a plain `ChannelType` field take another type: such a
   * configuration is stored under the other type and then dispatched to the
   * wrong class, which refuses the document for lack of that class's fields.
   */
  lemma {:induction false} OverriddenTypeMisdispatches(lib: Webhook.Library, pattern: Whatsapp.Pattern, w: Whatsapp.WhatsappConfiguration)
    requires w.common.type_ == IFTTT
    ensures Dispatch(lib, pattern, Dump(Whatsapp(w))) == Err(Invalid(MissingField("key")))
  {
    FromValueOfValue(IFTTT);
  }

  /**
   * The lookup is case-sensitive although field validation is not: "webhook"
   * is a valid `type_` for the model but no key of the registry.
   */
  lemma {:induction false} LookupIsCaseSensitive(lib: Webhook.Library, pattern: Whatsapp.Pattern, d: Document)
    requires d.input.type_ == Some("webhook")
    ensures Dispatch(lib, pattern, d) == Err(KeyError)
    ensures FromValue("webhook") == Some(WEBHOOK)
  {
    LowerCaseIsNoKey();
    LowerCaseFolds();
    FromValueIff("webhook", WEBHOOK);
  }

  lemma LowerCaseIsNoKey()
    ensures TypeKey("webhook").None?
  {
    assert "webhook"[0] != "WEBHOOK"[0];
  }

  lemma LowerCaseFolds()
    ensures Text.Fold("webhook") == Text.Fold(WEBHOOK.Value())
  {
    var a, b := "webhook", WEBHOOK.Value();
    assert |a| == |b|;
    forall k | 0 <= k < |a| ensures Text.FoldChar(a[k]) == Text.FoldChar(b[k]) {
    }
  }
}

=== FILE: content_event.dfy ===
/**
 * What the content-carrying `Event` base used by event_private.py and
 * event_public.py attaches to a member besides its value: the model type of
 * the content it carries. That base class lives in a part of utils.py that is
 * not part of this model; its recurrence flag defaults to false.
 */
module ContentEvent {
  import opened Wrappers
  import opened Text

  datatype ContentType = FundingRequest | User | Investment | Movement

  /** The resource segment of a dotted event value: the text before its first dot. */
  function ResourcePrefix(value: string): (p: string)
    ensures '.' !in p
    ensures p <= value
    ensures '.' in value ==> |p| < |value| && value[|p|] == '.'
  {
    assert value[..|value|] == value;
    value[..IndexOf(value, '.')]
  }

  /** The prefix of `r + "." + rest` is `r` when `r` has no dot. */
  lemma PrefixOfDotted(r: string, rest: string)
    requires '.' !in r
    ensures ResourcePrefix(r + "." + rest) == r
  {
    IndexOfAfter(r, '.', rest);
    assert (r + "." + rest)[..|r|] == r;
  }

  /** A value of the single-dot `resource.state` shape. */
  ghost predicate SingleDot(value: string) {
    exists a, b :: value == a + "." + b && '.' !in a && '.' !in b
  }

  /** `a + "." + b` has the single-dot shape exactly when `b` has no dot. */
  lemma {:induction false} SingleDotIff(a: string, b: string)
    requires '.' !in a
    ensures SingleDot(a + "." + b) <==> '.' !in b
  {
    var v := a + "." + b;
    if SingleDot(v) {
      var a', b' :| v == a' + "." + b' && '.' !in a' && '.' !in b';
      IndexOfAfter(a, '.', b);
      IndexOfAfter(a', '.', b');
      assert b == v[|a| + 1..] == b';
    }
  }

  /** The content model that a resource prefix names. */
  function ContentTypeOfPrefix(prefix: string): Option<ContentType>
  {
    if prefix == "funding_request" then Some(FundingRequest)
    else if prefix == "user" then Some(User)
    else if prefix == "investment" then Some(Investment)
    else if prefix == "movement" then Some(Movement)
    else None
  }

  /** The resource prefix that belongs to each content type. */
  function PrefixOf(t: ContentType): (p: string)
    ensures '.' !in p
    ensures ContentTypeOfPrefix(p) == Some(t)
  {
    match t
    case FundingRequest => "funding_request"
    case User => "user"
    case Investment => "investment"
    case Movement => "movement"
  }
}

=== FILE: decimal_number.dfy ===
/**
 * Python's finite `Decimal`s with a non-negative exponent: an integer of digits
 * and a number of places after the point (no `1E+1`, no `-0`, no NaN or infinity). Two decimals with one value can differ in their text
 * (`1.1` and `1.10`), which matters wherever a model is serialised.
 */
module DecimalNumber {

  function Pow10(n: nat): (p: nat)
    ensures p >= 1
  {
    if n == 0 then 1 else 10 * Pow10(n - 1)
  }

  datatype Decimal = Decimal(digits: int, places: nat) {
    /** The number the decimal denotes. */
    function Value(): real {
      digits as real / Pow10(places) as real
    }
  }

  /** Appending a trailing zero keeps the value but changes the text. */
  function WithTrailingZero(d: Decimal): (e: Decimal)
    ensures e.Value() == d.Value() && e != d
  {
    assert (d.digits * 10) as real / (Pow10(d.places) * 10) as real == d.digits as real / Pow10(d.places) as real;
    Decimal(d.digits * 10, d.places + 1)
  }
}

=== FILE: event.dfy ===
/** `Resource`, `State` and the resource/state `Event` enum (cumplo_common/models/event.py). */
module Event {
  import opened Wrappers
  import opened Text
  import StrEnum

  datatype Resource = FUNDING_REQUEST | INVESTMENT {
    function Name(): string {
      match this
      case FUNDING_REQUEST => "FUNDING_REQUEST"
      case INVESTMENT => "INVESTMENT"
    }

    function Value(): string {
      match this
      case FUNDING_REQUEST => "funding_request"
      case INVESTMENT => "investment"
    }
  }

  datatype State = INITIALIZED | SUCCESSFUL | PROMISING | FAILED {
    function Name(): string {
      match this
      case INITIALIZED => "INITIALIZED"
      case SUCCESSFUL => "SUCCESSFUL"
      case PROMISING => "PROMISING"
      case FAILED => "FAILED"
    }

    function Value(): string {
      match this
      case INITIALIZED => "initialized"
      case SUCCESSFUL => "successful"
      case PROMISING => "promising"
      case FAILED => "failed"
    }
  }

  /** Each member is fixed at declaration with its value, resource, state and recurrence flag. */
  datatype Event = FUNDING_REQUEST_PROMISING | INVESTMENT_INITIALIZED | INVESTMENT_SUCCESSFUL | INVESTMENT_FAILED {

    function Name(): string {
      match this
      case FUNDING_REQUEST_PROMISING => "FUNDING_REQUEST_PROMISING"
      case INVESTMENT_INITIALIZED => "INVESTMENT_INITIALIZED"
      case INVESTMENT_SUCCESSFUL => "INVESTMENT_SUCCESSFUL"
      case INVESTMENT_FAILED => "INVESTMENT_FAILED"
    }

    function Value(): string {
      match this
      case FUNDING_REQUEST_PROMISING => "funding_request.promising"
      case INVESTMENT_INITIALIZED => "investment.initialized"
      case INVESTMENT_SUCCESSFUL => "investment.successful"
      case INVESTMENT_FAILED => "investment.failed"
    }

    function Resource(): Resource {
      match this
      case FUNDING_REQUEST_PROMISING => FUNDING_REQUEST
      case _ => INVESTMENT
    }

    function State(): State {
      match this
      case FUNDING_REQUEST_PROMISING => PROMISING
      case INVESTMENT_INITIALIZED => INITIALIZED
      case INVESTMENT_SUCCESSFUL => SUCCESSFUL
      case INVESTMENT_FAILED => FAILED
    }

    predicate IsRecurring() {
      this == FUNDING_REQUEST_PROMISING
    }
  }

  const All: seq<Event> := [FUNDING_REQUEST_PROMISING, INVESTMENT_INITIALIZED, INVESTMENT_SUCCESSFUL, INVESTMENT_FAILED]

  /** `Event(x)`: case-insensitive construction from a value. */
  function FromValue(input: StrEnum.PyValue): Option<Event> {
    StrEnum.Call(All, (e: Event) => e.Value(), input)
  }

  /** `Event.new(resource, state)`: looks up `resource.name + "." + state.name`; `None` is the `ValueError`. */
  function New(r: Resource, s: State): Option<Event> {
    FromValue(StrEnum.PyStr(r.Name() + "." + s.Name()))
  }

  /** `Event.has_member(s)`: by NAME, ignoring case. */
  function HasMember(s: string): bool {
    StrEnum.HasMember(All, (e: Event) => e.Name(), s)
  }

  lemma AllEnumerates()
    ensures StrEnum.Enumerates(All)
  {
    forall e: Event ensures e in All {
      match e
      case FUNDING_REQUEST_PROMISING => assert All[0] == e;
      case INVESTMENT_INITIALIZED => assert All[1] == e;
      case INVESTMENT_SUCCESSFUL => assert All[2] == e;
      case INVESTMENT_FAILED => assert All[3] == e;
    }
  }

  /** Each member's value is its resource's value, a dot, and its state's value. */
  lemma {:induction false} ValueIsResourceDotState(e: Event)
    ensures e.Value() == e.Resource().Value() + "." + e.State().Value()
  {
    match e
    case FUNDING_REQUEST_PROMISING => FundingRequestValuesSplit();
    case _ => InvestmentValuesSplit();
  }

  lemma FundingRequestValuesSplit()
    ensures FUNDING_REQUEST_PROMISING.Value() == FUNDING_REQUEST.Value() + "." + PROMISING.Value()
  {
  }

  lemma InvestmentValuesSplit()
    ensures INVESTMENT_INITIALIZED.Value() == INVESTMENT.Value() + "." + INITIALIZED.Value()
    ensures INVESTMENT_SUCCESSFUL.Value() == INVESTMENT.Value() + "." + SUCCESSFUL.Value()
    ensures INVESTMENT_FAILED.Value() == INVESTMENT.Value() + "." + FAILED.Value()
  {
  }

  /** Only FUNDING_REQUEST_PROMISING recurs. */
  lemma OnlyFundingRequestPromisingRecurs(e: Event)
    ensures e.IsRecurring() <==> e == FUNDING_REQUEST_PROMISING
  {
  }

  /** The upper-case NAMES of resources and states fold to their values. */
  lemma {:induction false} NamesFoldToValues(r: Resource, s: State)
    ensures Fold(r.Name()) == r.Value()
    ensures Fold(s.Name()) == s.Value()
  {
    ResourceNameFolds(r);
    StateNameFolds(s);
  }

  lemma {:induction false} ResourceNameFolds(r: Resource)
    ensures Fold(r.Name()) == r.Value()
  {
    var n, v := r.Name(), r.Value();
    assert |n| == |v|;
    forall k | 0 <= k < |n| ensures FoldChar(n[k]) == v[k] {
    }
  }

  lemma {:induction false} StateNameFolds(s: State)
    ensures Fold(s.Name()) == s.Value()
  {
    var n, v := s.Name(), s.Value();
    assert |n| == |v|;
    forall k | 0 <= k < |n| ensures FoldChar(n[k]) == v[k] {
    }
  }

  /** Member values are written in lower case. */
  lemma {:induction false} ValueFoldsToItself(e: Event)
    ensures Fold(e.Value()) == e.Value()
  {
    match e
    case FUNDING_REQUEST_PROMISING => FoldOfLowerCase("funding_request.promising");
    case INVESTMENT_INITIALIZED => FoldOfLowerCase("investment.initialized");
    case INVESTMENT_SUCCESSFUL => FoldOfLowerCase("investment.successful");
    case INVESTMENT_FAILED => FoldOfLowerCase("investment.failed");
  }

  /** The text `new` looks up folds to the member value it is meant to find. */
  lemma {:induction false} NewTextFolds(r: Resource, s: State)
    ensures Fold(r.Name() + "." + s.Name()) == r.Value() + "." + s.Value()
  {
    NamesFoldToValues(r, s);
    FoldConcat(r.Name(), ".");
    FoldConcat(r.Name() + ".", s.Name());
    assert Fold(".") == ".";
  }

  /** Distinct members have distinct values, also ignoring case. */
  lemma ValuesFoldDistinct()
    ensures StrEnum.FoldDistinct(All, (e: Event) => e.Value())
  {
    var value := (e: Event) => e.Value();
    forall i, j | 0 <= i < |All| && 0 <= j < |All| && i != j ensures Fold(value(All[i])) != Fold(value(All[j])) {
      assert |All[i].Value()| != |All[j].Value()|;
    }
  }

  /** Each (resource, state) pair belongs to at most one member. */
  lemma PairsUnique(e1: Event, e2: Event)
    requires e1.Resource() == e2.Resource() && e1.State() == e2.State()
    ensures e1 == e2
  {
  }

  /** Any casing of a member's value constructs that member, and nothing else does. */
  lemma {:induction false} FromValueIff(text: string, e: Event)
    ensures FromValue(StrEnum.PyStr(text)) == Some(e) <==> Fold(text) == e.Value()
  {
    ValuesFoldDistinct();
    AllEnumerates();
    StrEnum.CallFoldDistinct(All, (e: Event) => e.Value(), text, e);
    ValueFoldsToItself(e);
  }

  /** A member's value spells out exactly its own resource and state. */
  lemma {:induction false} ValueDeterminesPair(r: Resource, s: State, e: Event)
    ensures e.Value() == r.Value() + "." + s.Value() <==> e.Resource() == r && e.State() == s
  {
    ValueIsResourceDotState(e);
    if e.Value() == r.Value() + "." + s.Value() {
      NoDotInResourceValue(r);
      NoDotInResourceValue(e.Resource());
      PairUnique(e.Resource().Value(), e.State().Value(), r.Value(), s.Value(), '.');
      ResourceValuesDistinct(e.Resource(), r);
      StateValuesDistinct(e.State(), s);
    }
  }

  lemma NoDotInResourceValue(r: Resource)
    ensures '.' !in r.Value()
  {
    var v := r.Value();
    forall k | 0 <= k < |v| ensures v[k] != '.' {
    }
  }

  lemma ResourceValuesDistinct(a: Resource, b: Resource)
    requires a.Value() == b.Value()
    ensures a == b
  {
    assert |a.Value()| == |b.Value()|;
  }

  lemma StateValuesDistinct(a: State, b: State)
    requires a.Value() == b.Value()
    ensures a == b
  {
    assert |a.Value()| == |b.Value()|;
  }

  /**
   * `Event.new(r, s)` yields exactly the member whose resource is `r` and whose
   * state is `s`: the upper-case names reach it only through case folding.
   */
  lemma {:induction false} NewIff(r: Resource, s: State, e: Event)
    ensures New(r, s) == Some(e) <==> e.Resource() == r && e.State() == s
  {
    FromValueIff(r.Name() + "." + s.Name(), e);
    NewTextFolds(r, s);
    ValueDeterminesPair(r, s, e);
  }

  /** `new` fails for a pair no member declares, such as FUNDING_REQUEST with FAILED. */
  lemma {:induction false} NewFundingRequestFailedFails()
    ensures New(FUNDING_REQUEST, FAILED).None?
  {
    var r := New(FUNDING_REQUEST, FAILED);
    if r.Some? {
      NewIff(FUNDING_REQUEST, FAILED, r.value);
      assert false;
    }
  }

  /** `has_member` holds for every casing of a member name. */
  lemma AnyCasingOfANameIsAMember(s: string, e: Event)
    requires Fold(s) == Fold(e.Name())
    ensures HasMember(s)
  {
    AllEnumerates();
  }

  /** `has_member` looks at names: the value `funding_request.promising` is not a member name. */
  lemma {:induction false} HasMemberByNameNotValue()
    ensures HasMember(FUNDING_REQUEST_PROMISING.Name())
    ensures !HasMember("funding_request.promising")
  {
    AllEnumerates();
    assert All[0] == FUNDING_REQUEST_PROMISING;
    forall e: Event ensures Fold("funding_request.promising") != Fold(e.Name()) {
      ValueTextIsNoName(e);
    }
  }

  lemma {:induction false} ValueTextIsNoName(e: Event)
    ensures Fold("funding_request.promising") != Fold(e.Name())
  {
    var v, n := "funding_request.promising", e.Name();
    if |n| == |v| {
      assert e == FUNDING_REQUEST_PROMISING;
      assert Fold(n)[15] == FoldChar(n[15]) == '_';
      assert Fold(v)[15] == FoldChar(v[15]) == '.';
    }
  }
}

=== FILE: event_private.dfy ===
/** `PrivateEvent`: the events consumed only inside the system (cumplo_common/models/event_private.py). */
module EventPrivate {
  import opened Wrappers
  import opened Text
  import opened ContentEvent

  datatype PrivateEvent =
    | FUNDING_REQUEST_AVAILABLE | FUNDING_REQUEST_PROMISING
    | USER_NOTIFICATIONS_UPDATED | USER_CREDENTIALS_UPDATED | USER_CHANNELS_UPDATED | USER_FILTERS_UPDATED
    | INVESTMENT_INITIALIZED | INVESTMENT_SUBMITTED | INVESTMENT_CONFIRMED | INVESTMENT_FAILED
    | INVESTMENT_REPAID | INVESTMENT_REFUNDED | INVESTMENT_DELINQUENT | INVESTMENT_CREDITED | INVESTMENT_UPDATED
    | MOVEMENT_WITHDRAWAL | MOVEMENT_DEPOSIT
    | MOVEMENT_INVESTMENT | MOVEMENT_FEE_RETENTION | MOVEMENT_FEE_CHARGE | MOVEMENT_FEE_REFUND | MOVEMENT_RETURN
    | FUNDING_REQUEST_FILTER
  {
    function Value(): string {
      match this
      case FUNDING_REQUEST_AVAILABLE => "funding_request.available"
      case FUNDING_REQUEST_PROMISING => "funding_request.promising"
      case USER_NOTIFICATIONS_UPDATED => "user.notifications.updated"
      case USER_CREDENTIALS_UPDATED => "user.credentials.updated"
      case USER_CHANNELS_UPDATED => "user.channels.updated"
      case USER_FILTERS_UPDATED => "user.filters.updated"
      case INVESTMENT_INITIALIZED => "investment.initialized"
      case INVESTMENT_SUBMITTED => "investment.submitted"
      case INVESTMENT_CONFIRMED => "investment.confirmed"
      case INVESTMENT_FAILED => "investment.failed"
      case INVESTMENT_REPAID => "investment.repaid"
      case INVESTMENT_REFUNDED => "investment.refunded"
      case INVESTMENT_DELINQUENT => "investment.delinquent"
      case INVESTMENT_CREDITED => "investment.credited"
      case INVESTMENT_UPDATED => "investment.updated"
      case MOVEMENT_WITHDRAWAL => "movement.withdrawal"
      case MOVEMENT_DEPOSIT => "movement.deposit"
      case MOVEMENT_INVESTMENT => "movement.investment"
      case MOVEMENT_FEE_RETENTION => "movement.fee_retention"
      case MOVEMENT_FEE_CHARGE => "movement.fee_charge"
      case MOVEMENT_FEE_REFUND => "movement.fee_refund"
      case MOVEMENT_RETURN => "movement.return"
      case FUNDING_REQUEST_FILTER => "funding_request.filter"
    }

    /** The value after its resource prefix and the first dot. */
    function Action(): string {
      match this
      case FUNDING_REQUEST_AVAILABLE => "available"
      case FUNDING_REQUEST_PROMISING => "promising"
      case USER_NOTIFICATIONS_UPDATED => "notifications.updated"
      case USER_CREDENTIALS_UPDATED => "credentials.updated"
      case USER_CHANNELS_UPDATED => "channels.updated"
      case USER_FILTERS_UPDATED => "filters.updated"
      case INVESTMENT_INITIALIZED => "initialized"
      case INVESTMENT_SUBMITTED => "submitted"
      case INVESTMENT_CONFIRMED => "confirmed"
      case INVESTMENT_FAILED => "failed"
      case INVESTMENT_REPAID => "repaid"
      case INVESTMENT_REFUNDED => "refunded"
      case INVESTMENT_DELINQUENT => "delinquent"
      case INVESTMENT_CREDITED => "credited"
      case INVESTMENT_UPDATED => "updated"
      case MOVEMENT_WITHDRAWAL => "withdrawal"
      case MOVEMENT_DEPOSIT => "deposit"
      case MOVEMENT_INVESTMENT => "investment"
      case MOVEMENT_FEE_RETENTION => "fee_retention"
      case MOVEMENT_FEE_CHARGE => "fee_charge"
      case MOVEMENT_FEE_REFUND => "fee_refund"
      case MOVEMENT_RETURN => "return"
      case FUNDING_REQUEST_FILTER => "filter"
    }

    function ContentType(): ContentType {
      match this
      case FUNDING_REQUEST_AVAILABLE | FUNDING_REQUEST_PROMISING | FUNDING_REQUEST_FILTER => FundingRequest
      case USER_NOTIFICATIONS_UPDATED | USER_CREDENTIALS_UPDATED | USER_CHANNELS_UPDATED | USER_FILTERS_UPDATED => User
      case INVESTMENT_INITIALIZED | INVESTMENT_SUBMITTED | INVESTMENT_CONFIRMED | INVESTMENT_FAILED
        | INVESTMENT_REPAID | INVESTMENT_REFUNDED | INVESTMENT_DELINQUENT | INVESTMENT_CREDITED | INVESTMENT_UPDATED => Investment
      case _ => Movement
    }

    /** Only FUNDING_REQUEST_PROMISING passes an explicit `True`; the others take the default. */
    predicate IsRecurring() {
      this == FUNDING_REQUEST_PROMISING
    }
  }

  /** No two members share a value. */
  lemma {:induction false} ValuesDistinct(a: PrivateEvent, b: PrivateEvent)
    requires a.Value() == b.Value()
    ensures a == b
  {
    ValueSplits(a);
    ValueSplits(b);
    PairUnique(PrefixOf(a.ContentType()), a.Action(), PrefixOf(b.ContentType()), b.Action(), '.');
    assert a.ContentType() == b.ContentType() by {
      assert ContentTypeOfPrefix(PrefixOf(a.ContentType())) == Some(b.ContentType());
    }
    ActionsDistinct(a, b);
  }

  /** Within one content type no two members share an action. */
  lemma {:induction false} ActionsDistinct(a: PrivateEvent, b: PrivateEvent)
    requires a.ContentType() == b.ContentType() && a.Action() == b.Action()
    ensures a == b
  {
    match a.ContentType()
    case FundingRequest => ActionsDistinctFundingRequest(a, b);
    case User => ActionsDistinctUser(a, b);
    case Investment => ActionsDistinctInvestment(a, b);
    case Movement => ActionsDistinctMovement(a, b);
  }

  lemma ActionsDistinctFundingRequest(a: PrivateEvent, b: PrivateEvent)
    requires a.ContentType() == FundingRequest && b.ContentType() == FundingRequest && a.Action() == b.Action()
    ensures a == b
  {
  }

  lemma ActionsDistinctUser(a: PrivateEvent, b: PrivateEvent)
    requires a.ContentType() == User && b.ContentType() == User && a.Action() == b.Action()
    ensures a == b
  {
  }

  lemma ActionsDistinctInvestment(a: PrivateEvent, b: PrivateEvent)
    requires a.ContentType() == Investment && b.ContentType() == Investment && a.Action() == b.Action()
    ensures a == b
  {
  }

  lemma ActionsDistinctMovement(a: PrivateEvent, b: PrivateEvent)
    requires a.ContentType() == Movement && b.ContentType() == Movement && a.Action() == b.Action()
    ensures a == b
  {
  }

  lemma OnlyFundingRequestPromisingRecurs(e: PrivateEvent)
    ensures e.IsRecurring() <==> e == FUNDING_REQUEST_PROMISING
  {
  }

  /** Each value is its content type's resource prefix, a dot, and the action. */
  lemma {:induction false} ValueSplits(e: PrivateEvent)
    ensures e.Value() == PrefixOf(e.ContentType()) + "." + e.Action()
  {
    match e.ContentType()
    case FundingRequest => ValueSplitsFundingRequest(e);
    case User => ValueSplitsUser(e);
    case Investment => ValueSplitsInvestment(e);
    case Movement => ValueSplitsMovement(e);
  }

  lemma ValueSplitsFundingRequest(e: PrivateEvent)
    requires e.ContentType() == FundingRequest
    ensures e.Value() == PrefixOf(FundingRequest) + "." + e.Action()
  {
    FundingRequestValuesSplit1();
    FundingRequestValuesSplit2();
  }

  lemma FundingRequestValuesSplit1()
    ensures FUNDING_REQUEST_AVAILABLE.Value() == PrefixOf(FundingRequest) + "." + FUNDING_REQUEST_AVAILABLE.Action()
    ensures FUNDING_REQUEST_PROMISING.Value() == PrefixOf(FundingRequest) + "." + FUNDING_REQUEST_PROMISING.Action()
  {
  }

  lemma FundingRequestValuesSplit2()
    ensures FUNDING_REQUEST_FILTER.Value() == PrefixOf(FundingRequest) + "." + FUNDING_REQUEST_FILTER.Action()
  {
  }

  lemma ValueSplitsUser(e: PrivateEvent)
    requires e.ContentType() == User
    ensures e.Value() == PrefixOf(User) + "." + e.Action()
  {
    UserValuesSplit1();
    UserValuesSplit2();
    UserValuesSplit3();
    UserValuesSplit4();
  }

  lemma UserValuesSplit1()
    ensures USER_NOTIFICATIONS_UPDATED.Value() == PrefixOf(User) + "." + USER_NOTIFICATIONS_UPDATED.Action()
  {
  }

  lemma UserValuesSplit2()
    ensures USER_CREDENTIALS_UPDATED.Value() == PrefixOf(User) + "." + USER_CREDENTIALS_UPDATED.Action()
  {
  }

  lemma UserValuesSplit3()
    ensures USER_CHANNELS_UPDATED.Value() == PrefixOf(User) + "." + USER_CHANNELS_UPDATED.Action()
  {
  }

  lemma UserValuesSplit4()
    ensures USER_FILTERS_UPDATED.Value() == PrefixOf(User) + "." + USER_FILTERS_UPDATED.Action()
  {
  }

  lemma ValueSplitsInvestment(e: PrivateEvent)
    requires e.ContentType() == Investment
    ensures e.Value() == PrefixOf(Investment) + "." + e.Action()
  {
    InvestmentValuesSplit1();
    InvestmentValuesSplit2();
    InvestmentValuesSplit3();
    InvestmentValuesSplit4();
    InvestmentValuesSplit5();
  }

  lemma InvestmentValuesSplit1()
    ensures INVESTMENT_INITIALIZED.Value() == PrefixOf(Investment) + "." + INVESTMENT_INITIALIZED.Action()
    ensures INVESTMENT_SUBMITTED.Value() == PrefixOf(Investment) + "." + INVESTMENT_SUBMITTED.Action()
  {
  }

  lemma InvestmentValuesSplit2()
    ensures INVESTMENT_CONFIRMED.Value() == PrefixOf(Investment) + "." + INVESTMENT_CONFIRMED.Action()
    ensures INVESTMENT_FAILED.Value() == PrefixOf(Investment) + "." + INVESTMENT_FAILED.Action()
  {
  }

  lemma InvestmentValuesSplit3()
    ensures INVESTMENT_REPAID.Value() == PrefixOf(Investment) + "." + INVESTMENT_REPAID.Action()
    ensures INVESTMENT_REFUNDED.Value() == PrefixOf(Investment) + "." + INVESTMENT_REFUNDED.Action()
  {
  }

  lemma InvestmentValuesSplit4()
    ensures INVESTMENT_DELINQUENT.Value() == PrefixOf(Investment) + "." + INVESTMENT_DELINQUENT.Action()
    ensures INVESTMENT_CREDITED.Value() == PrefixOf(Investment) + "." + INVESTMENT_CREDITED.Action()
  {
  }

  lemma InvestmentValuesSplit5()
    ensures INVESTMENT_UPDATED.Value() == PrefixOf(Investment) + "." + INVESTMENT_UPDATED.Action()
  {
  }

  lemma ValueSplitsMovement(e: PrivateEvent)
    requires e.ContentType() == Movement
    ensures e.Value() == PrefixOf(Movement) + "." + e.Action()
  {
    MovementValuesSplit1();
    MovementValuesSplit2();
    MovementValuesSplit3();
    MovementValuesSplit4();
  }

  lemma MovementValuesSplit1()
    ensures MOVEMENT_WITHDRAWAL.Value() == PrefixOf(Movement) + "." + MOVEMENT_WITHDRAWAL.Action()
    ensures MOVEMENT_DEPOSIT.Value() == PrefixOf(Movement) + "." + MOVEMENT_DEPOSIT.Action()
  {
  }

  lemma MovementValuesSplit2()
    ensures MOVEMENT_INVESTMENT.Value() == PrefixOf(Movement) + "." + MOVEMENT_INVESTMENT.Action()
    ensures MOVEMENT_FEE_RETENTION.Value() == PrefixOf(Movement) + "." + MOVEMENT_FEE_RETENTION.Action()
  {
  }

  lemma MovementValuesSplit3()
    ensures MOVEMENT_FEE_CHARGE.Value() == PrefixOf(Movement) + "." + MOVEMENT_FEE_CHARGE.Action()
    ensures MOVEMENT_FEE_REFUND.Value() == PrefixOf(Movement) + "." + MOVEMENT_FEE_REFUND.Action()
  {
  }

  lemma MovementValuesSplit4()
    ensures MOVEMENT_RETURN.Value() == PrefixOf(Movement) + "." + MOVEMENT_RETURN.Action()
  {
  }

  /** The content type is the one the value's resource prefix names. */
  lemma {:induction false} ContentTypeFollowsPrefix(e: PrivateEvent)
    ensures ContentTypeOfPrefix(ResourcePrefix(e.Value())) == Some(e.ContentType())
  {
    ValueSplits(e);
    PrefixOfDotted(PrefixOf(e.ContentType()), e.Action());
  }

  /** Only the `user.*` actions contain a dot of their own. */
  lemma {:induction false} ActionDotted(e: PrivateEvent)
    ensures '.' in e.Action() <==> e.ContentType() == User
  {
    match e
    case USER_NOTIFICATIONS_UPDATED => assert e.Action()[13] == '.';
    case USER_CREDENTIALS_UPDATED => assert e.Action()[11] == '.';
    case USER_CHANNELS_UPDATED => assert e.Action()[8] == '.';
    case USER_FILTERS_UPDATED => assert e.Action()[7] == '.';
    case _ =>
      match e.ContentType()
      case FundingRequest => ActionUndottedFundingRequest(e);
      case Investment => ActionUndottedInvestment(e);
      case Movement => ActionUndottedMovement(e);
  }

  lemma ActionUndottedFundingRequest(e: PrivateEvent)
    requires e.ContentType() == FundingRequest
    ensures '.' !in e.Action()
  {
    match e
    case FUNDING_REQUEST_AVAILABLE => assert '.' !in "available";
    case FUNDING_REQUEST_PROMISING => assert '.' !in "promising";
    case FUNDING_REQUEST_FILTER => assert '.' !in "filter";
  }

  lemma ActionUndottedInvestment(e: PrivateEvent)
    requires e.ContentType() == Investment
    ensures '.' !in e.Action()
  {
    match e
    case INVESTMENT_INITIALIZED => assert '.' !in "initialized";
    case INVESTMENT_SUBMITTED => assert '.' !in "submitted";
    case INVESTMENT_CONFIRMED => assert '.' !in "confirmed";
    case INVESTMENT_FAILED => assert '.' !in "failed";
    case INVESTMENT_REPAID => assert '.' !in "repaid";
    case INVESTMENT_REFUNDED => assert '.' !in "refunded";
    case INVESTMENT_DELINQUENT => assert '.' !in "delinquent";
    case INVESTMENT_CREDITED => assert '.' !in "credited";
    case INVESTMENT_UPDATED => assert '.' !in "updated";
  }

  lemma ActionUndottedMovement(e: PrivateEvent)
    requires e.ContentType() == Movement
    ensures '.' !in e.Action()
  {
    match e
    case MOVEMENT_WITHDRAWAL => assert '.' !in "withdrawal";
    case MOVEMENT_DEPOSIT => assert '.' !in "deposit";
    case MOVEMENT_INVESTMENT => assert '.' !in "investment";
    case MOVEMENT_FEE_RETENTION => assert '.' !in "fee_retention";
    case MOVEMENT_FEE_CHARGE => assert '.' !in "fee_charge";
    case MOVEMENT_FEE_REFUND => assert '.' !in "fee_refund";
    case MOVEMENT_RETURN => assert '.' !in "return";
  }

  /** The `user.*` values carry a second dot; every other value has the single-dot `resource.state` shape. */
  lemma {:induction false} SingleDotExceptUser(e: PrivateEvent)
    ensures SingleDot(e.Value()) <==> e.ContentType() != User
  {
    ValueSplits(e);
    SingleDotIff(PrefixOf(e.ContentType()), e.Action());
    ActionDotted(e);
  }
}

=== FILE: event_public.dfy ===
/** `PublicEvent`: the events other services may consume (cumplo_common/models/event_public.py). */
module EventPublic {
  import opened Wrappers
  import opened Text
  import opened ContentEvent
  import EventPrivate
  import StrEnum

  datatype PublicEvent = FUNDING_REQUEST_PROMISING {
    function Name(): string {
      "FUNDING_REQUEST_PROMISING"
    }

    function Value(): string {
      "funding_request.promising"
    }

    function ContentType(): ContentType {
      FundingRequest
    }

    /** The single member is declared with an explicit `True` flag. */
    predicate IsRecurring() {
      true
    }
  }

  const All: seq<PublicEvent> := [FUNDING_REQUEST_PROMISING]

  /** The public taxonomy has exactly one member. */
  lemma SingleMember(e: PublicEvent)
    ensures e == FUNDING_REQUEST_PROMISING
    ensures StrEnum.Enumerates(All) && |All| == 1
  {
    forall m: PublicEvent ensures m in All {
      assert All[0] == m;
    }
  }

  /** The public member agrees in name, value, content type and flag with its private namesake. */
  lemma {:induction false} AgreesWithPrivate(e: PublicEvent)
    ensures e.Value() == EventPrivate.PrivateEvent.FUNDING_REQUEST_PROMISING.Value()
    ensures e.ContentType() == EventPrivate.PrivateEvent.FUNDING_REQUEST_PROMISING.ContentType()
    ensures e.IsRecurring() && EventPrivate.PrivateEvent.FUNDING_REQUEST_PROMISING.IsRecurring()
    ensures ContentTypeOfPrefix(ResourcePrefix(e.Value())) == Some(e.ContentType())
  {
    EventPrivate.ContentTypeFollowsPrefix(EventPrivate.PrivateEvent.FUNDING_REQUEST_PROMISING);
  }
}

=== FILE: filter.dfy ===
/**
 * The legacy `FilterConfiguration` (cumplo_common/models/filter.py): the same
 * idea with older field names and no credit types; equality also ignores `id`
 * and `name`.
 */
module Filter {
  import opened Wrappers
  import opened DecimalNumber
  import BaseModel
  import Text
  import FC = FilterConfiguration

  datatype FilterConfiguration = FilterConfiguration(
    id: string,
    name: Option<string>,
    filterDicom: bool,
    irr: Option<Decimal>,
    duration: Option<int>,
    score: Option<Decimal>,
    amountRequested: Option<int>,
    creditsRequested: Option<int>,
    monthlyProfitRate: Option<Decimal>,
    averageDaysDelinquent: Option<int>,
    paidInTimePercentage: Option<Decimal>)
  {
    ghost predicate Valid() {
      FC.NonNegative(irr) && FC.NonNegative(monthlyProfitRate)
      && FC.Fraction(score) && FC.Fraction(paidInTimePercentage)
      && FC.Positive(duration) && FC.Positive(amountRequested) && FC.Positive(creditsRequested)
      && FC.Positive(averageDaysDelinquent)
    }
  }

  function Checks(f: FilterConfiguration): seq<(string, bool)> {
    [("irr", FC.NonNegative(f.irr)),
     ("duration", FC.Positive(f.duration)),
     ("score", FC.Fraction(f.score)),
     ("amount_requested", FC.Positive(f.amountRequested)),
     ("credits_requested", FC.Positive(f.creditsRequested)),
     ("monthly_profit_rate", FC.NonNegative(f.monthlyProfitRate)),
     ("average_days_delinquent", FC.Positive(f.averageDaysDelinquent)),
     ("paid_in_time_percentage", FC.Fraction(f.paidInTimePercentage))]
  }

  /** Building or assigning: accepted exactly when every bound holds and stored with its name stripped, else the failing fields are reported. */
  function Validate(f: FilterConfiguration): (r: Result<FilterConfiguration, seq<string>>)
    ensures r.Ok? <==> f.Valid()
    ensures r.Ok? ==> r.value == f.(name := FC.StoredName(f.name))
    ensures r.Err? ==> forall n :: n in r.error <==> (n, false) in Checks(f)
  {
    var c := Checks(f);
    assert |c| == 8;
    assert f.Valid() <==> c[0].1 && c[1].1 && c[2].1 && c[3].1 && c[4].1 && c[5].1 && c[6].1 && c[7].1;
    assert f.Valid() <==> forall k :: 0 <= k < |c| ==> c[k].1;
    var v := BaseModel.Failing(c);
    if |v| == 0 then Ok(f.(name := FC.StoredName(f.name))) else Err(v)
  }

  /** The stored legacy filter equals the one given, and validating it again changes nothing. */
  lemma {:induction false} ValidateKeepsEquality(f: FilterConfiguration)
    requires f.Valid()
    ensures Equal(Validate(f).value, f)
    ensures Validate(Validate(f).value) == Validate(f)
  {
    var g := Validate(f).value;
    EqualIff(g, f);
    if f.name.Some? {
      Text.StripIdempotent(f.name.value);
    }
  }

  /** `filter_dicom` defaults to false and every threshold to unset. */
  function Default(id: string): (f: FilterConfiguration)
    ensures f.Valid() && f.id == id && !f.filterDicom && f.name.None?
    ensures f.irr.None? && f.duration.None? && f.score.None?
    ensures f.amountRequested.None? && f.creditsRequested.None? && f.monthlyProfitRate.None?
    ensures f.averageDaysDelinquent.None? && f.paidInTimePercentage.None?
  {
    FilterConfiguration(id, None, false, None, None, None, None, None, None, None, None)
  }

  function Thresholds(f: FilterConfiguration): seq<BaseModel.Field> {
    [("filter_dicom", BaseModel.JBool(f.filterDicom)),
     ("irr", FC.OptDecimal(f.irr)),
     ("duration", FC.OptInt(f.duration)),
     ("score", FC.OptDecimal(f.score)),
     ("amount_requested", FC.OptInt(f.amountRequested)),
     ("credits_requested", FC.OptInt(f.creditsRequested)),
     ("monthly_profit_rate", FC.OptDecimal(f.monthlyProfitRate)),
     ("average_days_delinquent", FC.OptInt(f.averageDaysDelinquent)),
     ("paid_in_time_percentage", FC.OptDecimal(f.paidInTimePercentage))]
  }

  function Fields(f: FilterConfiguration): seq<BaseModel.Field> {
    [("id", BaseModel.JStr(f.id)), ("name", FC.OptString(f.name))] + Thresholds(f)
  }

  const FieldNames: seq<string> := ["id", "name", "filter_dicom", "irr", "duration", "score",
    "amount_requested", "credits_requested", "monthly_profit_rate", "average_days_delinquent",
    "paid_in_time_percentage"]

  predicate Equal(f: FilterConfiguration, g: FilterConfiguration) {
    BaseModel.Equal(Fields(f), Fields(g), FC.Ignored)
  }

  lemma FieldsSchema(f: FilterConfiguration, g: FilterConfiguration)
    ensures BaseModel.SameNames(Fields(f), Fields(g))
    ensures BaseModel.DistinctNames(Fields(f))
  {
    NamesOfFields(f);
    NamesOfFields(g);
    FieldNamesDistinct();
  }

  lemma NamesOfFields(f: FilterConfiguration)
    ensures BaseModel.NamesOf(Fields(f)) == FieldNames
  {
  }

  lemma FieldNamesDistinct()
    ensures BaseModel.Distinct(FieldNames)
  {
  }

  /** Two legacy filters are equal exactly when they differ at most in `id` and `name`. */
  lemma {:induction false} EqualIff(f: FilterConfiguration, g: FilterConfiguration)
    ensures Equal(f, g) <==> f.(id := g.id, name := g.name) == g
  {
    if f.(id := g.id, name := g.name) == g {
      EqualWhenThresholdsAgree(f, g);
    }
    if Equal(f, g) {
      ThresholdsAgreeWhenEqual(f, g);
      ThresholdsInjective(f, g);
    }
  }

  lemma {:induction false} EqualWhenThresholdsAgree(f: FilterConfiguration, g: FilterConfiguration)
    requires f.(id := g.id, name := g.name) == g
    ensures Equal(f, g)
  {
    FieldsSchema(f, g);
    var a, b := Fields(f), Fields(g);
    assert Thresholds(f) == Thresholds(f.(id := g.id, name := g.name));
    assert a[2..] == b[2..];
    assert BaseModel.AgreeOutside(a, b, FC.Ignored) by {
      forall i | 0 <= i < |a| && a[i].0 !in FC.Ignored ensures a[i].1 == b[i].1 {
        assert a[i] == a[2..][i - 2];
      }
    }
    BaseModel.AgreeOutsideIsEqual(a, b, FC.Ignored);
  }

  lemma {:induction false} ThresholdsAgreeWhenEqual(f: FilterConfiguration, g: FilterConfiguration)
    requires Equal(f, g)
    ensures Thresholds(f) == Thresholds(g)
  {
    FieldsSchema(f, g);
    NamesOfFields(f);
    ThresholdNamesNotIgnored();
    var a, b := Fields(f), Fields(g);
    BaseModel.EqualAgreesOutside(a, b, FC.Ignored);
    BaseModel.AgreeOutsideSuffix(a, b, FC.Ignored, 2);
    ThresholdsFollowNames(f);
    ThresholdsFollowNames(g);
  }

  lemma ThresholdsFollowNames(f: FilterConfiguration)
    ensures Fields(f)[2..] == Thresholds(f)
  {
  }

  lemma ThresholdNamesNotIgnored()
    ensures forall k :: 2 <= k < |FieldNames| ==> FieldNames[k] !in FC.Ignored
  {
  }

  lemma ThresholdsInjective(f: FilterConfiguration, g: FilterConfiguration)
    requires Thresholds(f) == Thresholds(g)
    ensures f.(id := g.id, name := g.name) == g
  {
    var tf, tg := Thresholds(f), Thresholds(g);
    assert tf[0] == tg[0] && tf[1] == tg[1] && tf[2] == tg[2] && tf[3] == tg[3] && tf[4] == tg[4];
    assert tf[5] == tg[5] && tf[6] == tg[6] && tf[7] == tg[7] && tf[8] == tg[8];
  }
}

=== FILE: filter_configuration.dfy ===
/**
 * `FilterConfiguration` (cumplo_common/models/filter_configuration.py): a
 * user's thresholds for promising funding requests. Every bound is checked when
 * the record is built and again on each assignment, so `Valid` is an invariant;
 * equality ignores `id` and `name`.
 */
module FilterConfiguration {
  import opened Wrappers
  import opened DecimalNumber
  import BaseModel
  import Text

  /** `CreditType` (credit.py), used only as a value here. */
  datatype CreditType = HUD_SUBSIDY | TREASURY_SUBSIDY | WORKING_CAPITAL | FACTORING {
    function Value(): string {
      match this
      case HUD_SUBSIDY => "HOUSING & URBAN DEVELOPMENT SUBSIDY"
      case TREASURY_SUBSIDY => "TREASURY SUBSIDY"
      case WORKING_CAPITAL => "WORKING CAPITAL"
      case FACTORING => "FACTORING"
    }
  }

  datatype FilterConfiguration = FilterConfiguration(
    id: string,
    name: Option<string>,
    ignoreDicom: bool,
    minimumScore: Option<Decimal>,
    targetCreditTypes: Option<seq<CreditType>>,
    minimumDuration: Option<int>,
    maximumDuration: Option<int>,
    minimumInvestmentAmount: Option<int>,
    minimumIrr: Option<Decimal>,
    minimumMonthlyProfitRate: Option<Decimal>,
    minimumRequestedAmount: Option<int>,
    minimumRequestedCredits: Option<int>,
    maximumAverageDaysDelinquent: Option<int>,
    minimumPaidInTimePercentage: Option<Decimal>)
  {
    /** The field bounds: fractions in [0, 1], rates at least 0, counts and amounts positive. */
    ghost predicate Valid() {
      Fraction(minimumScore) && Fraction(minimumPaidInTimePercentage)
      && NonNegative(minimumIrr) && NonNegative(minimumMonthlyProfitRate)
      && Positive(minimumDuration) && Positive(maximumDuration) && Positive(minimumInvestmentAmount)
      && Positive(minimumRequestedAmount) && Positive(minimumRequestedCredits)
      && Positive(maximumAverageDaysDelinquent)
    }
  }

  /** `ge=0, le=1` on an optional decimal. */
  predicate Fraction(d: Option<Decimal>) {
    d.Some? ==> 0.0 <= d.value.Value() <= 1.0
  }

  /** `ge=0` on an optional decimal. */
  predicate NonNegative(d: Option<Decimal>) {
    d.Some? ==> 0.0 <= d.value.Value()
  }

  /** `PositiveInt | None`. */
  predicate Positive(n: Option<int>) {
    n.Some? ==> n.value > 0
  }

  /** Each bound with the field it belongs to, in declaration order. */
  function Checks(f: FilterConfiguration): seq<(string, bool)> {
    [("minimum_score", Fraction(f.minimumScore)),
     ("minimum_duration", Positive(f.minimumDuration)),
     ("maximum_duration", Positive(f.maximumDuration)),
     ("minimum_investment_amount", Positive(f.minimumInvestmentAmount)),
     ("minimum_irr", NonNegative(f.minimumIrr)),
     ("minimum_monthly_profit_rate", NonNegative(f.minimumMonthlyProfitRate)),
     ("minimum_requested_amount", Positive(f.minimumRequestedAmount)),
     ("minimum_requested_credits", Positive(f.minimumRequestedCredits)),
     ("maximum_average_days_delinquent", Positive(f.maximumAverageDaysDelinquent)),
     ("minimum_paid_in_time_percentage", Fraction(f.minimumPaidInTimePercentage))]
  }

  /** The names of the fields whose bound fails, in declaration order. */
  function Violations(f: FilterConfiguration): (v: seq<string>)
    ensures |v| == 0 <==> f.Valid()
    ensures forall n :: n in v <==> (n, false) in Checks(f)
  {
    var c := Checks(f);
    assert |c| == 10;
    assert f.Valid() <==> c[0].1 && c[1].1 && c[2].1 && c[3].1 && c[4].1 && c[5].1 && c[6].1 && c[7].1 && c[8].1 && c[9].1;
    assert f.Valid() <==> forall k :: 0 <= k < |c| ==> c[k].1;
    BaseModel.Failing(c)
  }

  /** `name` as stored: a `str` field, so `str_strip_whitespace` strips it. */
  function StoredName(name: Option<string>): Option<string> {
    if name.Some? then Some(Text.Strip(name.value)) else None
  }

  /**
   * Building or assigning: the record is accepted exactly when every bound
   * holds, and is then stored with its name stripped; else all violations are reported.
   */
  function Validate(f: FilterConfiguration): (r: Result<FilterConfiguration, seq<string>>)
    ensures r.Ok? <==> f.Valid()
    ensures r.Ok? ==> r.value == f.(name := StoredName(f.name))
    ensures r.Err? ==> |r.error| > 0
  {
    var v := Violations(f);
    if |v| == 0 then Ok(f.(name := StoredName(f.name))) else Err(v)
  }

  /** The stored filter equals the one given, and validating it again changes nothing. */
  lemma {:induction false} ValidateKeepsEquality(f: FilterConfiguration)
    requires f.Valid()
    ensures Equal(Validate(f).value, f)
    ensures Validate(Validate(f).value) == Validate(f)
  {
    var g := Validate(f).value;
    EqualIff(g, f);
    if f.name.Some? {
      Text.StripIdempotent(f.name.value);
    }
  }

  /** A filter with only an id: `ignore_dicom` false and every threshold unset. */
  function Default(id: string): (f: FilterConfiguration)
    ensures f.Valid() && f.id == id && !f.ignoreDicom && f.name.None?
    ensures f.minimumScore.None? && f.targetCreditTypes.None? && f.minimumDuration.None?
    ensures f.maximumDuration.None? && f.minimumInvestmentAmount.None? && f.minimumIrr.None?
    ensures f.minimumMonthlyProfitRate.None? && f.minimumRequestedAmount.None?
    ensures f.minimumRequestedCredits.None? && f.maximumAverageDaysDelinquent.None?
    ensures f.minimumPaidInTimePercentage.None?
  {
    FilterConfiguration(id, None, false, None, None, None, None, None, None, None, None, None, None, None)
  }

  function OptDecimal(d: Option<Decimal>): BaseModel.Json {
    match d
    case None => BaseModel.JNull
    case Some(x) => BaseModel.JDecimal(x.digits, x.places)
  }

  function OptInt(n: Option<int>): BaseModel.Json {
    match n
    case None => BaseModel.JNull
    case Some(x) => BaseModel.JInt(x)
  }

  function OptString(s: Option<string>): BaseModel.Json {
    match s
    case None => BaseModel.JNull
    case Some(x) => BaseModel.JStr(x)
  }

  function OptCreditTypes(s: Option<seq<CreditType>>): BaseModel.Json {
    match s
    case None => BaseModel.JNull
    case Some(x) => BaseModel.JList(seq(|x|, i requires 0 <= i < |x| => BaseModel.JStr(x[i].Value())))
  }

  /** The serialised thresholds, every field after `id` and `name`. */
  function Thresholds(f: FilterConfiguration): seq<BaseModel.Field> {
    [("ignore_dicom", BaseModel.JBool(f.ignoreDicom)),
     ("minimum_score", OptDecimal(f.minimumScore)),
     ("target_credit_types", OptCreditTypes(f.targetCreditTypes)),
     ("minimum_duration", OptInt(f.minimumDuration)),
     ("maximum_duration", OptInt(f.maximumDuration)),
     ("minimum_investment_amount", OptInt(f.minimumInvestmentAmount)),
     ("minimum_irr", OptDecimal(f.minimumIrr)),
     ("minimum_monthly_profit_rate", OptDecimal(f.minimumMonthlyProfitRate)),
     ("minimum_requested_amount", OptInt(f.minimumRequestedAmount)),
     ("minimum_requested_credits", OptInt(f.minimumRequestedCredits)),
     ("maximum_average_days_delinquent", OptInt(f.maximumAverageDaysDelinquent)),
     ("minimum_paid_in_time_percentage", OptDecimal(f.minimumPaidInTimePercentage))]
  }

  /** The fields in declaration order, as the dump sees them. */
  function Fields(f: FilterConfiguration): seq<BaseModel.Field> {
    [("id", BaseModel.JStr(f.id)), ("name", OptString(f.name))] + Thresholds(f)
  }

  const Ignored: set<string> := {"id", "name"}

  /** `__eq__` with this class's `__hash__`: the dumps without `id`, `name` and `None` fields coincide. */
  predicate Equal(f: FilterConfiguration, g: FilterConfiguration) {
    BaseModel.Equal(Fields(f), Fields(g), Ignored)
  }

  const FieldNames: seq<string> := ["id", "name", "ignore_dicom", "minimum_score", "target_credit_types",
    "minimum_duration", "maximum_duration", "minimum_investment_amount", "minimum_irr",
    "minimum_monthly_profit_rate", "minimum_requested_amount", "minimum_requested_credits",
    "maximum_average_days_delinquent", "minimum_paid_in_time_percentage"]

  /** Every filter serialises to the same fourteen distinct names. */
  lemma FieldsSchema(f: FilterConfiguration, g: FilterConfiguration)
    ensures BaseModel.SameNames(Fields(f), Fields(g))
    ensures BaseModel.DistinctNames(Fields(f))
  {
    NamesOfFields(f);
    NamesOfFields(g);
    FieldNamesDistinct();
  }

  lemma NamesOfFields(f: FilterConfiguration)
    ensures BaseModel.NamesOf(Fields(f)) == FieldNames
  {
  }

  lemma FieldNamesDistinct()
    ensures BaseModel.Distinct(FieldNames)
  {
  }

  /** Two filters are equal exactly when they differ at most in `id` and `name`. */
  lemma {:induction false} EqualIff(f: FilterConfiguration, g: FilterConfiguration)
    ensures Equal(f, g) <==> f.(id := g.id, name := g.name) == g
  {
    if f.(id := g.id, name := g.name) == g {
      EqualWhenThresholdsAgree(f, g);
    }
    if Equal(f, g) {
      ThresholdsAgreeWhenEqual(f, g);
      ThresholdsInjective(f, g);
    }
  }

  lemma {:induction false} EqualWhenThresholdsAgree(f: FilterConfiguration, g: FilterConfiguration)
    requires f.(id := g.id, name := g.name) == g
    ensures Equal(f, g)
  {
    FieldsSchema(f, g);
    var a, b := Fields(f), Fields(g);
    assert Thresholds(f) == Thresholds(f.(id := g.id, name := g.name));
    assert a[2..] == b[2..];
    assert BaseModel.AgreeOutside(a, b, Ignored) by {
      forall i | 0 <= i < |a| && a[i].0 !in Ignored ensures a[i].1 == b[i].1 {
        assert a[i] == a[2..][i - 2];
      }
    }
    BaseModel.AgreeOutsideIsEqual(a, b, Ignored);
  }

  lemma {:induction false} ThresholdsAgreeWhenEqual(f: FilterConfiguration, g: FilterConfiguration)
    requires Equal(f, g)
    ensures Thresholds(f) == Thresholds(g)
  {
    FieldsSchema(f, g);
    NamesOfFields(f);
    ThresholdNamesNotIgnored();
    var a, b := Fields(f), Fields(g);
    BaseModel.EqualAgreesOutside(a, b, Ignored);
    BaseModel.AgreeOutsideSuffix(a, b, Ignored, 2);
    ThresholdsFollowNames(f);
    ThresholdsFollowNames(g);
  }

  lemma ThresholdsFollowNames(f: FilterConfiguration)
    ensures Fields(f)[2..] == Thresholds(f)
  {
  }

  lemma ThresholdNamesNotIgnored()
    ensures forall k :: 2 <= k < |FieldNames| ==> FieldNames[k] !in Ignored
  {
  }

  /** Distinct thresholds serialise differently. */
  lemma ThresholdsInjective(f: FilterConfiguration, g: FilterConfiguration)
    requires Thresholds(f) == Thresholds(g)
    ensures f.(id := g.id, name := g.name) == g
  {
    var tf, tg := Thresholds(f), Thresholds(g);
    assert tf[0].1 == tg[0].1 && tf[2].1 == tg[2].1;
    CreditTypesInjective(f.targetCreditTypes, g.targetCreditTypes);
    assert tf[1].1 == tg[1].1 && tf[6].1 == tg[6].1 && tf[7].1 == tg[7].1 && tf[11].1 == tg[11].1;
    DecimalsInjective(f.minimumScore, g.minimumScore);
    DecimalsInjective(f.minimumIrr, g.minimumIrr);
    DecimalsInjective(f.minimumMonthlyProfitRate, g.minimumMonthlyProfitRate);
    DecimalsInjective(f.minimumPaidInTimePercentage, g.minimumPaidInTimePercentage);
    assert tf[3].1 == tg[3].1 && tf[4].1 == tg[4].1 && tf[5].1 == tg[5].1;
    assert tf[8].1 == tg[8].1 && tf[9].1 == tg[9].1 && tf[10].1 == tg[10].1;
    IntsInjective(f.minimumDuration, g.minimumDuration);
    IntsInjective(f.maximumDuration, g.maximumDuration);
    IntsInjective(f.minimumInvestmentAmount, g.minimumInvestmentAmount);
    IntsInjective(f.minimumRequestedAmount, g.minimumRequestedAmount);
    IntsInjective(f.minimumRequestedCredits, g.minimumRequestedCredits);
    IntsInjective(f.maximumAverageDaysDelinquent, g.maximumAverageDaysDelinquent);
  }

  lemma DecimalsInjective(x: Option<Decimal>, y: Option<Decimal>)
    requires OptDecimal(x) == OptDecimal(y)
    ensures x == y
  {
  }

  lemma IntsInjective(x: Option<int>, y: Option<int>)
    requires OptInt(x) == OptInt(y)
    ensures x == y
  {
  }

  lemma CreditTypesInjective(x: Option<seq<CreditType>>, y: Option<seq<CreditType>>)
    requires OptCreditTypes(x) == OptCreditTypes(y)
    ensures x == y
  {
    if x.Some? && y.Some? {
      var a, b := OptCreditTypes(x).items, OptCreditTypes(y).items;
      assert |x.value| == |a| == |b| == |y.value|;
      forall i | 0 <= i < |x.value| ensures x.value[i] == y.value[i] {
        assert a[i] == b[i];
        ValuesDistinct(x.value[i], y.value[i]);
      }
      assert x.value == y.value;
    }
  }

  lemma ValuesDistinct(a: CreditType, b: CreditType)
    requires a.Value() == b.Value()
    ensures a == b
  {
  }

  /** Filters with only defaults are equal, whatever their ids and however they are named alike. */
  lemma {:induction false} DefaultsAreEqual(id1: string, id2: string, name: Option<string>)
    ensures Equal(Default(id1), Default(id2))
    ensures Equal(Default(id1).(name := name), Default(id2).(name := name))
  {
    EqualIff(Default(id1), Default(id2));
    EqualIff(Default(id1).(name := name), Default(id2).(name := name));
  }

  /** The filter of the equality tests: `minimum_irr` 1.1, `minimum_score` 0.5 and a minimum duration. */
  function Sample(id: string, minimumDuration: int): FilterConfiguration {
    Default(id).(minimumIrr := Some(Decimal(11, 1)), minimumScore := Some(Decimal(5, 1)),
                 minimumDuration := Some(minimumDuration))
  }

  /** Identical thresholds give equal filters; changing `minimum_duration` alone breaks equality. */
  lemma {:induction false} ThresholdsDecideEquality(id1: string, id2: string)
    ensures Equal(Sample(id1, 30), Sample(id2, 30))
    ensures !Equal(Sample(id1, 30), Sample(id2, 10))
  {
    EqualIff(Sample(id1, 30), Sample(id2, 30));
    EqualIff(Sample(id1, 30), Sample(id2, 10));
  }

  /** The sample thresholds are within bounds: 0.5 is a fraction, 1.1 a non-negative rate, 30 positive. */
  lemma SampleIsValid(id: string)
    ensures Validate(Sample(id, 30)).Ok?
  {
    assert Decimal(5, 1).Value() == 0.5;
    assert Decimal(11, 1).Value() == 1.1;
  }

  /** A threshold rewritten with a trailing zero keeps its value but breaks equality: decimals compare by text. */
  lemma {:induction false} DecimalTextMatters(f: FilterConfiguration, d: Decimal)
    requires f.minimumIrr == Some(d)
    ensures var g := f.(minimumIrr := Some(WithTrailingZero(d)));
      g.minimumIrr.value.Value() == d.Value() && !Equal(f, g)
  {
    EqualIff(f, f.(minimumIrr := Some(WithTrailingZero(d))));
  }
}

=== FILE: funding_request.dfy ===
/**
 * The parts of `FundingRequest` (cumplo_common/models/funding_request.py)
 * that are exact: the duration text, completion, the public URL, the IRR
 * guard and the monthly profit rounding. The IRR itself and the profit rates
 * come from floating-point library code and are parameters.
 */
module FundingRequest {
  import opened Wrappers
  import opened Text
  import Sim = Simulation

  datatype DurationUnit = MONTH | DAY {
    function Value(): string {
      match this
      case MONTH => "MONTH"
      case DAY => "DAY"
    }
  }

  datatype Duration = Duration(unit: DurationUnit, value: int) {
    /** `str(duration)`: the value, a space, the unit in lower case, and a plural `s` added even for one. */
    function ToString(): (r: string)
      ensures |r| > |IntToString(value)| + 1 && r[|r| - 1] == 's'
      ensures r[..|IntToString(value)|] == IntToString(value) && r[|IntToString(value)|] == ' '
      ensures r[|IntToString(value)| + 1..] == (if unit == MONTH then "months" else "days")
    {
      IntToString(value) + " " + Fold(unit.Value()) + "s"
    }
  }

  /** Two durations print alike only when they are the same duration. */
  lemma {:induction false} DurationTextIsInjective(d1: Duration, d2: Duration)
    requires d1.ToString() == d2.ToString()
    ensures d1 == d2
  {
    var u1 := Fold(d1.unit.Value()) + "s";
    var u2 := Fold(d2.unit.Value()) + "s";
    IntToStringChars(d1.value, ' ');
    IntToStringChars(d2.value, ' ');
    assert IntToString(d1.value) + [' '] + u1 == d1.ToString();
    assert IntToString(d2.value) + [' '] + u2 == d2.ToString();
    PairUnique(IntToString(d1.value), u1, IntToString(d2.value), u2, ' ');
    IntToStringInjective(d1.value, d2.value);
  }

  lemma {:induction false} DurationExamples()
    ensures Duration(MONTH, 1).ToString() == "1 months"
    ensures Duration(DAY, 30).ToString() == "30 days"
  {
    OneMonth();
    ThirtyDays();
  }

  lemma {:induction false} OneMonth()
    ensures Duration(MONTH, 1).ToString() == "1 months"
  {
    assert Fold("MONTH") == "month";
  }

  lemma {:induction false} ThirtyDays()
    ensures Duration(DAY, 30).ToString() == "30 days"
  {
    assert Fold("DAY") == "day";
    assert NatToString(30) == NatToString(3) + [DigitChar(0)];
  }

  /** `ceil(rate * amount)`: the least integer not below the exact product. */
  function MonthlyProfit(monthlyProfitRate: real, amount: int): (r: int)
    ensures (r - 1) as real < monthlyProfitRate * amount as real <= r as real
  {
    var x := monthlyProfitRate * amount as real;
    -((-x).Floor)
  }

  /** The bound in `MonthlyProfit`'s contract pins the result down: no other integer meets it. */
  lemma {:induction false} MonthlyProfitIsLeast(monthlyProfitRate: real, amount: int, n: int)
    requires (n - 1) as real < monthlyProfitRate * amount as real <= n as real
    ensures n == MonthlyProfit(monthlyProfitRate, amount)
  {
    var r := MonthlyProfit(monthlyProfitRate, amount);
    assert (r - 1) as real < n as real && (n - 1) as real < r as real;
  }

  class FundingRequest {
    var id: int
    var irr: real
    var installments: int
    var fundedPercentage: real
    var simulation: Sim.Simulation
    var duration: Duration

    /** The declared fields; `_validate_model` then runs `CalculateIrr`. */
    constructor(id: int, irr: real, installments: int, fundedPercentage: real, simulation: Sim.Simulation, duration: Duration)
      ensures this.id == id && this.irr == irr && this.installments == installments
      ensures this.fundedPercentage == fundedPercentage && this.simulation == simulation && this.duration == duration
    {
      this.id := id;
      this.irr := irr;
      this.installments := installments;
      this.fundedPercentage := fundedPercentage;
      this.simulation := simulation;
      this.duration := duration;
    }

    /** `is_completed`: funded at exactly 100%. */
    predicate IsCompleted()
      reads this
    {
      fundedPercentage == 1.0
    }

    /** `url`: CUMPLO_BASE_URL, a slash, and the decimal id. */
    function Url(baseUrl: string): (r: string)
      reads this
      ensures |r| > |baseUrl| + 1 && r[..|baseUrl|] == baseUrl && r[|baseUrl|] == '/'
      ensures r[|baseUrl| + 1..] == IntToString(id)
    {
      baseUrl + "/" + IntToString(id)
    }

    /**
     * `_calculate_irr`: with more than one installment, `irr` becomes what the
     * IRR routine (`irrOf`, already rounded to 4 places) gives for the
     * simulation's cash flows, and an empty schedule raises the cash flows'
     * `IndexError`; otherwise `irr` is left as given.
     */
    method CalculateIrr(irrOf: seq<Sim.Installment> -> real, simulationAmount: int, today: int) returns (err: Option<Sim.PyError>)
      modifies this`irr
      ensures installments <= 1 ==> err.None? && irr == old(irr)
      ensures installments > 1 && |simulation.paymentSchedule| == 0 ==> err == Some(Sim.IndexError) && irr == old(irr)
      ensures installments > 1 && |simulation.paymentSchedule| > 0 ==>
                err.None? && irr == irrOf(Sim.CashFlowsOf(simulation, simulationAmount, today).value)
    {
      err := None;
      if installments > 1 {
        var flows := Sim.CashFlows(simulation, simulationAmount, today);
        match flows
        case Err(e) => err := Some(e);
        case Ok(f) => irr := irrOf(f);
      }
    }
  }

  /** Completion is an exact comparison: any other funded share, even above 100%, is not complete. */
  lemma CompletionIsExact(f: FundingRequest)
    ensures f.IsCompleted() <==> f.fundedPercentage == 1.0
    ensures f.fundedPercentage > 1.0 ==> !f.IsCompleted()
  {
  }

  /** Under one base URL, the URL of a funding request identifies it. */
  lemma {:induction false} UrlIdentifiesRequest(f: FundingRequest, g: FundingRequest, baseUrl: string)
    requires f.Url(baseUrl) == g.Url(baseUrl)
    ensures f.id == g.id
  {
    assert IntToString(f.id) == f.Url(baseUrl)[|baseUrl| + 1..] == IntToString(g.id);
    IntToStringInjective(f.id, g.id);
  }

  /** With the default empty CUMPLO_BASE_URL the URL is a bare absolute path. */
  lemma {:induction false} DefaultBaseUrl(f: FundingRequest)
    requires f.id == 42
    ensures f.Url("") == "/42"
  {
    assert NatToString(42) == NatToString(4) + [DigitChar(2)];
  }
}

=== FILE: ifttt.dfy ===
/**
 * `IFTTTConfiguration` (cumplo_common/models/channel/ifttt.py): a channel
 * with an alphanumeric webhook `key` and an `event` name that is alphanumeric
 * once its dashes and underscores are deleted.
 */
module Ifttt {
  import opened Wrappers
  import opened Text
  import opened Channel

  /** `_validate_key`: the raw value, unstripped, must be `isalnum()`. */
  function ValidateKey(value: string): (r: Result<string, ChannelError>)
    ensures r.Ok? <==> IsAlnumString(value)
    ensures r.Ok? ==> r.value == value
    ensures r.Err? ==> r.error == Rejected("Webhook key must be alphanumeric")
  {
    if IsAlnumString(value) then Ok(value) else Err(Rejected("Webhook key must be alphanumeric"))
  }

  /** The text `_validate_event` tests: `value.replace("-", "").replace("_", "")`. */
  function Collapsed(value: string): (r: string)
    ensures '-' !in r && '_' !in r
    ensures forall x :: x in r <==> x in value && x != '-' && x != '_'
  {
    Remove(Remove(value, '-'), '_')
  }

  /** `_validate_event`. */
  function ValidateEvent(value: string): (r: Result<string, ChannelError>)
    ensures r.Ok? ==> r.value == value
    ensures r.Err? ==> r.error == Rejected("Event name must be alphanumeric")
  {
    if IsAlnumString(Collapsed(value)) then Ok(value) else Err(Rejected("Event name must be alphanumeric"))
  }

  /** The `key` field: the validator, then pydantic's whitespace stripping. */
  function KeyField(value: string): (r: Result<string, ChannelError>)
    ensures r.Ok? <==> IsAlnumString(value)
    ensures r.Ok? ==> r.value == value
  {
    match ValidateKey(value)
    case Err(e) => Err(e)
    case Ok(v) => StripAlnum(v); Ok(Strip(v))
  }

  /** The `event` field: the validator, then pydantic's whitespace stripping. */
  function EventField(value: string): (r: Result<string, ChannelError>)
    ensures r.Ok? <==> ValidateEvent(value).Ok?
    ensures r.Ok? ==> r.value == value
  {
    match ValidateEvent(value)
    case Err(e) => Err(e)
    case Ok(v) => EventHasNoSpace(v); StripNoSpace(v); Ok(Strip(v))
  }

  /** An accepted event name is made only of letters, digits, `-` and `_`, so it has no whitespace. */
  lemma {:induction false} EventHasNoSpace(value: string)
    requires ValidateEvent(value).Ok?
    ensures forall k :: 0 <= k < |value| ==> !IsSpace(value[k])
  {
    var c := Collapsed(value);
    forall k | 0 <= k < |value| ensures !IsSpace(value[k]) {
      var x := value[k];
      if x != '-' && x != '_' {
        assert x in c;
        var j :| 0 <= j < |c| && c[j] == x;
        assert IsAlnum(c[j]);
      }
    }
  }

  /**
   * An event name is accepted exactly when it is made of letters, digits, `-`
   * and `_` and holds at least one letter or digit.
   */
  lemma {:induction false} ValidateEventIff(value: string)
    ensures ValidateEvent(value).Ok? <==>
      (forall k :: 0 <= k < |value| ==> IsAlnum(value[k]) || value[k] == '-' || value[k] == '_') &&
      (exists k :: 0 <= k < |value| && IsAlnum(value[k]))
  {
    var c := Collapsed(value);
    if IsAlnumString(c) {
      forall k | 0 <= k < |value| ensures IsAlnum(value[k]) || value[k] == '-' || value[k] == '_' {
        var x := value[k];
        if x != '-' && x != '_' {
          assert x in c;
          var j :| 0 <= j < |c| && c[j] == x;
        }
      }
      assert c[0] in value;
      var k :| 0 <= k < |value| && value[k] == c[0];
      assert IsAlnum(value[k]);
    }
    if (forall k :: 0 <= k < |value| ==> IsAlnum(value[k]) || value[k] == '-' || value[k] == '_') &&
       (exists k :: 0 <= k < |value| && IsAlnum(value[k])) {
      var k :| 0 <= k < |value| && IsAlnum(value[k]);
      assert value[k] in c;
      forall j | 0 <= j < |c| ensures IsAlnum(c[j]) {
        assert c[j] in value;
        var i :| 0 <= i < |value| && value[i] == c[j];
      }
    }
  }

  /** A key holding `-` or `_` is refused, although an event name may hold them. */
  lemma {:induction false} KeyWithSeparatorRejected(value: string)
    requires '-' in value || '_' in value
    ensures ValidateKey(value).Err?
  {
    var k :| 0 <= k < |value| && (value[k] == '-' || value[k] == '_');
    assert !IsAlnum(value[k]);
  }

  /** An event name made only of `-` and `_` (the empty name included) is refused. */
  lemma {:induction false} SeparatorsOnlyRejected(value: string)
    requires forall k :: 0 <= k < |value| ==> value[k] == '-' || value[k] == '_'
    ensures ValidateEvent(value).Err?
  {
    ValidateEventIff(value);
  }

  lemma {:induction false} SeparatedEventAccepted()
    ensures ValidateEvent("a-b_c").Ok?
    ensures ValidateKey("a-b_c").Err?
  {
    var v := "a-b_c";
    assert forall k :: 0 <= k < |v| ==> IsAlnum(v[k]) || v[k] == '-' || v[k] == '_';
    assert IsAlnum(v[0]);
    ValidateEventIff(v);
    assert v[1] == '-';
    KeyWithSeparatorRejected(v);
  }

  datatype IftttConfiguration = IftttConfiguration(common: Common, key: string, event: string) {
    ghost predicate Valid() {
      KeyField(key) == Ok(key) && EventField(event) == Ok(event)
    }
  }

  /**
   * `IFTTTConfiguration(**data)`: `type_` defaults to IFTTT but, being a plain
   * `ChannelType`, takes any member; then `key`, then `event`.
   */
  function Build(input: Input, key: Option<string>, event: Option<string>): (r: Result<IftttConfiguration, ChannelError>)
    ensures r.Ok? ==> r.value.Valid()
    ensures r.Ok? ==> key == Some(r.value.key) && event == Some(r.value.event)
    ensures r.Ok? && input.type_.None? ==> r.value.common.type_ == IFTTT
    ensures r.Ok? && input.type_.Some? ==> FromValue(input.type_.value) == Some(r.value.common.type_)
    ensures r.Ok? <==> CommonFields(Some(IFTTT), input).Ok? && key.Some? && IsAlnumString(key.value)
                        && event.Some? && ValidateEvent(event.value).Ok?
  {
    match CommonFields(Some(IFTTT), input)
    case Err(e) => Err(e)
    case Ok(c) =>
      if key.None? then Err(MissingField("key"))
      else match KeyField(key.value)
        case Err(e) => Err(e)
        case Ok(k) =>
          if event.None? then Err(MissingField("event"))
          else match EventField(event.value)
            case Err(e) => Err(e)
            case Ok(ev) => Ok(IftttConfiguration(c, k, ev))
  }

  /** Building from what a valid configuration dumps gives that configuration back. */
  lemma {:induction false} BuildOfDump(c: IftttConfiguration)
    requires c.Valid()
    ensures Build(DumpCommon(c.common), Some(c.key), Some(c.event)) == Ok(c)
  {
    FromValueOfValue(c.common.type_);
  }
}

=== FILE: notification.dfy ===
/**
 * The `Notification` model (cumplo_common/models/notification.py): its id
 * `<template value>_<content id>`, the "before" validator that splits that id
 * into the `template` and `content_id` fields, `build_id`, and `has_expired`.
 * Instants are whole minutes on one clock; `now` is a parameter.
 */
module Notification {
  import opened Wrappers
  import opened Text
  import StrEnum
  import Template

  /** DEFAULT_EXPIRATION_MINUTES when the environment does not set it (cumplo_common/utils/constants.py). */
  const DEFAULT_EXPIRATION_MINUTES: int := 30

  /**
   * A stored notification. `dismissed` is the flag `User.should_notify` reads;
   * notification.py itself declares no such field (see README, Findings).
   */
  datatype Notification = Notification(
    id: string,
    date: int,
    contentId: int,
    template: Template.Template,
    expirationMinutes: int,
    dismissed: bool)

  /** A raw input value, as handed to the model constructor in the `values` dict. */
  datatype Raw = Str(s: string) | Int(i: int) | Bool(b: bool) | Time(t: int) | Null

  /** Python truthiness of a raw value; a time is always truthy. */
  predicate Truthy(v: Raw) {
    match v
    case Str(s) => s != ""
    case Int(i) => i != 0
    case Bool(b) => b
    case Time(_) => true
    case Null => false
  }

  datatype ValidationError =
    | InvalidIdFormat        // the `ValueError("Invalid ID format")` of the validator
    | IdNotAString           // `fullmatch` handed a non-string
    | MissingField(name: string)
    | InvalidField(name: string)

  /** Full match of `^[a-zA-Z]+_\d+$`: letters, one underscore, digits. */
  ghost predicate IdPattern(s: string) {
    exists k :: 0 < k < |s| - 1 && s[k] == '_' && AllLetters(s[..k]) && AllDigits(s[k + 1..])
  }

  /** The matcher: the letters must run up to the first underscore. */
  predicate MatchesId(s: string) {
    var k := IndexOf(s, '_');
    0 < k < |s| - 1 && AllLetters(s[..k]) && AllDigits(s[k + 1..])
  }

  lemma {:induction false} MatchesIdIff(s: string)
    ensures MatchesId(s) <==> IdPattern(s)
  {
    if IdPattern(s) {
      var k :| 0 < k < |s| - 1 && s[k] == '_' && AllLetters(s[..k]) && AllDigits(s[k + 1..]);
      IndexOfFirst(s, '_', k);
    }
  }

  /** `id_.split("_")` on an id that matched: exactly the letters and the digits. */
  function SplitId(s: string): (r: Option<(string, string)>)
    ensures r.Some? <==> IdPattern(s)
    ensures r.Some? ==> s == r.value.0 + "_" + r.value.1
    ensures r.Some? ==> |r.value.0| > 0 && AllLetters(r.value.0) && |r.value.1| > 0 && AllDigits(r.value.1)
  {
    MatchesIdIff(s);
    if !MatchesId(s) then None
    else
      var k := IndexOf(s, '_');
      assert s == s[..k] + "_" + s[k + 1..];
      assert '_' !in s[k + 1..];
      SplitOnce(s[..k], s[k + 1..], '_');
      var parts := Split(s, '_');
      Some((parts[0], parts[1]))
  }

  /**
   * `_process_id` as a function of the incoming dict: a missing or falsy id
   * leaves it alone; a string id that does not match is rejected; a matching
   * one overwrites `template` and `content_id` with its two halves.
   */
  function Processed(values: map<string, Raw>): (r: Result<map<string, Raw>, ValidationError>)
    ensures !("id" in values && Truthy(values["id"])) ==> r == Ok(values)
    ensures "id" in values && Truthy(values["id"]) && !values["id"].Str? ==> r == Err(IdNotAString)
    ensures "id" in values && values["id"].Str? && values["id"].s != "" ==>
      (r.Ok? <==> IdPattern(values["id"].s)) && (r.Err? ==> r.error == InvalidIdFormat)
    ensures r.Ok? && "id" in values && Truthy(values["id"]) ==>
      exists p, q :: (values["id"] == Str(p + "_" + q) && |p| > 0 && AllLetters(p) && |q| > 0 && AllDigits(q)
        && r.value == values["template" := Str(p)]["content_id" := Str(q)])
  {
    if "id" !in values || !Truthy(values["id"]) then Ok(values)
    else match values["id"]
      case Str(s) =>
        (match SplitId(s)
         case None => Err(InvalidIdFormat)
         case Some((p, q)) => Ok(values["template" := Str(p)]["content_id" := Str(q)]))
      case _ => Err(IdNotAString)
  }

  /** The dict handed to the validator, which `_process_id` updates in place. */
  class Values {
    var fields: map<string, Raw>

    constructor (fields: map<string, Raw>)
      ensures this.fields == fields
    {
      this.fields := fields;
    }
  }

  /**
   * `_process_id(values)`: on success the same dict comes back with `template`
   * and `content_id` assigned, one after the other; on failure it is untouched.
   */
  method ProcessId(values: Values) returns (err: Option<ValidationError>)
    modifies values
    ensures err.None? ==> Processed(old(values.fields)) == Ok(values.fields)
    ensures err.Some? ==> Processed(old(values.fields)) == Err(err.value) && values.fields == old(values.fields)
  {
    if "id" !in values.fields || !Truthy(values.fields["id"]) {
      return None;
    }
    var id := values.fields["id"];
    if !id.Str? {
      return Some(IdNotAString);
    }
    var parts := SplitId(id.s);
    if parts.None? {
      return Some(InvalidIdFormat);
    }
    values.fields := values.fields["template" := Str(parts.value.0)];
    values.fields := values.fields["content_id" := Str(parts.value.1)];
    return None;
  }

  /** Lax `int` validation of the inputs `_process_id` can produce: an int, or text of decimal digits. */
  function IntField(v: Raw): (r: Option<int>)
    ensures v.Int? ==> r == Some(v.i)
    ensures v.Str? && |v.s| > 0 && AllDigits(v.s) ==> r == Some(DigitsToNat(v.s))
    ensures !v.Int? && !v.Str? ==> r.None?
  {
    match v
    case Int(i) => Some(i)
    case Str(s) => if |s| > 0 && AllDigits(s) then Some(DigitsToNat(s)) else None
    case _ => None
  }

  /** The `template` field goes through the enum constructor, so it folds case. */
  function TemplateField(v: Raw): (r: Option<Template.Template>)
    ensures r.Some? ==> v.Str? && Fold(v.s) == r.value.Value()
    ensures v.Str? && (exists t: Template.Template :: Fold(v.s) == t.Value()) ==> r.Some?
  {
    match v
    case Str(s) =>
      var r := Template.FromValue(StrEnum.PyStr(s));
      assert r.Some? ==> Fold(s) == r.value.Value() by {
        if r.Some? { Template.FromValueIff(s, r.value); }
      }
      assert (exists t: Template.Template :: Fold(s) == t.Value()) ==> r.Some? by {
        if t: Template.Template :| Fold(s) == t.Value() { Template.FromValueIff(s, t); }
      }
      r
    case _ => None
  }

  /**
   * Validating a dict into a `Notification`: the before-validator first, then
   * the fields in declaration order; `id` is whitespace-stripped like every
   * string field, and `expiration_minutes` falls back to its default.
   */
  function FromValues(values: map<string, Raw>): (r: Result<Notification, ValidationError>)
    ensures "id" in values && values["id"].Str? && values["id"].s != "" && !IdPattern(values["id"].s) ==>
      r == Err(InvalidIdFormat)
    ensures r.Ok? && "id" in values && Truthy(values["id"]) ==>
      exists p, q :: (values["id"] == Str(p + "_" + q) && Fold(p) == r.value.template.Value()
        && AllDigits(q) && r.value.contentId == DigitsToNat(q))
    ensures r.Ok? && "expiration_minutes" !in values ==> r.value.expirationMinutes == DEFAULT_EXPIRATION_MINUTES
    ensures r.Ok? ==> "id" in values && "date" in values && values["date"] == Time(r.value.date)
  {
    match Processed(values)
    case Err(e) => Err(e)
    case Ok(v) =>
      ProcessedKeepsOtherKeys(values, v);
      var r := Fields(v);
      if r.Ok? && "id" in values && Truthy(values["id"]) then
        ProcessedHalves(values, v, r.value);
        r
      else r
  }

  /** `_process_id` writes only `template` and `content_id`: the keys the other ensures read are untouched. */
  lemma ProcessedKeepsOtherKeys(values: map<string, Raw>, v: map<string, Raw>)
    requires Processed(values) == Ok(v)
    ensures "id" in v <==> "id" in values
    ensures "date" in v <==> "date" in values
    ensures "date" in v ==> v["date"] == values["date"]
    ensures "expiration_minutes" in v <==> "expiration_minutes" in values
  {
    if v != values {
      var p, q :| v == values["template" := Str(p)]["content_id" := Str(q)];
      assert |"template"| == 8 && |"content_id"| == 10;
      assert |"id"| == 2 && |"date"| == 4 && |"expiration_minutes"| == 18;
    }
  }

  /** The halves `_process_id` wrote are the ones the fields were validated from. */
  lemma ProcessedHalves(values: map<string, Raw>, v: map<string, Raw>, n: Notification)
    requires "id" in values && Truthy(values["id"])
    requires Processed(values) == Ok(v) && Fields(v) == Ok(n)
    ensures exists p, q :: (values["id"] == Str(p + "_" + q) && Fold(p) == n.template.Value()
        && AllDigits(q) && n.contentId == DigitsToNat(q))
  {
    var p, q :| values["id"] == Str(p + "_" + q) && |p| > 0 && AllLetters(p) && |q| > 0 && AllDigits(q)
        && v == values["template" := Str(p)]["content_id" := Str(q)];
    assert v["template"] == Str(p) && v["content_id"] == Str(q);
    assert IntField(Str(q)) == Some(n.contentId);
  }

  /** Field validation after the before-validator, in declaration order; the first failing field is reported. */
  function Fields(v: map<string, Raw>): (r: Result<Notification, ValidationError>)
    ensures r.Ok? ==> "id" in v && v["id"].Str? && r.value.id == Strip(v["id"].s)
    ensures r.Ok? ==> "date" in v && v["date"] == Time(r.value.date)
    ensures r.Ok? ==> "content_id" in v && IntField(v["content_id"]) == Some(r.value.contentId)
    ensures r.Ok? ==> "template" in v && TemplateField(v["template"]) == Some(r.value.template)
    ensures r.Ok? && "expiration_minutes" !in v ==> r.value.expirationMinutes == DEFAULT_EXPIRATION_MINUTES
    ensures r.Ok? && "dismissed" !in v ==> !r.value.dismissed
  {
    if "id" !in v then Err(MissingField("id"))
    else if !v["id"].Str? then Err(InvalidField("id"))
    else if "date" !in v then Err(MissingField("date"))
    else if !v["date"].Time? then Err(InvalidField("date"))
    else if "content_id" !in v then Err(MissingField("content_id"))
    else if IntField(v["content_id"]).None? then Err(InvalidField("content_id"))
    else if "template" !in v then Err(MissingField("template"))
    else if TemplateField(v["template"]).None? then Err(InvalidField("template"))
    else
      var minutes := if "expiration_minutes" in v then IntField(v["expiration_minutes"]) else Some(DEFAULT_EXPIRATION_MINUTES);
      var dismissed := if "dismissed" in v && v["dismissed"].Bool? then v["dismissed"].b else false;
      if minutes.None? then Err(InvalidField("expiration_minutes"))
      else Ok(Notification(Strip(v["id"].s), v["date"].t, IntField(v["content_id"]).value,
                           TemplateField(v["template"]).value, minutes.value, dismissed))
  }

  /** `build_id(t, c)`: the member's value, an underscore, and `str(c)`. */
  function BuildId(value: string, contentId: int): (r: string)
    ensures |r| >= |value| + 2
    ensures r[..|value|] == value && r[|value|] == '_'
    ensures contentId >= 0 ==> r[|value| + 1..] == NatToString(contentId)
    ensures contentId < 0 ==> r[|value| + 1..] == "-" + NatToString(-contentId)
  {
    value + "_" + IntToString(contentId)
  }

  /** The dict the id tests validate: an id and a date, nothing else. */
  function IdAndDate(id: string, date: int): map<string, Raw> {
    map["id" := Str(id), "date" := Time(date)]
  }

  /** An id built from a template value and a letter-free-of-underscore content id splits back into them. */
  lemma {:induction false} SplitBuiltId(t: Template.Template, c: nat)
    ensures SplitId(BuildId(t.Value(), c)) == Some((t.Value(), NatToString(c)))
  {
    var v, q := t.Value(), NatToString(c);
    Template.ValuesAreLowerCaseLetters(t);
    assert BuildId(v, c) == v + "_" + q;
    SplitJoined(v, q);
  }

  /** Letters, an underscore and digits split back into the letters and the digits. */
  lemma {:induction false} SplitJoined(p: string, q: string)
    requires |p| > 0 && AllLetters(p) && |q| > 0 && AllDigits(q)
    ensures SplitId(p + "_" + q) == Some((p, q))
  {
    var s := p + "_" + q;
    assert s[..|p|] == p && s[|p| + 1..] == q && s[|p|] == '_';
    assert IdPattern(s);
    var r := SplitId(s);
    LettersHaveNoUnderscore(p);
    LettersHaveNoUnderscore(r.value.0);
    PairUnique(r.value.0, r.value.1, p, q, '_');
  }

  lemma LettersHaveNoUnderscore(p: string)
    requires AllLetters(p)
    ensures '_' !in p
  {
    forall k | 0 <= k < |p| ensures p[k] != '_' {
    }
  }

  /** What validating an id with a date comes to, in terms of the id's two halves. */
  lemma {:induction false} FromIdAndDate(id: string, date: int)
    ensures id != "" && SplitId(id).None? ==> FromValues(IdAndDate(id, date)) == Err(InvalidIdFormat)
    ensures SplitId(id).Some? ==>
      FromValues(IdAndDate(id, date)) ==
        if TemplateField(Str(SplitId(id).value.0)).None? then Err(InvalidField("template"))
        else Ok(Notification(id, date, DigitsToNat(SplitId(id).value.1),
                             TemplateField(Str(SplitId(id).value.0)).value, DEFAULT_EXPIRATION_MINUTES, false))
  {
    var values := IdAndDate(id, date);
    if SplitId(id).Some? {
      var p, q := SplitId(id).value.0, SplitId(id).value.1;
      var v := values["template" := Str(p)]["content_id" := Str(q)];
      ProcessedSplit(values, id, p, q);
      FieldsOfSplit(v, id, date, p, q);
    }
  }

  lemma ProcessedSplit(values: map<string, Raw>, id: string, p: string, q: string)
    requires "id" in values && values["id"] == Str(id) && SplitId(id) == Some((p, q))
    ensures Processed(values) == Ok(values["template" := Str(p)]["content_id" := Str(q)])
  {
  }

  lemma FieldsOfSplit(v: map<string, Raw>, id: string, date: int, p: string, q: string)
    requires SplitId(id) == Some((p, q))
    requires v == map["id" := Str(id), "date" := Time(date), "template" := Str(p), "content_id" := Str(q)]
    ensures Fields(v) ==
      if TemplateField(Str(p)).None? then Err(InvalidField("template"))
      else Ok(Notification(id, date, DigitsToNat(q), TemplateField(Str(p)).value, DEFAULT_EXPIRATION_MINUTES, false))
  {
    SplitMapLookups(v, id, date, p, q);
    assert IntField(Str(q)) == Some(DigitsToNat(q));
    SplitIdIsStripped(id, p, q);
  }

  lemma SplitMapLookups(v: map<string, Raw>, id: string, date: int, p: string, q: string)
    requires v == map["id" := Str(id), "date" := Time(date), "template" := Str(p), "content_id" := Str(q)]
    ensures "id" in v && v["id"] == Str(id) && "date" in v && v["date"] == Time(date)
    ensures "template" in v && v["template"] == Str(p) && "content_id" in v && v["content_id"] == Str(q)
    ensures "expiration_minutes" !in v && "dismissed" !in v
  {
  }

  /** A well-formed id has no surrounding whitespace. */
  lemma SplitIdIsStripped(id: string, p: string, q: string)
    requires SplitId(id) == Some((p, q))
    ensures Strip(id) == id
  {
    assert id[0] == p[0] && id[|id| - 1] == q[|q| - 1];
    StripNoSpace(id);
  }

  /**
   * Round trip: validating the id `build_id(t, c)`, with a date and nothing
   * else, gives back template `t` and content id `c` for every `c >= 0`, with
   * the default expiration and no dismissal.
   */
  lemma {:induction false} BuildIdRoundTrip(t: Template.Template, c: nat, date: int)
    ensures FromValues(IdAndDate(BuildId(t.Value(), c), date))
      == Ok(Notification(BuildId(t.Value(), c), date, c, t, DEFAULT_EXPIRATION_MINUTES, false))
  {
    var id := BuildId(t.Value(), c);
    SplitBuiltId(t, c);
    FromIdAndDate(id, date);
    Template.ValuesAreLowerCaseLetters(t);
    Template.FromValueIff(t.Value(), t);
    DigitsOfNatToString(c);
  }

  /** A negative content id builds an id the validator rejects: `-` is not a digit. */
  lemma {:induction false} NegativeContentIdRejected(t: Template.Template, c: int, date: int)
    requires c < 0
    ensures FromValues(IdAndDate(BuildId(t.Value(), c), date)) == Err(InvalidIdFormat)
  {
    var v := t.Value();
    var s := BuildId(v, c);
    Template.ValuesAreLowerCaseLetters(t);
    assert '_' !in v;
    assert s == v + "_" + s[|v| + 1..];
    IndexOfAfter(v, '_', s[|v| + 1..]);
    assert !IsDigit(s[|v| + 1]);
    MatchesIdIff(s);
    FromIdAndDate(s, date);
  }

  /** The halves of `PROMISING_007`. */
  lemma {:induction false} SplitPromising007(id: string)
    requires id == "PROMISING_007"
    ensures SplitId(id) == Some(("PROMISING", "007"))
  {
    assert id == "PROMISING" + "_" + "007";
    assert id[..9] == "PROMISING" && id[10..] == "007";
    assert IdPattern(id);
    var r := SplitId(id);
    PairUnique(r.value.0, r.value.1, "PROMISING", "007", '_');
  }

  lemma {:induction false} PromisingInUpperCase()
    ensures TemplateField(Str("PROMISING")) == Some(Template.Template.PROMISING)
  {
    Template.NameFoldsToValue(Template.Template.PROMISING);
    Template.FromValueIff("PROMISING", Template.Template.PROMISING);
  }

  /** `int("007") == 7`: leading zeros are dropped. */
  lemma {:induction false} DigitsOf007()
    ensures DigitsToNat("007") == 7
  {
    assert "007"[..2] == "00" && "00"[..1] == "0" && "0"[..0] == "";
  }

  /**
   * The reverse round trip fails on case and leading zeros: `PROMISING_007`
   * validates to (PROMISING, 7), which rebuilds as `promising_7`.
   */
  lemma {:induction false} LeadingZerosAndCaseAreLost(date: int)
    ensures FromValues(IdAndDate("PROMISING_007", date))
      == Ok(Notification("PROMISING_007", date, 7, Template.Template.PROMISING, DEFAULT_EXPIRATION_MINUTES, false))
    ensures BuildId(Template.Template.PROMISING.Value(), 7) == "promising_7"
  {
    SplitPromising007("PROMISING_007");
    ValidatesToPromising7("PROMISING_007", date);
    Promising7();
  }

  lemma Promising7()
    ensures BuildId(Template.Template.PROMISING.Value(), 7) == "promising_7"
  {
    assert NatToString(7) == "7";
  }

  lemma {:induction false} ValidatesToPromising7(id: string, date: int)
    requires SplitId(id) == Some(("PROMISING", "007"))
    ensures FromValues(IdAndDate(id, date))
      == Ok(Notification(id, date, 7, Template.Template.PROMISING, DEFAULT_EXPIRATION_MINUTES, false))
  {
    PromisingInUpperCase();
    DigitsOf007();
    FromIdAndDate(id, date);
  }

  /** Ids of the wrong shape are rejected with "Invalid ID format" (tests/unit/models/notification_test.py). */
  lemma MalformedIdsRejected(date: int)
    ensures FromValues(IdAndDate("123_alpha", date)) == Err(InvalidIdFormat)
    ensures FromValues(IdAndDate("alpha-beta_123", date)) == Err(InvalidIdFormat)
    ensures FromValues(IdAndDate("alpha_", date)) == Err(InvalidIdFormat)
    ensures FromValues(IdAndDate("_123", date)) == Err(InvalidIdFormat)
    ensures FromValues(IdAndDate("alpha123", date)) == Err(InvalidIdFormat)
  {
    DigitsFirstRejected(date);
    HyphenRejected(date);
    NoDigitsRejected(date);
    NoLettersRejected(date);
    NoUnderscoreRejected(date);
  }

  lemma DigitsFirstRejected(date: int)
    ensures FromValues(IdAndDate("123_alpha", date)) == Err(InvalidIdFormat)
  {
    var id := "123_alpha";
    assert id[..3][0] == '1';
    NotAnId(id, 3, date);
  }

  lemma HyphenRejected(date: int)
    ensures FromValues(IdAndDate("alpha-beta_123", date)) == Err(InvalidIdFormat)
  {
    var id := "alpha-beta_123";
    assert id[..10] == "alpha-beta";
    assert id[..10][5] == '-';
    NotAnId(id, 10, date);
  }

  lemma NoDigitsRejected(date: int)
    ensures FromValues(IdAndDate("alpha_", date)) == Err(InvalidIdFormat)
  {
    NotAnId("alpha_", 5, date);
  }

  lemma NoLettersRejected(date: int)
    ensures FromValues(IdAndDate("_123", date)) == Err(InvalidIdFormat)
  {
    NotAnId("_123", 0, date);
  }

  lemma NoUnderscoreRejected(date: int)
    ensures FromValues(IdAndDate("alpha123", date)) == Err(InvalidIdFormat)
  {
    var id := "alpha123";
    assert forall k | 0 <= k < |id| :: id[k] != '_';
    WithoutUnderscoreNotAnId(id, date);
  }

  /** A non-empty id with no underscore at all is rejected. */
  lemma {:induction false} WithoutUnderscoreNotAnId(id: string, date: int)
    requires id != "" && '_' !in id
    ensures FromValues(IdAndDate(id, date)) == Err(InvalidIdFormat)
  {
    MatchesIdIff(id);
    assert id[..|id|] == id;
    FromIdAndDate(id, date);
  }

  /** An id whose first underscore is at `k` and which the matcher then refuses is rejected. */
  lemma {:induction false} NotAnId(id: string, k: nat, date: int)
    requires k < |id| && id[k] == '_' && '_' !in id[..k]
    requires !(0 < k < |id| - 1 && AllLetters(id[..k]) && AllDigits(id[k + 1..]))
    ensures FromValues(IdAndDate(id, date)) == Err(InvalidIdFormat)
  {
    IndexOfFirst(id, '_', k);
    MatchesIdIff(id);
    FromIdAndDate(id, date);
  }

  /**
   * For an id of the right shape, validation succeeds exactly when its letter
   * half is a template value in some casing; the content id is the number the
   * digit half spells, leading zeros and all.
   */
  lemma {:induction false} TemplateSegmentFoldsCase(id: string, p: string, q: string, date: int)
    requires SplitId(id) == Some((p, q))
    ensures FromValues(IdAndDate(id, date)).Ok? <==> exists t: Template.Template :: Fold(p) == t.Value()
    ensures FromValues(IdAndDate(id, date)).Ok? ==>
      var n := FromValues(IdAndDate(id, date)).value;
      n.template.Value() == Fold(p) && n.contentId == DigitsToNat(q) && n.id == id
  {
    FromIdAndDate(id, date);
  }

  /** `has_expired` as written: true while `date + expiration_minutes` is still in the future. */
  predicate HasExpiredAsWritten(n: Notification, now: int) {
    n.date + n.expirationMinutes > now
  }

  /** The expiry `has_expired` evidently means, with the polarity of the balance and session checks. */
  predicate HasExpired(n: Notification, now: int) {
    n.date + n.expirationMinutes < now
  }

  /**
   * The property as written answers "not yet expired": for a positive window
   * it holds at the moment of creation and stops holding once the window has passed.
   */
  lemma HasExpiredPolarity(n: Notification)
    requires n.expirationMinutes > 0
    ensures HasExpiredAsWritten(n, n.date) && !HasExpired(n, n.date)
    ensures !HasExpiredAsWritten(n, n.date + n.expirationMinutes + 1) && HasExpired(n, n.date + n.expirationMinutes + 1)
  {
  }

  /**
   * For every window, the property as written is the reverse of the corrected
   * check except at the exact boundary, where neither holds.
   */
  lemma HasExpiredAsWrittenIsReversed(n: Notification, now: int)
    ensures HasExpiredAsWritten(n, now) <==> !HasExpired(n, now) && now != n.date + n.expirationMinutes
  {
  }

  /** Once expired, a notification stays expired as time goes on; the boundary instant is not expired. */
  lemma ExpiryIsMonotone(n: Notification, now: int, later: int)
    requires HasExpired(n, now) && now <= later
    ensures HasExpired(n, later)
    ensures !HasExpired(n, n.date + n.expirationMinutes)
  {
  }
}

=== FILE: portfolio.dfy ===
/**
 * The portfolio breakdowns: `Portfolio` (cumplo_common/models/portfolio.py)
 * and `BorrowerPortfolio` (cumplo_common/models/borrower.py) declare the same
 * five units and the same three computed units, so one datatype models both.
 * `Decimal` is modelled as `real`.
 */
module Portfolio {

  datatype Unit = Unit(percentage: real, amount: real, count: int)

  datatype Portfolio = Portfolio(cured: Unit, active: Unit, overdue: Unit, onTime: Unit, delinquent: Unit) {

    /** `outstanding`: active, overdue and delinquent, added component by component. */
    function Outstanding(): (u: Unit)
      ensures u.percentage == active.percentage + overdue.percentage + delinquent.percentage
      ensures u.amount == active.amount + overdue.amount + delinquent.amount
      ensures u.count == active.count + overdue.count + delinquent.count
    {
      Unit(active.percentage + overdue.percentage + delinquent.percentage,
           active.amount + overdue.amount + delinquent.amount,
           active.count + overdue.count + delinquent.count)
    }

    /** `paid`: on time and cured, added component by component. */
    function Paid(): (u: Unit)
      ensures u.percentage == onTime.percentage + cured.percentage
      ensures u.amount == onTime.amount + cured.amount
      ensures u.count == onTime.count + cured.count
    {
      Unit(onTime.percentage + cured.percentage, onTime.amount + cured.amount, onTime.count + cured.count)
    }

    /** `total`: the amounts and counts of outstanding and paid, with a percentage of 1 whatever the parts say. */
    function Total(): (u: Unit)
      ensures u.percentage == 1.0
      ensures u.amount == Outstanding().amount + Paid().amount
      ensures u.count == Outstanding().count + Paid().count
    {
      Unit(1.0, Outstanding().amount + Paid().amount, Outstanding().count + Paid().count)
    }

    /** The five stored units. */
    function Parts(): seq<Unit> {
      [cured, active, overdue, onTime, delinquent]
    }
  }

  /** Component-wise sum of a list of units. */
  function Sum(us: seq<Unit>): Unit {
    if |us| == 0 then Unit(0.0, 0.0, 0)
    else
      var rest := Sum(us[1..]);
      Unit(us[0].percentage + rest.percentage, us[0].amount + rest.amount, us[0].count + rest.count)
  }

  /** The five units summed in storage order. */
  lemma {:induction false} SumOfParts(p: Portfolio)
    ensures Sum(p.Parts()) == Unit(
      p.cured.percentage + p.active.percentage + p.overdue.percentage + p.onTime.percentage + p.delinquent.percentage,
      p.cured.amount + p.active.amount + p.overdue.amount + p.onTime.amount + p.delinquent.amount,
      p.cured.count + p.active.count + p.overdue.count + p.onTime.count + p.delinquent.count)
  {
    var s := p.Parts();
    var d := p.delinquent;
    var t := p.onTime;
    var o := p.overdue;
    var a := p.active;
    assert Sum([d]) == d by { assert [d][1..] == []; }
    assert Sum([t, d]) == Unit(t.percentage + d.percentage, t.amount + d.amount, t.count + d.count) by {
      assert [t, d][1..] == [d];
    }
    assert Sum([o, t, d]) == Unit(o.percentage + t.percentage + d.percentage, o.amount + t.amount + d.amount, o.count + t.count + d.count) by {
      assert [o, t, d][1..] == [t, d];
    }
    assert Sum([a, o, t, d]) == Unit(a.percentage + o.percentage + t.percentage + d.percentage,
                                     a.amount + o.amount + t.amount + d.amount, a.count + o.count + t.count + d.count) by {
      assert [a, o, t, d][1..] == [o, t, d];
    }
    assert s[1..] == [a, o, t, d];
  }

  /** The total amount and count are those of all five units: every credit is either outstanding or paid. */
  lemma {:induction false} TotalCoversEveryPart(p: Portfolio)
    ensures p.Total().amount == Sum(p.Parts()).amount
    ensures p.Total().count == Sum(p.Parts()).count
  {
    SumOfParts(p);
  }

  /**
   * The stored total percentage agrees with outstanding plus paid only when
   * the five percentages add up to exactly 1.
   */
  lemma {:induction false} TotalPercentageIsFixed(p: Portfolio)
    ensures p.Total().percentage == p.Outstanding().percentage + p.Paid().percentage
            <==> Sum(p.Parts()).percentage == 1.0
  {
    SumOfParts(p);
  }
}

=== FILE: session.dfy ===
/**
 * The `Session` model (cumplo_common/models/session.py). SESSION_EXPIRATION_MINUTES
 * is read from the environment by a part of utils/constants.py that is not part
 * of this model, so it is a parameter here; instants are whole minutes.
 */
module Session {
  import opened Text

  datatype Session = Session(token: string, date: int) {

    /** Expired once `date + window` lies strictly in the past. */
    predicate HasExpired(now: int, sessionExpirationMinutes: int) {
      date + sessionExpirationMinutes < now
    }

    /** `headers`: the one HTTP header that authenticates the session. */
    function Headers(): (h: map<string, string>)
      ensures h.Keys == {"authorization"}
      ensures |h["authorization"]| == 7 + |token|
      ensures h["authorization"][..7] == "Bearer " && h["authorization"][7..] == token
    {
      map["authorization" := "Bearer " + token]
    }
  }

  /** Building a session: the token is whitespace-stripped like every string field, the date defaults to now. */
  function New(token: string, now: int): (s: Session)
    ensures s.date == now
    ensures s.token == Strip(token)
  {
    Session(Strip(token), now)
  }

  /** The exact boundary is not expired; one minute later is; and expiry never reverts as time goes on. */
  lemma ExpiryBoundary(s: Session, window: int, now: int, later: int)
    ensures !s.HasExpired(s.date + window, window) && s.HasExpired(s.date + window + 1, window)
    ensures s.HasExpired(now, window) && now <= later ==> s.HasExpired(later, window)
  {
  }

  /** A fresh session is not expired for any non-negative window. */
  lemma FreshSessionValid(token: string, now: int, window: int)
    requires window >= 0
    ensures !New(token, now).HasExpired(now, window)
  {
  }

  /** The header carries the stripped token: surrounding whitespace never reaches it. */
  lemma {:induction false} HeaderTokenIsStripped(token: string, now: int)
    ensures New(token, now).Headers()["authorization"] == "Bearer " + Strip(token)
    ensures New(Strip(token), now) == New(token, now)
  {
    StripIdempotent(token);
    var h := New(token, now).Headers()["authorization"];
    assert h == h[..7] + h[7..];
  }
}

=== FILE: simulation.dfy ===
/**
 * `Simulation` (cumplo_common/models/simulation.py): the investment of a
 * simulated funding request and the cash flows handed to the IRR routine.
 * SIMULATION_AMOUNT is read from the environment and the date of the first
 * flow from the clock, so both are parameters; dates are whole days.
 */
module Simulation {
  import opened Wrappers

  datatype Installment = Installment(amount: int, interest: int, date: int)

  datatype Simulation = Simulation(netReturns: int, upfrontFee: int, exitFee: int, paymentSchedule: seq<Installment>) {

    /** `installments`: how many payments the schedule holds. */
    function Installments(): (n: nat)
      ensures n == |paymentSchedule|
    {
      |paymentSchedule|
    }

    /** `investment`: what the investor pays, the simulated amount plus the upfront fee. */
    function Investment(simulationAmount: int): (i: int)
      ensures i - upfrontFee == simulationAmount
    {
      simulationAmount + upfrontFee
    }
  }

  /** `installments[-1]` on an empty list. */
  datatype PyError = IndexError

  /**
   * `cash_flows`: a copy of the schedule whose last payment loses the exit
   * fee, behind a first flow paying out the investment on `today`.
   */
  function CashFlowsOf(sim: Simulation, simulationAmount: int, today: int): (r: Result<seq<Installment>, PyError>)
    ensures r.Err? <==> |sim.paymentSchedule| == 0
    ensures r.Ok? ==> |r.value| == |sim.paymentSchedule| + 1
    ensures r.Ok? ==> r.value[0] == Installment(-sim.Investment(simulationAmount), 0, today)
    ensures r.Ok? ==> forall i :: 0 <= i < |sim.paymentSchedule| - 1 ==> r.value[i + 1] == sim.paymentSchedule[i]
    ensures r.Ok? ==> var last := sim.paymentSchedule[|sim.paymentSchedule| - 1];
                      r.value[|r.value| - 1] == last.(amount := last.amount - sim.exitFee)
  {
    var s := sim.paymentSchedule;
    if |s| == 0 then Err(IndexError)
    else
      var last := s[|s| - 1];
      Ok([Installment(-sim.Investment(simulationAmount), 0, today)] + s[..|s| - 1] + [last.(amount := last.amount - sim.exitFee)])
  }

  /**
   * The steps of `cash_flows` on a local copy: the schedule value itself is
   * never written, so the simulation keeps its own schedule.
   */
  method CashFlows(sim: Simulation, simulationAmount: int, today: int) returns (r: Result<seq<Installment>, PyError>)
    ensures r == CashFlowsOf(sim, simulationAmount, today)
  {
    var installments := sim.paymentSchedule;
    if |installments| == 0 {
      return Err(IndexError);
    }
    var last := |installments| - 1;
    var edited := installments[last].(amount := installments[last].amount - sim.exitFee);
    installments := installments[last := edited];
    assert installments == sim.paymentSchedule[..last] + [edited];
    var first := Installment(-sim.Investment(simulationAmount), 0, today);
    installments := [first] + installments;
    assert installments == [first] + sim.paymentSchedule[..last] + [edited];
    return Ok(installments);
  }

  function TotalAmount(flows: seq<Installment>): int {
    if |flows| == 0 then 0 else flows[0].amount + TotalAmount(flows[1..])
  }

  lemma {:induction false} TotalAmountConcat(a: seq<Installment>, b: seq<Installment>)
    ensures TotalAmount(a + b) == TotalAmount(a) + TotalAmount(b)
  {
    if |a| == 0 {
      assert a + b == b;
    } else {
      assert (a + b)[1..] == a[1..] + b;
      TotalAmountConcat(a[1..], b);
    }
  }

  /**
   * Net of the flows: what the schedule pays back, less the exit fee, less
   * the investment.
   */
  lemma {:induction false} CashFlowsNet(sim: Simulation, simulationAmount: int, today: int)
    requires |sim.paymentSchedule| > 0
    ensures TotalAmount(CashFlowsOf(sim, simulationAmount, today).value)
            == TotalAmount(sim.paymentSchedule) - sim.exitFee - sim.Investment(simulationAmount)
  {
    var s := sim.paymentSchedule;
    var last := s[|s| - 1];
    var first := [Installment(-sim.Investment(simulationAmount), 0, today)];
    var edited := [last.(amount := last.amount - sim.exitFee)];
    TotalAmountConcat(first + s[..|s| - 1], edited);
    TotalAmountConcat(first, s[..|s| - 1]);
    TotalAmountConcat(s[..|s| - 1], [last]);
    assert s[..|s| - 1] + [last] == s;
    assert TotalAmount(edited) == last.amount - sim.exitFee;
    assert TotalAmount([last]) == last.amount;
    assert TotalAmount(first) == -sim.Investment(simulationAmount);
  }

  /** Only the exit fee and the new first flow tell the cash flows from the schedule. */
  lemma {:induction false} CashFlowsWithoutFees(sim: Simulation, simulationAmount: int, today: int)
    requires |sim.paymentSchedule| > 0 && sim.exitFee == 0
    ensures CashFlowsOf(sim, simulationAmount, today).value[1..] == sim.paymentSchedule
  {
    var s := sim.paymentSchedule;
    var r := CashFlowsOf(sim, simulationAmount, today).value;
    assert r[1..] == s[..|s| - 1] + [s[|s| - 1]];
    assert s[..|s| - 1] + [s[|s| - 1]] == s;
  }
}

=== FILE: str_enum.dfy ===
/**
 * The project's `StrEnum` base (cumplo_common/models/utils.py): an enum is its
 * member table in declaration order, with each member's `value` and `name`
 * given as functions. Lookup by value folds case; `has_member` folds case but
 * looks at the member NAMES.
 */
module StrEnum {
  import opened Wrappers
  import opened Text

  /** What an enum constructor can be handed: only strings take part in the case-insensitive fallback. */
  datatype PyValue = PyStr(s: string) | PyOther

  /** First index, in table order, whose member satisfies `p`. */
  function Find<M>(members: seq<M>, p: M -> bool): (r: Option<nat>)
    ensures r.Some? ==> r.value < |members| && p(members[r.value])
    ensures r.Some? ==> forall j :: 0 <= j < r.value ==> !p(members[j])
    ensures r.None? ==> forall j :: 0 <= j < |members| ==> !p(members[j])
  {
    if |members| == 0 then None
    else if p(members[0]) then Some(0)
    else match Find(members[1..], p)
      case None => None
      case Some(i) => Some(i + 1)
  }

  /**
   * `_missing_`: the first member, in declaration order, whose value equals the
   * input ignoring case; `None` for no match and for every non-string input.
   */
  function Missing<M>(members: seq<M>, value: M -> string, input: PyValue): (r: Option<M>)
    ensures r.Some? ==> input.PyStr? && exists i :: (0 <= i < |members| && members[i] == r.value
      && Fold(value(members[i])) == Fold(input.s)
      && forall j :: 0 <= j < i ==> Fold(value(members[j])) != Fold(input.s))
    ensures r.None? ==> !input.PyStr? || forall j :: 0 <= j < |members| ==> Fold(value(members[j])) != Fold(input.s)
  {
    match input
    case PyOther => None
    case PyStr(s) =>
      match Find(members, m => Fold(value(m)) == Fold(s))
      case None => None
      case Some(i) => Some(members[i])
  }

  /**
   * `Cls(x)`: Python's enum call looks the value up exactly first and falls back
   * on `_missing_`; `None` stands for the `ValueError` it then raises.
   */
  function Call<M>(members: seq<M>, value: M -> string, input: PyValue): (r: Option<M>)
    ensures r.Some? ==> r.value in members && input.PyStr? && Fold(value(r.value)) == Fold(input.s)
    ensures input.PyStr? && (exists m :: m in members && value(m) == input.s) ==> r.Some? && value(r.value) == input.s
  {
    match input
    case PyOther => None
    case PyStr(s) =>
      match Find(members, m => value(m) == s)
      case Some(i) => Some(members[i])
      case None => Missing(members, value, input)
  }

  /** `has_member`: whether some member's NAME equals `s` ignoring case. */
  function HasMember<M>(members: seq<M>, name: M -> string, s: string): (b: bool)
    ensures b <==> exists m :: m in members && Fold(name(m)) == Fold(s)
  {
    Find(members, m => Fold(s) == Fold(name(m))).Some?
  }

  /** No two members' values fold to the same text. */
  ghost predicate FoldDistinct<M>(members: seq<M>, value: M -> string) {
    forall i, j :: 0 <= i < |members| && 0 <= j < |members| && i != j ==>
      Fold(value(members[i])) != Fold(value(members[j]))
  }

  /** Every value of the type is listed, and listed once. */
  ghost predicate Enumerates<M(!new)>(members: seq<M>) {
    (forall m :: m in members) &&
    (forall i, j :: 0 <= i < j < |members| ==> members[i] != members[j])
  }

  /**
   * When no two values fold alike, a string resolves to a member exactly when it
   * is that member's value in some casing.
   */
  lemma CallFoldDistinct<M>(members: seq<M>, value: M -> string, s: string, m: M)
    requires FoldDistinct(members, value)
    requires m in members
    ensures Call(members, value, PyStr(s)) == Some(m) <==> Fold(value(m)) == Fold(s)
  {
    var r := Call(members, value, PyStr(s));
    if Fold(value(m)) == Fold(s) {
      var i :| 0 <= i < |members| && members[i] == m;
      assert r.Some?;
      var k :| 0 <= k < |members| && members[k] == r.value;
      if k != i {
        assert Fold(value(members[k])) == Fold(value(members[i]));
      }
    }
  }
}

=== FILE: template.dfy ===
/** The notification `Template` enum (cumplo_common/models/template.py). */
module Template {
  import opened Wrappers
  import opened Text
  import StrEnum

  /** The members of `Topic` that templates refer to (topic.py is not part of this model). */
  datatype Topic = FUNDING_REQUESTS | INVESTMENTS {
    function Name(): string {
      match this
      case FUNDING_REQUESTS => "FUNDING_REQUESTS"
      case INVESTMENTS => "INVESTMENTS"
    }
  }

  datatype Template = PROMISING | INITIALIZED | SUCCESSFUL | FAILED {

    function Name(): string {
      match this
      case PROMISING => "PROMISING"
      case INITIALIZED => "INITIALIZED"
      case SUCCESSFUL => "SUCCESSFUL"
      case FAILED => "FAILED"
    }

    function Value(): string {
      match this
      case PROMISING => "promising"
      case INITIALIZED => "initialized"
      case SUCCESSFUL => "successful"
      case FAILED => "failed"
    }

    function Topic(): Topic {
      match this
      case PROMISING => FUNDING_REQUESTS
      case _ => INVESTMENTS
    }

    predicate IsRecurring() {
      this == PROMISING
    }

    /** `repr(t)`: `<Template.NAME.TOPICNAME>`. */
    function Repr(): (r: string)
      ensures |r| == 12 + |Name()| + |Topic().Name()|
      ensures r[..10] == "<Template." && r[|r| - 1] == '>'
      ensures r[10..10 + |Name()|] == Name() && r[10 + |Name()|] == '.'
      ensures r[11 + |Name()|..|r| - 1] == Topic().Name()
    {
      "<Template." + Name() + "." + Topic().Name() + ">"
    }
  }

  /** `Template.members()`: declaration order. */
  const All: seq<Template> := [PROMISING, INITIALIZED, SUCCESSFUL, FAILED]

  /** `Template(x)`: case-insensitive construction from a value. */
  function FromValue(input: StrEnum.PyValue): Option<Template> {
    StrEnum.Call(All, (t: Template) => t.Value(), input)
  }

  /** `Template.has_member(s)`: by NAME, ignoring case. */
  function HasMember(s: string): bool {
    StrEnum.HasMember(All, (t: Template) => t.Name(), s)
  }

  lemma AllEnumerates()
    ensures StrEnum.Enumerates(All)
    ensures |All| == 4
  {
    forall t: Template ensures t in All {
      match t
      case PROMISING => assert All[0] == t;
      case INITIALIZED => assert All[1] == t;
      case SUCCESSFUL => assert All[2] == t;
      case FAILED => assert All[3] == t;
    }
  }

  /** The four values are pairwise distinct, even ignoring case. */
  lemma ValuesFoldDistinct()
    ensures StrEnum.FoldDistinct(All, (t: Template) => t.Value())
    ensures forall a: Template, b: Template :: a.Value() == b.Value() ==> a == b
  {
    forall a: Template, b: Template | a != b ensures a.Value() != b.Value() {
      assert a.Value()[0] != b.Value()[0];
    }
    var value := (t: Template) => t.Value();
    forall i, j | 0 <= i < |All| && 0 <= j < |All| && i != j ensures Fold(value(All[i])) != Fold(value(All[j])) {
      ValuesAreLowerCaseLetters(All[i]);
      ValuesAreLowerCaseLetters(All[j]);
    }
  }

  /** Every value is lower-case letters only: it fits the letter segment of a notification id. */
  lemma ValuesAreLowerCaseLetters(t: Template)
    ensures |t.Value()| > 0 && AllLetters(t.Value())
    ensures Fold(t.Value()) == t.Value()
  {
    FoldOfLowerCase(t.Value());
  }

  /** PROMISING, on the FUNDING_REQUESTS topic, is the only recurring template. */
  lemma OnlyPromisingRecurs(t: Template)
    ensures t.IsRecurring() <==> t == PROMISING
    ensures t.IsRecurring() <==> t.Topic() == FUNDING_REQUESTS
  {
  }

  /** Any casing of a template's value constructs that template, and nothing else does. */
  lemma {:induction false} FromValueIff(s: string, t: Template)
    ensures FromValue(StrEnum.PyStr(s)) == Some(t) <==> Fold(s) == t.Value()
  {
    ValuesFoldDistinct();
    AllEnumerates();
    ValuesAreLowerCaseLetters(t);
    StrEnum.CallFoldDistinct(All, (t: Template) => t.Value(), s, t);
  }

  /** A string that folds to no template value constructs nothing; neither does a non-string. */
  lemma {:induction false} FromValueFails(input: StrEnum.PyValue)
    requires input.PyStr? ==> forall t: Template :: Fold(input.s) != t.Value()
    ensures FromValue(input).None?
  {
    if input.PyStr? {
      var r := FromValue(input);
      if r.Some? {
        ValuesAreLowerCaseLetters(r.value);
        assert false;
      }
    }
  }

  /** Each upper-case NAME folds to the member's value. */
  lemma {:induction false} NameFoldsToValue(t: Template)
    ensures Fold(t.Name()) == t.Value()
  {
    var n, v := t.Name(), t.Value();
    assert |n| == |v|;
    forall k | 0 <= k < |n| ensures FoldChar(n[k]) == v[k] {
    }
  }

  /** `has_member` holds for any casing of a declared NAME, not of a value. */
  lemma {:induction false} HasMemberIff(s: string)
    ensures HasMember(s) <==> exists t: Template :: Fold(s) == Fold(t.Name())
  {
    AllEnumerates();
  }
}

=== FILE: text.dfy ===
/**
 * The handful of Python `str` operations the models rely on, over `seq<char>`:
 * character classes (`isalpha`, `isdigit`, `isalnum`), `casefold`, the
 * whitespace trimming of pydantic's `str_strip_whitespace`, `replace(c, "")`,
 * `split(c)`, `str(int)` and `int(str)` on decimal digits. All but the trimming
 * are modelled on ASCII; see README for what that leaves out.
 */
module Text {

  predicate IsLetter(c: char) {
    ('a' <= c <= 'z') || ('A' <= c <= 'Z')
  }

  predicate IsDigit(c: char) {
    '0' <= c <= '9'
  }

  predicate IsAlnum(c: char) {
    IsLetter(c) || IsDigit(c)
  }

  /**
   * The characters pydantic's `str_strip_whitespace` trims: the Unicode
   * White_Space set (\t \n \v \f \r, space, U+0085, U+00A0, U+1680,
   * U+2000-U+200A, U+2028, U+2029, U+202F, U+205F, U+3000). Unlike Python's
   * `str.isspace`, it keeps the separators U+001C-U+001F.
   */
  predicate IsSpace(c: char) {
    var n := c as int;
    n == 32 || (9 <= n <= 13) || n == 0x85 || n == 0xA0 || n == 0x1680
    || (0x2000 <= n <= 0x200A) || n == 0x2028 || n == 0x2029 || n == 0x202F
    || n == 0x205F || n == 0x3000
  }

  predicate AllLetters(s: string) {
    forall k :: 0 <= k < |s| ==> IsLetter(s[k])
  }

  predicate AllDigits(s: string) {
    forall k :: 0 <= k < |s| ==> IsDigit(s[k])
  }

  /** `str.isalnum()`: true iff the string is non-empty and every character is alphanumeric. */
  predicate IsAlnumString(s: string) {
    |s| > 0 && forall k :: 0 <= k < |s| ==> IsAlnum(s[k])
  }

  /** `casefold` (and `lower`) of one character. */
  function FoldChar(c: char): (d: char)
    ensures IsLetter(c) <==> IsLetter(d)
    ensures !('A' <= d <= 'Z')
    ensures 'A' <= c <= 'Z' ==> d as int == c as int + 32
    ensures !('A' <= c <= 'Z') ==> d == c
  {
    if 'A' <= c <= 'Z' then (c as int - 'A' as int + 'a' as int) as char else c
  }

  /** `str.casefold()`, which for ASCII text is also `str.lower()`. */
  function Fold(s: string): (r: string)
    ensures |r| == |s|
    ensures forall k :: 0 <= k < |s| ==> r[k] == FoldChar(s[k])
  {
    seq(|s|, k requires 0 <= k < |s| => FoldChar(s[k]))
  }

  lemma FoldConcat(a: string, b: string)
    ensures Fold(a + b) == Fold(a) + Fold(b)
  {
    assert forall k :: 0 <= k < |a + b| ==> Fold(a + b)[k] == (Fold(a) + Fold(b))[k];
  }

  /** Text without upper-case letters folds to itself. */
  lemma FoldOfLowerCase(s: string)
    requires forall k :: 0 <= k < |s| ==> !('A' <= s[k] <= 'Z')
    ensures Fold(s) == s
  {
  }

  lemma FoldIdempotent(s: string)
    ensures Fold(Fold(s)) == Fold(s)
  {
    FoldOfLowerCase(Fold(s));
  }

  /** Number of leading whitespace characters. */
  function LeadingSpaces(s: string): (n: nat)
    ensures n <= |s|
    ensures forall k :: 0 <= k < n ==> IsSpace(s[k])
    ensures n < |s| ==> !IsSpace(s[n])
  {
    if |s| == 0 || !IsSpace(s[0]) then 0 else 1 + LeadingSpaces(s[1..])
  }

  /** Number of trailing whitespace characters. */
  function TrailingSpaces(s: string): (n: nat)
    ensures n <= |s|
    ensures forall k :: |s| - n <= k < |s| ==> IsSpace(s[k])
    ensures n < |s| ==> !IsSpace(s[|s| - n - 1])
  {
    if |s| == 0 || !IsSpace(s[|s| - 1]) then 0 else 1 + TrailingSpaces(s[..|s| - 1])
  }

  /**
   * `str_strip_whitespace`: the slice of `s` left after removing every leading and every
   * trailing whitespace character; what remains starts and ends with non-space.
   */
  function Strip(s: string): (r: string)
    ensures exists i, j :: 0 <= i <= j <= |s| && r == s[i..j]
              && (forall k :: 0 <= k < i ==> IsSpace(s[k]))
              && (forall k :: j <= k < |s| ==> IsSpace(s[k]))
    ensures |r| > 0 ==> !IsSpace(r[0]) && !IsSpace(r[|r| - 1])
  {
    var i := LeadingSpaces(s);
    var t := s[i..];
    var j := |t| - TrailingSpaces(t);
    assert t[..j] == s[i..i + j];
    t[..j]
  }

  /** A string with no whitespace at either end is left alone by `strip`. */
  lemma {:induction false} StripNoSpace(s: string)
    requires |s| > 0 ==> !IsSpace(s[0]) && !IsSpace(s[|s| - 1])
    ensures Strip(s) == s
  {
    assert LeadingSpaces(s) == 0;
    assert s[0..] == s;
    assert TrailingSpaces(s) == 0;
  }

  lemma StripIdempotent(s: string)
    ensures Strip(Strip(s)) == Strip(s)
  {
    StripNoSpace(Strip(s));
  }

  /** An alphanumeric string contains no whitespace, so `strip` leaves it unchanged. */
  lemma StripAlnum(s: string)
    requires IsAlnumString(s)
    ensures Strip(s) == s
  {
    StripNoSpace(s);
  }

  /** `s.replace(c, "")`: `s` with every occurrence of `c` deleted. */
  function Remove(s: string, c: char): (r: string)
    ensures c !in r
    ensures |r| <= |s|
    ensures c !in s ==> r == s
    ensures forall x :: x != c ==> (x in r <==> x in s)
  {
    if |s| == 0 then ""
    else if s[0] == c then Remove(s[1..], c)
    else [s[0]] + Remove(s[1..], c)
  }

  /** Position of the first `c` in `s`, or `|s|` when there is none (`str.find` with `-1` read as `|s|`). */
  function IndexOf(s: string, c: char): (i: nat)
    ensures i <= |s|
    ensures i < |s| ==> s[i] == c
    ensures c !in s[..i]
  {
    if |s| == 0 then 0
    else if s[0] == c then 0
    else
      var i := 1 + IndexOf(s[1..], c);
      assert s[..i] == [s[0]] + s[1..][..i - 1];
      i
  }

  /** In `p + [c] + q` with no `c` in `p`, the first `c` is the one after `p`. */
  lemma {:induction false} IndexOfAfter(p: string, c: char, q: string)
    requires c !in p
    ensures IndexOf(p + [c] + q, c) == |p|
  {
    var s := p + [c] + q;
    if |p| > 0 {
      assert s[0] == p[0];
      assert s[1..] == p[1..] + [c] + q;
      IndexOfAfter(p[1..], c, q);
    }
  }

  /** A `c` with no `c` before it is the first one. */
  lemma {:induction false} IndexOfFirst(s: string, c: char, k: nat)
    requires k < |s| && s[k] == c && c !in s[..k]
    ensures IndexOf(s, c) == k
  {
    assert s == s[..k] + [c] + s[k + 1..];
    IndexOfAfter(s[..k], c, s[k + 1..]);
  }

  /** `a + [c] + b` determines `a` and `b` when `a` has no `c`. */
  lemma {:induction false} PairUnique(a1: string, b1: string, a2: string, b2: string, c: char)
    requires c !in a1 && c !in a2
    requires a1 + [c] + b1 == a2 + [c] + b2
    ensures a1 == a2 && b1 == b2
  {
    var s := a1 + [c] + b1;
    IndexOfAfter(a1, c, b1);
    IndexOfAfter(a2, c, b2);
    assert a1 == s[..|a1|] == a2;
    assert b1 == s[|a1| + 1..] == b2;
  }

  /** `sep.join(parts)`, the inverse of `Split`. */
  function Join(parts: seq<string>, sep: char): string
    requires |parts| >= 1
  {
    if |parts| == 1 then parts[0] else parts[0] + [sep] + Join(parts[1..], sep)
  }

  /** `s.split(sep)` for a one-character separator: the maximal pieces free of `sep`. */
  function Split(s: string, sep: char): (r: seq<string>)
    ensures |r| >= 1
    ensures forall k :: 0 <= k < |r| ==> sep !in r[k]
    ensures Join(r, sep) == s
  {
    if |s| == 0 then [""]
    else if s[0] == sep then
      var rest := Split(s[1..], sep);
      assert s == [sep] + s[1..];
      [""] + rest
    else
      var rest := Split(s[1..], sep);
      var parts := [[s[0]] + rest[0]] + rest[1..];
      assert parts[1..] == rest[1..];
      assert s == [s[0]] + s[1..];
      parts
  }

  /** Splitting on a separator that occurs exactly once gives the text before and after it. */
  lemma {:induction false} SplitOnce(p: string, q: string, sep: char)
    requires sep !in p && sep !in q
    ensures Split(p + [sep] + q, sep) == [p, q]
  {
    if |p| == 0 {
      assert p + [sep] + q == [sep] + q;
      SplitNone(q, sep);
    } else {
      assert (p + [sep] + q)[1..] == p[1..] + [sep] + q;
      SplitOnce(p[1..], q, sep);
      assert [p[0]] + p[1..] == p;
    }
  }

  lemma {:induction false} SplitNone(s: string, sep: char)
    requires sep !in s
    ensures Split(s, sep) == [s]
  {
    if |s| > 0 {
      SplitNone(s[1..], sep);
      assert [s[0]] + s[1..] == s;
    }
  }

  function DigitChar(d: nat): (c: char)
    requires d < 10
    ensures IsDigit(c)
  {
    ('0' as int + d) as char
  }

  function DigitValue(c: char): (d: nat)
    requires IsDigit(c)
    ensures d < 10
  {
    c as int - '0' as int
  }

  /** `str(n)` for a non-negative integer: its decimal digits, without leading zeros. */
  function NatToString(n: nat): (r: string)
    ensures |r| >= 1 && AllDigits(r)
    ensures r[0] == '0' ==> n == 0 && r == "0"
  {
    if n < 10 then [DigitChar(n)] else NatToString(n / 10) + [DigitChar(n % 10)]
  }

  /** `str(i)` for any integer: a minus sign before the digits of a negative number. */
  function IntToString(i: int): (r: string)
    ensures i >= 0 ==> r == NatToString(i)
    ensures i < 0 ==> |r| >= 2 && r[0] == '-' && r[1..] == NatToString(-i)
  {
    if i < 0 then "-" + NatToString(-i) else NatToString(i)
  }

  /** `int(s)` for a string of decimal digits; leading zeros are accepted and dropped. */
  function DigitsToNat(s: string): nat
    requires AllDigits(s)
  {
    if |s| == 0 then 0 else DigitsToNat(s[..|s| - 1]) * 10 + DigitValue(s[|s| - 1])
  }

  /** `int(str(n)) == n`. */
  lemma {:induction false} DigitsOfNatToString(n: nat)
    ensures DigitsToNat(NatToString(n)) == n
  {
    var s := NatToString(n);
    if n >= 10 {
      DigitsOfNatToString(n / 10);
      assert s[..|s| - 1] == NatToString(n / 10);
    }
  }

  /** Different integers print differently. */
  lemma {:induction false} IntToStringInjective(i: int, j: int)
    requires IntToString(i) == IntToString(j)
    ensures i == j
  {
    var s := IntToString(i);
    if i >= 0 && j >= 0 {
      assert NatToString(i) == s == NatToString(j);
      DigitsOfNatToString(i);
      DigitsOfNatToString(j);
    } else if i < 0 && j < 0 {
      assert NatToString(-i) == s[1..] == NatToString(-j);
      DigitsOfNatToString(-i);
      DigitsOfNatToString(-j);
    } else {
      assert false;
    }
  }

  /** A printed integer holds digits and at most a leading minus sign: no other character. */
  lemma IntToStringChars(i: int, c: char)
    requires !IsDigit(c) && c != '-'
    ensures c !in IntToString(i)
  {
  }
}

=== FILE: user.dfy ===
/**
 * The `User` model and its cached `Balance` and `InvestmentPortfolio`
 * (cumplo_common/models/user.py). BALANCE_EXPIRATION_MINUTES and
 * INVESTMENT_EXPIRATION_MINUTES come from a part of utils/constants.py that is
 * not part of this model, so they are parameters; instants are whole minutes.
 */
module User {
  import opened Wrappers
  import opened Text
  import N = Notification
  import Template
  import EventPublic
  import EventPrivate

  const NAME_MAX_LENGTH: int := 30

  datatype Balance = Balance(updatedAt: int, amount: int) {
    predicate HasExpired(now: int, balanceExpirationMinutes: int) {
      updatedAt + balanceExpirationMinutes < now
    }
  }

  /** The cached portfolio; its investment records carry no behaviour and are left out. */
  datatype InvestmentPortfolio = InvestmentPortfolio(updatedAt: int) {
    predicate HasExpired(now: int, investmentExpirationMinutes: int) {
      updatedAt + investmentExpirationMinutes < now
    }
  }

  /**
   * A cached balance or portfolio is stale once its window lies strictly in
   * the past: not at the boundary minute itself, and for good once it is.
   */
  lemma CachedDataExpiry(b: Balance, p: InvestmentPortfolio, window: int, now: int, later: int)
    ensures !b.HasExpired(b.updatedAt + window, window) && b.HasExpired(b.updatedAt + window + 1, window)
    ensures !p.HasExpired(p.updatedAt + window, window) && p.HasExpired(p.updatedAt + window + 1, window)
    ensures b.HasExpired(now, window) && now <= later ==> b.HasExpired(later, window)
    ensures p.HasExpired(now, window) && now <= later ==> p.HasExpired(later, window)
  {
  }

  /** What `should_notify` reads of an event: its value and its recurrence flag. */
  datatype Notifiable = Notifiable(value: string, isRecurring: bool)

  function OfPublic(e: EventPublic.PublicEvent): (n: Notifiable)
    ensures n.isRecurring && n.value == "funding_request.promising"
  {
    Notifiable(e.Value(), e.IsRecurring())
  }

  function OfPrivate(e: EventPrivate.PrivateEvent): (n: Notifiable)
    ensures n.isRecurring <==> e == EventPrivate.PrivateEvent.FUNDING_REQUEST_PROMISING
    ensures n.value == e.Value()
  {
    Notifiable(e.Value(), e.IsRecurring())
  }

  /**
   * The fields `should_notify` and the field bounds concern; credentials,
   * filters, channels, balance, portfolio and session are left out.
   */
  datatype User = User(
    id: string,
    apiKey: string,
    email: string,
    isAdmin: bool,
    name: string,
    expirationMinutes: int,
    notifications: map<string, N.Notification>)
  {
    /** `name` has at most 30 characters; `expiration_minutes` is a `PositiveInt`. */
    ghost predicate Valid() {
      |name| <= NAME_MAX_LENGTH && expirationMinutes > 0
    }
  }

  datatype FieldError = NameTooLong | NotPositive

  /**
   * Assigning `name` (validate_assignment): the text is stripped and then
   * checked against the length bound; a failed assignment leaves the user as it was.
   */
  function SetName(u: User, name: string): (r: Result<User, FieldError>)
    ensures r.Ok? <==> |Strip(name)| <= NAME_MAX_LENGTH
    ensures r.Ok? ==> r.value == u.(name := Strip(name))
  {
    var s := Strip(name);
    if |s| <= NAME_MAX_LENGTH then Ok(u.(name := s)) else Err(NameTooLong)
  }

  function SetExpirationMinutes(u: User, minutes: int): (r: Result<User, FieldError>)
    ensures r.Ok? <==> minutes > 0
    ensures r.Ok? ==> r.value == u.(expirationMinutes := minutes)
  {
    if minutes > 0 then Ok(u.(expirationMinutes := minutes)) else Err(NotPositive)
  }

  /** Validated assignment keeps the field bounds: they are an invariant of every user. */
  lemma AssignmentKeepsValid(u: User, name: string, minutes: int)
    requires u.Valid()
    ensures SetName(u, name).Ok? ==> SetName(u, name).value.Valid()
    ensures SetExpirationMinutes(u, minutes).Ok? ==> SetExpirationMinutes(u, minutes).value.Valid()
  {
  }

  /** The key `should_notify` looks up: `build_id(event, content.id)`. */
  function NotificationKey(event: Notifiable, contentId: int): string {
    N.BuildId(event.value, contentId)
  }

  /**
   * `should_notify`, corrected: notify on every non-recurring event and on a
   * recurring one never notified before; otherwise only when the stored
   * notification has expired and has not been dismissed.
   */
  function ShouldNotify(u: User, event: Notifiable, contentId: int, now: int): (r: bool)
    ensures !event.isRecurring ==> r
    ensures NotificationKey(event, contentId) !in u.notifications ==> r
  {
    if !event.isRecurring then true
    else
      var key := NotificationKey(event, contentId);
      if key !in u.notifications then true
      else N.HasExpired(u.notifications[key], now) && !u.notifications[key].dismissed
  }

  datatype PyError = AttributeError

  /**
   * `should_notify` as written: with the polarity of `Notification.has_expired`
   * as written, and reading `dismissed`, an attribute no notification has, only
   * when `has_expired` holds.
   */
  function ShouldNotifyAsWritten(u: User, event: Notifiable, contentId: int, now: int): (r: Result<bool, PyError>)
    ensures !event.isRecurring || NotificationKey(event, contentId) !in u.notifications ==> r == Ok(true)
    ensures var key := NotificationKey(event, contentId);
      event.isRecurring && key in u.notifications ==> r != Ok(true)
    ensures var key := NotificationKey(event, contentId);
      r.Err? <==> event.isRecurring && key in u.notifications
                  && now < u.notifications[key].date + u.notifications[key].expirationMinutes
  {
    if !event.isRecurring then Ok(true)
    else
      var key := NotificationKey(event, contentId);
      if key !in u.notifications then Ok(true)
      else if !N.HasExpiredAsWritten(u.notifications[key], now) then Ok(false)
      else Err(AttributeError)
  }

  /** A non-recurring event always notifies, whatever the notification map holds. */
  lemma NonRecurringAlwaysNotifies(u: User, event: Notifiable, contentId: int, now: int)
    requires !event.isRecurring
    ensures ShouldNotify(u, event, contentId, now)
    ensures ShouldNotifyAsWritten(u, event, contentId, now) == Ok(true)
  {
  }

  /**
   * The cool-down: once a recurring event has been notified, it is not
   * notified again at any instant up to the end of the notification's window.
   */
  lemma CoolDownSuppresses(u: User, event: Notifiable, contentId: int)
    requires event.isRecurring && NotificationKey(event, contentId) in u.notifications
    ensures var n := u.notifications[NotificationKey(event, contentId)];
      forall now :: now <= n.date + n.expirationMinutes ==> !ShouldNotify(u, event, contentId, now)
  {
  }

  /** A dismissed notification suppresses its recurring event at every instant. */
  lemma DismissedSuppresses(u: User, event: Notifiable, contentId: int)
    requires event.isRecurring && NotificationKey(event, contentId) in u.notifications
    requires u.notifications[NotificationKey(event, contentId)].dismissed
    ensures forall now :: !ShouldNotify(u, event, contentId, now)
  {
  }

  /** A notification not dismissed lets its recurring event fire again at every instant after its window. */
  lemma RefiresAfterWindow(u: User, event: Notifiable, contentId: int)
    requires event.isRecurring && NotificationKey(event, contentId) in u.notifications
    requires !u.notifications[NotificationKey(event, contentId)].dismissed
    ensures var n := u.notifications[NotificationKey(event, contentId)];
      forall now :: now > n.date + n.expirationMinutes ==> ShouldNotify(u, event, contentId, now)
  {
  }

  /** Only the entry under the one key is consulted: users that agree on it get the same answer. */
  lemma OnlyTheKeyIsConsulted(u1: User, u2: User, event: Notifiable, contentId: int, now: int)
    requires var key := NotificationKey(event, contentId);
      (key in u1.notifications <==> key in u2.notifications) &&
      (key in u1.notifications ==> u1.notifications[key] == u2.notifications[key])
    ensures ShouldNotify(u1, event, contentId, now) == ShouldNotify(u2, event, contentId, now)
    ensures ShouldNotifyAsWritten(u1, event, contentId, now) == ShouldNotifyAsWritten(u2, event, contentId, now)
  {
  }

  /**
   * As written, a recurring event that was notified before never notifies
   * again: while the notification is fresh the call raises, once it has
   * expired it answers false. The corrected decision notifies again after expiry.
   */
  lemma {:induction false} AsWrittenNeverRenotifies(u: User, event: Notifiable, contentId: int, now: int)
    requires event.isRecurring && NotificationKey(event, contentId) in u.notifications
    ensures ShouldNotifyAsWritten(u, event, contentId, now) != Ok(true)
    ensures var n := u.notifications[NotificationKey(event, contentId)];
      n.expirationMinutes > 0 && !n.dismissed ==>
        ShouldNotifyAsWritten(u, event, contentId, n.date) == Err(AttributeError) &&
        !ShouldNotify(u, event, contentId, n.date) &&
        ShouldNotify(u, event, contentId, n.date + n.expirationMinutes + 1)
  {
    var n := u.notifications[NotificationKey(event, contentId)];
    if n.expirationMinutes > 0 {
      N.HasExpiredPolarity(n);
    }
  }

  /**
   * The key built for the public event, `funding_request.promising_<id>`, is
   * not a notification id: validating it fails with "Invalid ID format".
   */
  lemma {:induction false} PublicEventKeyIsNotAnId(e: EventPublic.PublicEvent, contentId: int, date: int)
    ensures NotificationKey(OfPublic(e), contentId)[..26] == "funding_request.promising_"
    ensures N.FromValues(N.IdAndDate(NotificationKey(OfPublic(e), contentId), date)) == Err(N.InvalidIdFormat)
  {
    var key := NotificationKey(OfPublic(e), contentId);
    PublicKeyPrefix(key, contentId);
    PublicKeyFirstUnderscore(key);
    N.NotAnId(key, 7, date);
  }

  lemma PublicKeyPrefix(key: string, contentId: int)
    requires key == N.BuildId("funding_request.promising", contentId)
    ensures key[..26] == "funding_request.promising_"
  {
    assert key[..25] == "funding_request.promising";
  }

  /** In such a key the first `_` is the one inside `funding_request`, and a letter follows it. */
  lemma PublicKeyFirstUnderscore(key: string)
    requires |key| >= 26 && key[..26] == "funding_request.promising_"
    ensures key[7] == '_' && '_' !in key[..7]
    ensures !(0 < 7 < |key| - 1 && AllLetters(key[..7]) && AllDigits(key[8..]))
  {
    assert key[..7] == key[..26][..7] == "funding";
    assert key[8..][0] == key[..26][8] == 'r';
  }
}

=== FILE: webhook.dfy ===
/**
 * `WebhookConfiguration` (cumplo_common/models/channel/webhook.py): a channel
 * whose `type_` is the literal WEBHOOK and whose `url` must be an https URL
 * with a hostname that is not a private IP literal.
 *
 * `urllib.parse.urlparse`, `ipaddress.ip_address` and `is_private` are library
 * code; they are the three fields of `Library`. What the validator needs of
 * `is_private` is stated as `ClassifiesReservedBlocks`: the three blocks of
 * section 3 of RFC 1918 and the loopback block 127.0.0.0/8 listed in section
 * 2.2.2 of RFC 6890 are private.
 */
module Webhook {
  import opened Wrappers
  import opened Text
  import opened Channel

  /** `max_length` of the `url` field. */
  const URL_MAX_LENGTH: nat := 2000

  datatype IpAddress = V4(a: nat, b: nat, c: nat, d: nat) | V6(groups: seq<nat>)

  /** The two attributes of `urlparse(value)` the validator reads. */
  datatype ParsedUrl = ParsedUrl(scheme: string, hostname: Option<string>)

  /**
   * `urlparse`, then `ip_address` (`None` stands for the `ValueError` raised on
   * a hostname that is not an IP literal), then `is_private`.
   */
  datatype Library = Library(
    urlparse: string -> ParsedUrl,
    ipAddress: string -> Option<IpAddress>,
    isPrivate: IpAddress -> bool)

  /** 10.0.0.0/8, 172.16.0.0/12 and 192.168.0.0/16 (section 3 of RFC 1918). */
  predicate InRfc1918(ip: IpAddress) {
    ip.V4? && (ip.a == 10 || (ip.a == 172 && 16 <= ip.b <= 31) || (ip.a == 192 && ip.b == 168))
  }

  /** 127.0.0.0/8, "Loopback" in section 2.2.2 of RFC 6890. */
  predicate IsLoopback(ip: IpAddress) {
    ip.V4? && ip.a == 127
  }

  ghost predicate ClassifiesReservedBlocks(lib: Library) {
    forall ip: IpAddress :: InRfc1918(ip) || IsLoopback(ip) ==> lib.isPrivate(ip)
  }

  /** Python truthiness of `url.hostname`: neither `None` nor the empty string. */
  predicate HasHostname(u: ParsedUrl) {
    u.hostname.Some? && |u.hostname.value| > 0
  }

  /** `_validate_url`: the checks in source order, each raising its own message. */
  function ValidateUrl(lib: Library, value: string): (r: Result<string, ChannelError>)
    ensures r.Ok? ==> r.value == value
    ensures r.Err? ==> r.error.Rejected?
  {
    var url := lib.urlparse(value);
    if url.scheme != "https" then Err(Rejected("Only HTTPS URLs are allowed"))
    else if !HasHostname(url) then Err(Rejected("URL must have a hostname"))
    else match lib.ipAddress(url.hostname.value)
      case None => Ok(value)
      case Some(ip) => if lib.isPrivate(ip) then Err(Rejected("Private IP addresses are not allowed")) else Ok(value)
  }

  /**
   * The whole `url` field: the before-validator, then pydantic's own string
   * handling, which strips whitespace and only then checks `max_length`.
   */
  function UrlField(lib: Library, value: string): (r: Result<string, ChannelError>)
    ensures r.Ok? ==> ValidateUrl(lib, value).Ok? && r.value == Strip(value)
    ensures r.Ok? ==> |r.value| <= URL_MAX_LENGTH && Strip(r.value) == r.value
    ensures ValidateUrl(lib, value).Err? ==> r == ValidateUrl(lib, value)
    ensures ValidateUrl(lib, value).Ok? && |Strip(value)| > URL_MAX_LENGTH ==> r == Err(InvalidField("url"))
  {
    match ValidateUrl(lib, value)
    case Err(e) => Err(e)
    case Ok(v) =>
      var s := Strip(v);
      StripIdempotent(v);
      if |s| > URL_MAX_LENGTH then Err(InvalidField("url")) else Ok(s)
  }

  datatype WebhookConfiguration = WebhookConfiguration(common: Common, url: string) {
    /** What every stored configuration satisfies: the literal type and a url its own field accepts unchanged. */
    ghost predicate Valid(lib: Library) {
      common.type_ == WEBHOOK && UrlField(lib, url) == Ok(url)
    }
  }

  /**
   * `WebhookConfiguration(**data)`: `type_` accepts only the literal
   * "WEBHOOK" (no case folding), then the common fields, then `url`.
   */
  function Build(lib: Library, input: Input, url: Option<string>): (r: Result<WebhookConfiguration, ChannelError>)
    ensures r.Ok? ==> r.value.common.type_ == WEBHOOK
    ensures input.type_.Some? && input.type_.value != "WEBHOOK" ==> r == Err(InvalidField("type_"))
    ensures r.Ok? ==> url.Some? && UrlField(lib, url.value) == Ok(r.value.url)
    ensures url.None? ==> r.Err?
    ensures r.Ok? && input.type_.Some? ==> FromValue(input.type_.value) == Some(r.value.common.type_)
  {
    FromValueOfValue(WEBHOOK);
    if input.type_.Some? && input.type_.value != "WEBHOOK" then Err(InvalidField("type_"))
    else match CommonFields(Some(WEBHOOK), input.(type_ := None))
      case Err(e) => Err(e)
      case Ok(c) =>
        if url.None? then Err(MissingField("url"))
        else match UrlField(lib, url.value)
          case Err(e) => Err(e)
          case Ok(u) => Ok(WebhookConfiguration(c, u))
  }

  /** A scheme other than exactly "https" is refused first. */
  lemma NotHttpsRejected(lib: Library, value: string)
    requires lib.urlparse(value).scheme != "https"
    ensures ValidateUrl(lib, value) == Err(Rejected("Only HTTPS URLs are allowed"))
  {
  }

  lemma NoHostnameRejected(lib: Library, value: string)
    requires lib.urlparse(value).scheme == "https" && !HasHostname(lib.urlparse(value))
    ensures ValidateUrl(lib, value) == Err(Rejected("URL must have a hostname"))
  {
  }

  /** A hostname that is a private IP literal is refused. */
  lemma PrivateIpRejected(lib: Library, value: string, ip: IpAddress)
    requires lib.urlparse(value).scheme == "https" && HasHostname(lib.urlparse(value))
    requires lib.ipAddress(lib.urlparse(value).hostname.value) == Some(ip) && lib.isPrivate(ip)
    ensures ValidateUrl(lib, value) == Err(Rejected("Private IP addresses are not allowed"))
  {
  }

  /** A hostname that is not an IP literal passes with no further check, and the value comes back as given. */
  lemma HostNameAccepted(lib: Library, value: string)
    requires lib.urlparse(value).scheme == "https" && HasHostname(lib.urlparse(value))
    requires lib.ipAddress(lib.urlparse(value).hostname.value).None?
    ensures ValidateUrl(lib, value) == Ok(value)
  {
  }

  /** The validator accepts exactly the https URLs with a hostname that is not a private IP literal. */
  lemma {:induction false} ValidateUrlIff(lib: Library, value: string)
    ensures ValidateUrl(lib, value).Ok? <==>
      var u := lib.urlparse(value);
      u.scheme == "https" && HasHostname(u) &&
      (lib.ipAddress(u.hostname.value).None? || !lib.isPrivate(lib.ipAddress(u.hostname.value).value))
  {
  }

  /** With `is_private` honouring RFC 1918 and loopback, a URL whose host is such an address is refused. */
  lemma {:induction false} ReservedHostRejected(lib: Library, value: string, ip: IpAddress)
    requires ClassifiesReservedBlocks(lib)
    requires InRfc1918(ip) || IsLoopback(ip)
    requires lib.urlparse(value).scheme == "https" && HasHostname(lib.urlparse(value))
    requires lib.ipAddress(lib.urlparse(value).hostname.value) == Some(ip)
    ensures ValidateUrl(lib, value).Err?
  {
    assert lib.isPrivate(ip);
  }

  /** No stored url exceeds 2000 characters or carries surrounding whitespace. */
  lemma {:induction false} StoredUrlBounded(lib: Library, input: Input, url: Option<string>)
    requires Build(lib, input, url).Ok?
    ensures |Build(lib, input, url).value.url| <= URL_MAX_LENGTH
    ensures Build(lib, input, url).value.url == Strip(url.value)
  {
  }

  /** Building from what a valid configuration dumps gives that configuration back. */
  lemma {:induction false} BuildOfDump(lib: Library, w: WebhookConfiguration)
    requires w.Valid(lib)
    ensures Build(lib, DumpCommon(w.common), Some(w.url)) == Ok(w)
  {
    var i := DumpCommon(w.common);
    DumpedTypeIsLiteral(w);
    CommonOfDump(w);
    assert UrlField(lib, w.url) == Ok(w.url);
  }

  lemma DumpedTypeIsLiteral(w: WebhookConfiguration)
    requires w.common.type_ == WEBHOOK
    ensures DumpCommon(w.common).type_ == Some("WEBHOOK")
  {
  }

  lemma CommonOfDump(w: WebhookConfiguration)
    ensures CommonFields(Some(WEBHOOK), DumpCommon(w.common).(type_ := None)) == Ok(w.common.(type_ := WEBHOOK))
  {
  }
}

=== FILE: whatsapp.dfy ===
/**
 * `WhatsappConfiguration` (cumplo_common/models/channel/whatsapp.py): a
 * channel whose `phone_number` must pass `re.match(PHONE_NUMBER_REGEX, ·)`.
 *
 * The pattern's text lives in the environment, so a pattern is given here
 * by what `re.match` makes of it: whether the match succeeds on an input
 * (`Pattern`). Any regex has such a predicate, end-anchored or not. Two are
 * written out from the doc-comment's ITU-T Recommendation E.164: the regex
 * `^\+[1-9]\d{1,14}$` (`E164Anchored`) and the same without `$` (`E164Prefix`).
 */
module Whatsapp {
  import opened Wrappers
  import opened Text
  import opened Channel

  /** `re.match(regex, ·)` succeeding, for one regex. */
  type Pattern = string -> bool

  /** `re.match(pattern, value)` succeeds. */
  predicate Matches(pattern: Pattern, value: string) {
    pattern(value)
  }

  /** A regex with no end anchor, `\b` or lookahead at its end: a successful match survives appended text. */
  ghost predicate StartAnchoredOnly(pattern: Pattern) {
    forall v, r :: pattern(v) ==> pattern(v + r)
  }

  /** `re.match` of a regex without end anchors: some prefix of the input lies in the regex's language. */
  function PrefixMatch(language: string -> bool): Pattern {
    v => exists k :: 0 <= k <= |v| && language(v[..k])
  }

  /**
   * The language of `\+[1-9]\d{1,14}`, ITU-T Recommendation E.164 (clause 6):
   * a `+`, a country code that does not start with 0, at most 15 digits in all.
   */
  predicate E164(s: string) {
    3 <= |s| <= 16 && s[0] == '+' && '1' <= s[1] <= '9' && AllDigits(s[1..])
  }

  /** `re.match(r"^\+[1-9]\d{1,14}$", v)`: Python's `$` also matches before one final newline. */
  predicate E164Anchored(v: string) {
    E164(v) || (|v| > 0 && v[|v| - 1] == '\n' && E164(v[..|v| - 1]))
  }

  /** `re.match(r"^\+[1-9]\d{1,14}", v)`. */
  function E164Prefix(): Pattern {
    PrefixMatch(E164)
  }

  /** `_validate_phone_number`. */
  function ValidatePhone(pattern: Pattern, value: string): (r: Result<string, ChannelError>)
    ensures r.Ok? <==> Matches(pattern, value)
    ensures r.Ok? ==> r.value == value
    ensures r.Err? ==> r.error == Rejected("Invalid phone number format")
  {
    if Matches(pattern, value) then Ok(value) else Err(Rejected("Invalid phone number format"))
  }

  /** The `phone_number` field: the validator, then pydantic's whitespace stripping. */
  function PhoneField(pattern: Pattern, value: string): (r: Result<string, ChannelError>)
    ensures r.Ok? <==> Matches(pattern, value)
    ensures r.Ok? ==> r.value == Strip(value)
  {
    match ValidatePhone(pattern, value)
    case Err(e) => Err(e)
    case Ok(v) => Ok(Strip(v))
  }

  /** A regex without end anchors matches by prefix, so it accepts whatever follows a match. */
  lemma {:induction false} PrefixMatchIsStartAnchoredOnly(language: string -> bool)
    ensures StartAnchoredOnly(PrefixMatch(language))
  {
    forall v, r | PrefixMatch(language)(v) ensures PrefixMatch(language)(v + r) {
      var k :| 0 <= k <= |v| && language(v[..k]);
      assert (v + r)[..k] == v[..k];
    }
  }

  /** For such a regex, whatever follows an accepted number is never looked at. */
  lemma MatchIgnoresSuffix(pattern: Pattern, value: string, rest: string)
    requires StartAnchoredOnly(pattern)
    ensures ValidatePhone(pattern, value).Ok? ==> ValidatePhone(pattern, value + rest).Ok?
  {
  }

  /** The `$`-anchored E.164 regex is not of that kind: `+15` matches, `+15 x` does not. */
  lemma {:induction false} E164AnchoredLooksAtTheEnd()
    ensures !StartAnchoredOnly(E164Anchored)
  {
    var v, r := "+15", " x";
    assert E164(v) by { assert v[1..] == "15"; }
    assert (v + r)[4] == 'x' && (v + r)[1..][2] == ' ';
    assert !E164Anchored(v + r);
  }

  /**
   * Without `$`, an E.164 regex checks only the first three characters: a
   * `+`, a non-zero digit and a digit.
   */
  lemma {:induction false} E164PrefixIff(value: string)
    ensures E164Prefix()(value) <==> |value| >= 3 && value[0] == '+' && '1' <= value[1] <= '9' && IsDigit(value[2])
  {
    if E164Prefix()(value) {
      var k :| 0 <= k <= |value| && E164(value[..k]);
      assert value[..k][0] == value[0] && value[..k][1] == value[1] && value[..k][2] == value[2];
      assert value[..k][1..][1] == value[2];
    }
    if |value| >= 3 && value[0] == '+' && '1' <= value[1] <= '9' && IsDigit(value[2]) {
      var p := value[..3];
      assert p[1..] == [value[1], value[2]];
      assert E164(p);
    }
  }

  /** With `$`, the whole number must be E.164, up to one final newline. */
  lemma {:induction false} E164AnchoredIff(value: string)
    requires |value| == 0 || value[|value| - 1] != '\n'
    ensures ValidatePhone(E164Anchored, value).Ok? <==> E164(value)
  {
  }

  /** The anchored regex refuses a number without `+` and one followed by text; it takes a plain number. */
  lemma {:induction false} E164AnchoredExamples()
    ensures ValidatePhone(E164Anchored, "5551234567").Err?
    ensures ValidatePhone(E164Anchored, "+15551234567").Ok?
    ensures ValidatePhone(E164Anchored, "+56 call me").Err?
  {
    assert "5551234567"[0] == '5';
    assert "+15551234567"[1..] == "15551234567";
    assert "+56 call me"[3] == ' ';
  }

  /** Without `$`, a number followed by free text passes; a number without `+` still fails. */
  lemma {:induction false} E164PrefixExamples()
    ensures ValidatePhone(E164Prefix(), "5551234567").Err?
    ensures ValidatePhone(E164Prefix(), "+56 call me").Ok?
  {
    NoPlusNoPrefixMatch();
    TextAfterPrefixMatches();
  }

  lemma {:induction false} NoPlusNoPrefixMatch()
    ensures !E164Prefix()("5551234567")
  {
    E164PrefixIff("5551234567");
  }

  lemma {:induction false} TextAfterPrefixMatches()
    ensures E164Prefix()("+56 call me")
  {
    E164PrefixIff("+56 call me");
  }

  datatype WhatsappConfiguration = WhatsappConfiguration(common: Common, phoneNumber: string) {
    ghost predicate Valid(pattern: Pattern) {
      PhoneField(pattern, phoneNumber) == Ok(phoneNumber)
    }
  }

  /** `WhatsappConfiguration(**data)`: `type_` defaults to WHATSAPP but takes any member. */
  function Build(pattern: Pattern, input: Input, phone: Option<string>): (r: Result<WhatsappConfiguration, ChannelError>)
    ensures r.Ok? ==> phone.Some? && Matches(pattern, phone.value) && r.value.phoneNumber == Strip(phone.value)
    ensures r.Ok? && input.type_.None? ==> r.value.common.type_ == WHATSAPP
    ensures r.Ok? && input.type_.Some? ==> FromValue(input.type_.value) == Some(r.value.common.type_)
    ensures r.Ok? <==> CommonFields(Some(WHATSAPP), input).Ok? && phone.Some? && Matches(pattern, phone.value)
  {
    match CommonFields(Some(WHATSAPP), input)
    case Err(e) => Err(e)
    case Ok(c) =>
      if phone.None? then Err(MissingField("phone_number"))
      else match PhoneField(pattern, phone.value)
        case Err(e) => Err(e)
        case Ok(p) => Ok(WhatsappConfiguration(c, p))
  }

  /** Building from what a valid configuration dumps gives that configuration back. */
  lemma {:induction false} BuildOfDump(pattern: Pattern, w: WhatsappConfiguration)
    requires w.Valid(pattern)
    ensures Build(pattern, DumpCommon(w.common), Some(w.phoneNumber)) == Ok(w)
  {
    FromValueOfValue(w.common.type_);
  }
}

=== FILE: wrappers.dfy ===
/** Option and Result: the model's stand-ins for Python's `None` and for raised exceptions. */
module Wrappers {

  datatype Option<+T> = None | Some(value: T)

  /** `Err` carries the exception the Python code would raise. */
  datatype Result<+T, +E> = Ok(value: T) | Err(error: E)
}
